=== FILE: README.md ===
# A Dafny model of toybox `sed` (the pending implementation)

This project models the core of toybox's `sed` (`toys/pending/sed.c`): the
script compiler `jewel_of_judgement`, the line engine `walk_pattern` with its
range state machine, the output routine `emit`, the buffer helper
`extend_string`, the script splitter `chop_lines`, the delimited-regex reader
`parse_regex`, and the set-up and final flush of `sed_main`. It models the
code as written, including the places where that code does not do what a
`sed` is documented to do (see "Where the code and the documented behaviour
differ").

Modules, one file each:

- `SedTypes` (`types.dfy`): bytes as a `Byte` newtype, C-string views
  (`At`, `CString`), `Option`/`Outcome`, the fatal errors, and `Lib`, the
  library services the editor calls as black boxes (`unescape`, `xregcomp`
  acceptance, `regexec`), passed in as a parameter.
- `Numbers` (`numbers.dfy`): `strtol(line, &line, 0)` on line numbers, and
  decimal printing for `=`.
- `Buffers` (`buffers.dfy`): `extend_string` and `chop_lines`.
- `OutputSink` (`sink.dfy`): `emit` and the `noeol` flag, with the output
  as the bytes written so far.
- `DelimitedRegex` (`regex.dfy`): `parse_regex`.
- `Steps` (`steps.dfy`): the compiled `struct step` list, brace depth and the
  matching `}` of a `{`.
- `Compiler` (`compiler.dfy`): `jewel_of_judgement` line by line, and the
  whole script as `sed_main` feeds it (`-e` strings through `chop_lines`,
  then `-f` lines, then the "no }" check).
- `Addressing` (`address.dfy`): one evaluation of a step's address and its
  `hit` flag.
- `Engine` (`engine.dfy`): the commands, the step loop, `walk_pattern` with
  its one-line delay, and a whole run.
- `Runs` (`runs.dfy`): properties of whole runs and of the hold space.
- `ScriptChecks` (`checks.dfy`): the compiler's refusals and text
  continuation.

Non-termination in the source is modelled by a step budget (`fuel`): a walk
that does not finish within it yields `OutOfFuel`, and the lemmas that show a
hang prove `OutOfFuel` for every budget. Where the C code would read memory
whose contents the model does not track, the result is `UntrackedRead`.

A string the editor holds (the pattern space, the hold space, the stored
next line) is kept as its text, the bytes up to its recorded length, and a
`Tail`: the bytes known to follow the text in the same buffer, at least the
byte at the text's end. `emit` writes a newline over that byte, `N` builds
its buffer from the bytes past the text, `D` scans over them, and the
`xstrdup` of `g` and `h` copies up to the first NUL it finds there.

## Where the code and the documented behaviour differ

The model follows the code in each of these cases:

- An addressed step that does not select the line is not left. The loop
  `continue`s on the same step (sed.c:321), so `1p` on a two-line input never
  finishes (`Runs.SingleLineAddressHangs`). An unselected `{` first jumps to
  its `}`, and executing `}` (or `{`) is a "todo" error.
- `q` only leaves the current pass. Later lines are still read and printed
  (`Runs.QuitKeepsReading`).
- `!` after an address is an endless loop in the compiler (sed.c:579).
- A command without argument (`d D g G h H l n N p P q x =` and any
  unknown byte) must be followed directly by the end of the line or by one of
  `{dDgGhHlnNpPqx=` (sed.c:680). A `;`, a space or a `#` after it makes the
  script a "bad pattern", so `p;N` is refused and `pN` is the way to write
  `p` then `N` on one line (`ScriptChecks.BareCommandNeedsFollower`,
  `ScriptChecks.BareCommandFollowed`, `ScriptChecks.SeparatedCommandsRefused`,
  `ScriptChecks.AdjacentCommands`).
- The text of `a` is queued with a leading newline. A continued text is
  joined without a newline. The argument of `a b c i r t T w :` is not
  consumed, so it is also parsed as commands (`ScriptChecks.ContinuedText`).
- Lines of a `-f` script file keep the newline `getline` leaves at their
  end (sed.c:428-430, 713). So a command without argument at the end of
  such a line is refused, because the newline may not follow it
  (`ScriptChecks.FileLineBareCommandRefused`). And a text ending in a
  backslash never continues from a `-f` file: its last byte is the newline,
  which stays in the text (`ScriptChecks.FileTextNeverWaits`, sed.c:674).
- `N` on the last line ends the pass without printing. With a following
  line, `extend_string` copies as many bytes of the current buffer as the
  following line has and records that length, so the next pass sees the
  current buffer's first bytes, not the two lines joined. Because `p` has
  just written its newline into the buffer, `pN` on two lines of the same
  length prints the first line twice and never the second
  (`Runs.PrintThenJoin`), and `sed N` prints nothing (`Runs.JoinWritesNothing`).
- `D` drops only the leading newline and NUL bytes, not a first line, and
  starts the script again on the rest. The scan does not stop at the end of
  the text, and the byte there is a newline or NUL, so a text made only of
  such bytes runs the scan past its end; with nothing else to do, `sed D`
  never finishes a line (`Runs.DeleteRunFails`).
- `b` without a label leaves the loop when it is the last step. In any other
  position it reads the next step's record as a label, so the outcome
  depends on bytes the model does not track.

## Model

| member | source | states |
|---|---|---|
| `OutputSink.Emit` | toys/pending/sed.c:202-214 | Earlier output is kept; a pending newline is written first; the output then ends with the line and its own newline if it had one; `noeol` ends up as "this line had no newline" |
| `OutputSink.EmitNeverGlues` | toys/pending/sed.c:204-206 | Starting from settled output, what is written always starts on a fresh line, and the output stays settled |
| `Buffers.ExtendString` | toys/pending/sed.c:242-254 | The result keeps the first `oldlen` bytes, adds a newline when the length is negative, copies `|newlen|` bytes and a terminator, and points at that terminator |
| `Buffers.ExtendWithNewline` | toys/pending/sed.c:244-253 | Extending a string by a negative length gives the old text, a newline when the new text is non-empty, then the new text |
| `Buffers.ExtendTwice` | toys/pending/sed.c:329-333 | Two `a` texts queued in turn are the two texts, each behind a newline |
| `Buffers.ChopLines` | toys/pending/sed.c:441-458 | No piece contains a newline |
| `Buffers.ChopJoin` | toys/pending/sed.c:441-458 | Joining the pieces with newlines (and the final newline, if any) gives back the input: nothing is lost or added |
| `Numbers.NumberRoundTrip` | toys/pending/sed.c:558 | A positive decimal number followed by a non-digit reads back as itself and ends right after its digits |
| `DelimitedRegex.ParseRegex` | toys/pending/sed.c:481-517 | A backslash delimiter always fails; on success the source has no NUL and the position is just past the delimiter; on failure it stops at the terminator or at a final backslash |
| `DelimitedRegex.RegexRoundTrip` | toys/pending/sed.c:488-505 | A regex without NUL or backslash, written with escaped delimiters and then the delimiter, reads back as itself and ends just past the delimiter |
| `DelimitedRegex.OnlyRecognitionMatters` | toys/pending/sed.c:494-502 | The result depends only on which bytes the escape table recognises, not on what they decode to |
| `Steps.MatchingClose` | toys/pending/sed.c:312-320 | From a `{`, the scan stops at the first `}` that closes it: the `}` brings the depth back to that of the `{`, and every step in between lies deeper |
| `Addressing.Evaluate` | toys/pending/sed.c:283-309 | A step is selected exactly when its flag differs from `!`; only a matching regex end asks for a deferred clear; a start happens only by regex, equal line number, or `$` on the final call |
| `Addressing.NumericEnd` | toys/pending/sed.c:297 | In a range, a numeric end clears the flag exactly when the counter has passed it, and never defers |
| `Addressing.RegexEndDeferred` | toys/pending/sed.c:289-296 | A matching regex end keeps the current line selected and clears the flag only after the step runs |
| `Addressing.LastStartsOnlyAtEnd` | toys/pending/sed.c:305 | `$` starts exactly on the final call, the one with no incoming line |
| `Addressing.SingleAddressClears` | toys/pending/sed.c:290 | A single address clears its flag on the next evaluation, whatever the line, and that evaluation selects nothing |
| `Addressing.NumericRangeSelects` | toys/pending/sed.c:283-325 | Evaluated once per line, `a,b` with positive numbers selects line k exactly when a <= k <= b, or k = a when b < a |
| `Engine.Initial` | toys/pending/sed.c:714-718 | The run starts with the empty, terminated hold space, no stored line, counter 0, no restart point, fresh output, and each step's flag as the compiler left it |
| `Engine.Dup` | toys/pending/sed.c:353-365 | `xstrdup` of a buffer succeeds exactly when the text has no NUL and a NUL follows in the known bytes; the copy keeps the text and is the C string of the buffer, terminated |
| `Engine.HoldCommand` | toys/pending/sed.c:353-396 | `g`/`h` copy one space into the other exactly when `xstrdup` can, the source unchanged; `G`/`H` append a newline and the other space and terminate; `x` swaps the spaces |
| `Runs.ExchangeTwice` | toys/pending/sed.c:389-396 | `x` twice restores both spaces |
| `Runs.HoldThenGet` | toys/pending/sed.c:353-365 | For a text without NUL in a terminated buffer, `h` then `g` succeed and leave both texts equal to the original line |
| `Runs.AppendFromEmptyHold` | toys/pending/sed.c:357-370 | `H` on the initial empty hold space gives newline plus line; `G` then gives line, two newlines, line |
| `Engine.FindLabel` | toys/pending/sed.c:338-340 | The result is the first `:` step with that label; none means no step carries it |
| `Engine.Branch` | toys/pending/sed.c:334-341 | An empty label leaves the loop with the autoprint; no label at all does so only at the last step and is untracked elsewhere; a label moves the walk exactly when some `:` step carries it, just past the first such step, and otherwise fails with "no :label" |
| `Engine.Queue` | toys/pending/sed.c:329-333 | `a` adds its text to the queue behind a newline; the line itself is untouched |
| `Engine.DeleteLeading` | toys/pending/sed.c:343-352 | `D` never leaves the loop; it fails exactly when the text and the byte after it are all newline or NUL; otherwise it drops exactly the leading newline/NUL run, keeps the rest (non-empty, starting with another byte, when the byte after the text is a break), moves the buffer's later bytes down behind a new terminator, and restarts at the first step with nothing else changed |
| `Engine.Join` | toys/pending/sed.c:377-385 | `N` leaves the pass without printing; at the end of input nothing else changes; with a following line it sets the restart point and stores a line as long as the following one whose bytes, with those after it, are the current buffer's first bytes, a newline if the line is non-empty, the line and a terminator; a line longer than the known buffer is untracked |
| `Engine.Execute` | toys/pending/sed.c:329-401 | Every command except `b` and `D` that goes on moves to the next step; the flags and counter are kept |
| `Engine.StepOnce` | toys/pending/sed.c:279-325 | One turn keeps the flags and the counter and stays within the program |
| `Engine.Walk` | toys/pending/sed.c:279-402 | A walk that ends inside the program had budget left; flags and counter are kept |
| `Engine.Finish` | toys/pending/sed.c:404-413 | Without `-n` and unless suppressed the line is written, then the queued text as a line; nothing else changes |
| `Engine.Chomp` | toys/pending/sed.c:274 | The line and its newline flag give back the stored bytes; the flag says whether they ended in a newline |
| `Engine.Store` | toys/pending/sed.c:267-271 | An incoming line replaces the stored one, with a fresh terminator after it; at the end of input nothing changes |
| `Engine.Begin` | toys/pending/sed.c:259-278 | A pass starts on the stored line without its newline, with a NUL written over that newline and the rest of the buffer kept; it stores the incoming line, counts the line, uses up the restart point, and starts at the first step unless one was set |
| `Engine.AfterEmit` | toys/pending/sed.c:205 | After `emit` the byte at the text's end is a newline when the line had one and is unchanged otherwise; the bytes after it are kept |
| `Engine.WalkPattern` | toys/pending/sed.c:257-275 | With no stored line, or an empty one, the call only stores the incoming line; otherwise it counts exactly one line |
| `Engine.Feed` | toys/pending/sed.c:421-434 | One `walk_pattern` call per input line, in order: the hit flags keep one per step |
| `Engine.FeedCounts` | toys/pending/sed.c:421-434 | Feeding never lowers the line count and raises it by at most one per line, and by strictly less than the number of lines when no line was stored before |
| `Engine.FeedAppend` | toys/pending/sed.c:421-434 | Feeding two runs of lines one after the other is feeding them as one run, an error in the first ending it |
| `Engine.Run` | toys/pending/sed.c:720-723 | The input lines, then the final call that flushes the stored line; an empty input leaves the initial state |
| `Engine.RunCounts` | toys/pending/sed.c:720-723 | A run counts at most as many lines as it reads |
| `Runs.EchoRun` | toys/pending/sed.c:404 | With no script, with `-n` and `p`, with `q`, or with `b` alone, the output is exactly the input, including a missing final newline |
| `Runs.EmptyScriptCopiesInput` | toys/pending/sed.c:720-723 | With no commands, the output of a run is the input |
| `Runs.QuietPrintCopiesInput` | toys/pending/sed.c:386-387 | Under `-n`, `p` alone writes the input unchanged |
| `Runs.QuitKeepsReading` | toys/pending/sed.c:388 | `q` does not end the run: the output is the whole input |
| `Runs.DeleteWritesNothing` | toys/pending/sed.c:342 | With `d`, a run writes nothing, whatever the input |
| `Runs.AppendFollowsLine` | toys/pending/sed.c:409-413 | Under `a text`, the line is written and ended with a newline even if it had none; then a newline when the text is non-empty, then the text and a newline |
| `Runs.JoinSwallowsNextLine` | toys/pending/sed.c:377-385 | Under `N`, a pass writes nothing; the line stored for the next pass is as long as the following line and, when that is shorter than the current one, is the current line's first bytes |
| `Runs.JoinWritesNothing` | toys/pending/sed.c:377-385 | A run of `sed N` that finishes writes nothing, with or without `-n` |
| `Runs.PrintJoinCompiles` | toys/pending/sed.c:586-680 | The script `pN` compiles to the program `p` then `N` that `Runs.PrintThenJoin` runs |
| `Runs.PrintThenJoin` | toys/pending/sed.c:377-387 | `pN` on two lines of the same length, the first ending in a newline, writes the first line twice and never the second |
| `Runs.DeleteNeverFinishes` | toys/pending/sed.c:343-352 | `sed D` on a pass whose text is followed by a newline or NUL never completes the walk, for every budget |
| `Runs.DeleteRunFails` | toys/pending/sed.c:343-352 | A run of `sed D` on any input with at least one line fails |
| `Runs.Alternate` | toys/pending/sed.c:373-376 | Every other line: the count is half the lines (rounded up when starting at the first), and entry i is line 2i or 2i+1 |
| `Runs.NextDeleteCompiles` | toys/pending/sed.c:586-680 | The script `nd` compiles to the program `n` then `d` that `Runs.NextDeleteKeepsOddLines` runs |
| `Runs.FeedAlternates` | toys/pending/sed.c:373-376 | Feeding lines to `nd` alternates between printing and dropping: the restart point flips once per line and the output gains every other line |
| `Runs.NextDeleteKeepsOddLines` | toys/pending/sed.c:373-376 | `nd` writes the first, third, fifth, ... input line and nothing else |
| `Runs.FeedNumbers` | toys/pending/sed.c:397 | Feeding lines to `sed -n =` counts each and writes the numbers 1 to the count, one per line |
| `Runs.QuietNumbering` | toys/pending/sed.c:397 | `sed -n =` writes the numbers 1 to the number of input lines, one per line |
| `Runs.UnselectedStepSpins` | toys/pending/sed.c:309-321 | An unselected step whose flag does not move never lets the walk finish |
| `Runs.FirstLineSelected` | toys/pending/sed.c:305 | Under `1p`, line 1 is selected and its flag stays set |
| `Runs.SecondLineSpins` | toys/pending/sed.c:288-290 | Under `1p`, line 2 clears the flag, is not selected, and the walk never finishes |
| `Runs.SingleLineAddressHangs` | toys/pending/sed.c:283-321 | `1p` on two input lines never finishes, for every budget |
| `Runs.UnselectedBlockStopsAtClose` | toys/pending/sed.c:312-321 | An unselected `{` moves to its matching `}`, whose execution is the "todo: }" error |
| `Compiler.ParseAddresses` | toys/pending/sed.c:554-574 | The position only advances; a second address is never set without a first |
| `Compiler.ParseArgument` | toys/pending/sed.c:651-677 | The command and its addresses are kept; an error points at the argument's start |
| `Compiler.TextArgument` | toys/pending/sed.c:657-677 | For `a c i r w`, an empty rest of line is refused; otherwise the rest of the line is added to the step's text, a final backslash is dropped, and the step waits exactly when the line ends in a backslash |
| `Compiler.LabelArgument` | toys/pending/sed.c:657-671 | For `b t T :`, an empty label is refused for `:` and leaves `b t T` as they were; otherwise the label is the longest non-empty run of bytes other than whitespace and `;`, added to the step's text, and the step does not wait |
| `Compiler.Continue` | toys/pending/sed.c:527-537 | Taking a continuation line keeps the steps before the waiting one, the step count and the brace depth; an error points at the line's start |
| `Compiler.SubstFlags` | toys/pending/sed.c:630-648 | The flags loop ends past its start and within the line, keeping command and addresses |
| `Compiler.ParseSubst` | toys/pending/sed.c:595-622 | `s` consumes at least one byte and stays within the line, keeping command and addresses |
| `Compiler.ParseCommand` | toys/pending/sed.c:576-594 | One command adds exactly one step behind the existing ones and keeps brace depth and address restrictions valid |
| `Compiler.SkipSeparators` | toys/pending/sed.c:546 | Skipping stops at the first byte from the offset that is neither whitespace nor `;`, every byte passed over being one of them |
| `Compiler.SeparatorsSkipped` | toys/pending/sed.c:546 | Reading a line's commands from the start of a run of separators or from any offset inside it gives the same result |
| `Compiler.ParseLine` | toys/pending/sed.c:542-547 | After the separators, the end of the line or a `#` ends it with no step added; a success keeps the earlier steps in front |
| `Compiler.CompileLine` | toys/pending/sed.c:520-548 | A compiled line keeps the earlier steps in front: all of them when no step waits, all but the waiting one when a step waits for a continuation |
| `Compiler.CompileLinesAppend` | toys/pending/sed.c:710-713 | Compiling two runs of script lines one after the other is compiling them as one run, the first refusal ending it |
| `Compiler.ScriptLines` | toys/pending/sed.c:710-713 | The lines of the `-f` files come last, after every line of every `-e` script, unchanged |
| `Compiler.CompileScript` | toys/pending/sed.c:710-715 | A script that compiles is well braced, and no step breaks the address restrictions |
| `ScriptChecks.LeadingNumber` | toys/pending/sed.c:554-558 | A line number at the start of a line, not followed by a comma, is read as the only address |
| `ScriptChecks.AddressedCloseOrLabelRefused` | toys/pending/sed.c:582-583 | `}` or `:` after any address or range is refused just after the command byte |
| `ScriptChecks.RangedOneAddressCommandRefused` | toys/pending/sed.c:584 | `a i q r =` after a range is refused just after the command byte, whatever the two addresses are |
| `ScriptChecks.BareCommandNeedsFollower` | toys/pending/sed.c:591-680 | After any addresses, a command without argument (a byte other than `!` outside `ScriptChecks.ArgumentCommands`, with `q` and `=` given at most one address) followed by a byte outside `ScriptChecks.Followers` (a `;`, a space, `#` …) is refused just after the command byte |
| `ScriptChecks.BareCommandFollowed` | toys/pending/sed.c:591-680 | The same command followed by the end of the line or one of `{dDgGhHlnNpPqx=` is added as a step with its addresses, the brace depth unchanged, and parsing resumes at that following byte |
| `ScriptChecks.ArgumentCommandsTests` | toys/pending/sed.c:591-680 | A byte is in `ArgumentCommands` exactly when one of the compiler's tests before its last case (`{`, `}`, `s`, `y`, one of `abcirtTw:`) holds for it |
| `ScriptChecks.FollowersTest` | toys/pending/sed.c:680 | A byte is in `Followers` exactly when the compiler's test after a command without argument accepts it: NUL or one of `{dDgGhHlnNpPqx=` |
| `ScriptChecks.SeparatedCommandsRefused` | toys/pending/sed.c:680 | Two of `dDgGhHlnNpPqx=` with a `;` between them, such as `p;N` or `n;d`, are refused at the `;` |
| `ScriptChecks.AdjacentCommands` | toys/pending/sed.c:680 | Two of `dDgGhHlnNpPqx=` written next to each other, such as `pN` or `nd`, compile to those two steps |
| `ScriptChecks.OneLineScript` | toys/pending/sed.c:710-715 | A single `-e` script without newline or NUL is compiled as one line, then checked for an open block |
| `ScriptChecks.BlankOrCommentLine` | toys/pending/sed.c:546-547 | A line of separators only, or separators followed by a `#` comment, leaves the program unchanged |
| `ScriptChecks.FileLineBareCommandRefused` | toys/pending/sed.c:680 | A command without argument followed by the newline of a `-f` line is refused just after the command |
| `ScriptChecks.FileTextNeverWaits` | toys/pending/sed.c:672-677 | The text of a line ending in a newline takes the whole rest of the line, newline included, and never waits for a continuation |
| `ScriptChecks.AddressWithoutCommandRefused` | toys/pending/sed.c:576-577 | A line that is only addresses and whitespace is refused at its end, whatever the addresses are |
| `ScriptChecks.NumberAloneRefused` | toys/pending/sed.c:576-577 | A positive line number alone on a line is refused at its end |
| `ScriptChecks.NegationHangs` | toys/pending/sed.c:579 | Any addresses followed, after whitespace, by `!` make the compiler loop forever |
| `ScriptChecks.NumberNegatedHangs` | toys/pending/sed.c:579 | A positive line number followed by `!` and anything makes the compiler loop forever |
| `ScriptChecks.UnopenedCloseRefused` | toys/pending/sed.c:593-594 | A `}` with no open block is refused just after it |
| `ScriptChecks.UnclosedBlockRefused` | toys/pending/sed.c:714-715 | The script `{` is refused with "no }" |
| `ScriptChecks.TextWaitsForContinuation` | toys/pending/sed.c:670-677 | `a #\` keeps `#`, marks the step as waiting, and the rest of the line is read as a comment |
| `ScriptChecks.ContinuationIsReparsed` | toys/pending/sed.c:527-537 | For any waiting text step: an empty next line is refused; otherwise the line, less a final backslash, is added to the waiting text without a newline, the step waits again exactly when the line ends in a backslash, and the whole line is then also read as commands |
| `ScriptChecks.ContinuedText` | toys/pending/sed.c:657-680 | The two lines `a #\` and `x` compile to an `a` step with text `#x` followed by an `x` step |

## Left out

- File and stream I/O (`do_lines`, `getline`, `loopfiles_rw`, `xopen`, `writeall`): input is a list of lines, and output is a list of writes.
- `-i` in-place editing, `--version` and the other command-line flags. The `-r` flag is folded into the regex services.
- Regex compilation and matching, and the escape table. They are library code, and the model takes them as the parameter `Lib`.
- The commands the engine reports as "todo" (`c i l r s t T w y P`, `{`, `}`). Their compiled form is modelled; running them is the `Todo` error.
- The contents of memory behind `UntrackedRead`: the C code reads there, and the model stops.
- Engine.HoldCommand: `g` and `h` on a text holding a NUL stop the model at once with `UntrackedRead`. The C code copies up to the NUL, keeps the old recorded length, and reads untracked memory only later, when that length is used.
- Engine.Branch: `b` without a label in any position but the last is `UntrackedRead`; which bytes the C code then reads as a label is not modelled.
- Short writes in `emit`: `writeall` never fails in the model.
- The ordering of `=`'s buffered `xprintf` against `emit`'s direct writes: both are modelled as writes in program order.
- C integer widths (`int` offsets, `long` counters, saturation of `strtol`): integers are unbounded.
- A `:` step without a label: the compiler never produces one, and `FindLabel` treats it as not matching.
- Engine.Execute: states only what every command keeps. The effects are stated by `HoldCommand`, `Queue`, `Branch`, `DeleteLeading` and `Join`, and, for `p`, `q`, `d`, `n` and `=`, by the run lemmas (`Runs.EchoRun`, `Runs.DeleteWritesNothing`, `Runs.NextDeleteKeepsOddLines`, `Runs.QuietNumbering`).
- Engine.StepOnce: states only what a turn keeps. Selection is stated by `Addressing.Evaluate`, and the `{` skip by `Runs.UnselectedBlockStopsAtClose`.
- Engine.Walk: a hang is `OutOfFuel` within the given budget. The hang lemmas prove it for every budget.
- Compiler.ParseAddresses: states only bounds. Numeric addresses are stated by `ScriptChecks.LeadingNumber`, and regexes by `DelimitedRegex.RegexRoundTrip`.
- Compiler.ParseArgument: its own contract states only what is kept and where errors point. The argument itself is stated by `Compiler.TextArgument` and `Compiler.LabelArgument`.
- Compiler.SubstFlags: states only bounds and what is kept; the flag bits themselves are not stated.
- Compiler.ParseSubst: states only bounds and what is kept. The pattern and replacement texts are not stated.
- Compiler.ParseCommand: states only the shape of the result. The refusals of a misplaced address, a missing command, `!`, an unopened `}` and a byte after a command without argument are stated by the `ScriptChecks` lemmas; the refusals inside an `s` command (no delimiter, an unterminated pattern or replacement, a bad flag, `w` without a name) are not stated.
- Compiler.CompileScript: states well-bracedness and restrictions of a success, not that every failure is one of the stated errors.
- Buffers.ChopLines: its own contract states only that pieces are newline-free. `Buffers.ChopJoin` states the round trip. The duplicate `len` argument passed to the callback is not modelled, because the compiler ignores it.

=== FILE: address.dfy ===
/** The per-step range state machine of `walk_pattern`: how a step's `hit`
    flag moves on one evaluation, and whether the step is selected. */
module Addressing {
  import opened SedTypes
  import opened Steps

  /** One evaluation: the new `hit`, whether the step is selected
      (`hit ^ not`), and whether a regex end matched so that `hit` is to be
      cleared once the step has run (`miss`). */
  datatype Verdict = Verdict(hit: bool, selected: bool, miss: bool)

  /** Whether evaluating the step's address hands the pattern space to the
      regex matcher: the end regex inside a range, the start regex outside
      one. */
  predicate ReadsLine(s: Step, hit: bool) {
    if hit then LMatch(s.second) == 0 && s.second.Re? else LMatch(s.first) == 0
  }

  /** Evaluate the address of a step whose first slot is set, given its
      `hit` flag, the line counter, the current line, and whether this is the
      final flush call (no `pline`). While in a range only the end is tested:
      no second address clears `hit` at once, a numeric end clears it when the
      counter has passed it, a regex end that matches keeps this line and asks
      for `hit` to be cleared afterwards, and `$` never ends it. Outside a
      range only the start is tested. Regexes read `line`, the pattern-space
      buffer, as a C string: up to its first NUL. */
  function Evaluate(s: Step, hit: bool, count: nat, line: Bytes, atEnd: bool, lib: Lib): (v: Verdict)
    requires HasAddress(s)
    ensures v.selected <==> v.hit != s.negate
    ensures v.miss ==> hit && v.hit && s.second.Re?
    ensures !hit && v.hit ==> s.first.Re? || LMatch(s.first) == count || (s.first == Last && atEnd)
  {
    if hit then
      var lm := LMatch(s.second);
      if lm == 0 then
        if !s.second.Re? then Verdict(false, s.negate, false)
        else
          var m := lib.matches(s.second.source, CString(line));
          Verdict(true, !s.negate, m)
      else if lm > 0 && lm < count then Verdict(false, s.negate, false)
      else Verdict(true, !s.negate, false)
    else
      var lm := LMatch(s.first);
      var start :=
        if lm == 0 then lib.matches(s.first.source, CString(line))
        else lm == count || (lm == -1 && atEnd);
      Verdict(start, start != s.negate, false)
  }

  /** The `hit` flag left once a selected step has run. */
  function AfterRun(v: Verdict): bool {
    v.hit && !v.miss
  }

  /** A numeric range end ends the range only once the counter is past it;
      when the end lies before the start, only the start line is selected. */
  lemma NumericEnd(s: Step, count: nat, line: Bytes, atEnd: bool, lib: Lib)
    requires HasAddress(s) && s.second.Num? && s.second.n > 0
    ensures var v := Evaluate(s, true, count, line, atEnd, lib);
            v.hit == !(s.second.n < count) && !v.miss
  {
  }

  /** A regex end that matches keeps the current line selected and leaves
      the range once the step has run. */
  lemma RegexEndDeferred(s: Step, count: nat, line: Bytes, atEnd: bool, lib: Lib)
    requires HasAddress(s) && s.second.Re? && lib.matches(s.second.source, CString(line))
    ensures var v := Evaluate(s, true, count, line, atEnd, lib);
            v.hit && v.miss && (v.selected <==> !s.negate) && !AfterRun(v)
  {
  }

  /** `$` starts a match exactly on the final flush call. */
  lemma LastStartsOnlyAtEnd(s: Step, count: nat, line: Bytes, atEnd: bool, lib: Lib)
    requires s.first == Last
    ensures HasAddress(s)
    ensures Evaluate(s, false, count, line, atEnd, lib).hit <==> atEnd
  {
  }

  /** A single address clears `hit` on the next evaluation, whatever the
      line holds, so that evaluation does not select the step. */
  lemma SingleAddressClears(s: Step, count: nat, line: Bytes, atEnd: bool, lib: Lib)
    requires HasAddress(s) && LMatch(s.second) == 0 && !s.second.Re? && !s.negate
    ensures var v := Evaluate(s, true, count, line, atEnd, lib);
            !v.hit && !v.selected
  {
  }

  /** The `hit` flag of a numeric range after one evaluation on each of the
      lines 1..k (numeric addresses ignore the line text). */
  function HitAfter(s: Step, k: nat, lib: Lib): bool
    requires HasAddress(s)
  {
    if k == 0 then false
    else AfterRun(Evaluate(s, HitAfter(s, k - 1, lib), k, [], false, lib))
  }

  /** The reference meaning of `a,b` for positive line numbers: lines a to b
      inclusive, or just line a when b < a. */
  predicate InNumericRange(a: nat, b: nat, k: nat) {
    a <= k && (k <= b || k == a)
  }

  lemma {:induction false} HitAfterRange(s: Step, k: nat, lib: Lib)
    requires s.first.Num? && s.second.Num? && s.first.n > 0 && s.second.n > 0
    ensures HasAddress(s)
    ensures HitAfter(s, k, lib) <==> k > 0 && InNumericRange(s.first.n, s.second.n, k)
  {
    if k > 0 {
      HitAfterRange(s, k - 1, lib);
    }
  }

  /** Evaluated once per line, a range of two positive line numbers selects
      exactly the lines of its reference meaning. */
  lemma NumericRangeSelects(s: Step, k: nat, line: Bytes, lib: Lib)
    requires s.first.Num? && s.second.Num? && s.first.n > 0 && s.second.n > 0 && !s.negate
    requires k >= 1
    ensures HasAddress(s)
    ensures Evaluate(s, HitAfter(s, k - 1, lib), k, line, false, lib).selected
            <==> InNumericRange(s.first.n, s.second.n, k)
  {
    HitAfterRange(s, k - 1, lib);
  }
}

=== FILE: buffers.dfy ===
/** The byte-buffer helpers: `extend_string`, which grows a NUL-terminated
    buffer by a second string with an optional newline in between, and
    `chop_lines`, which hands a script blob to the compiler one line at a
    time. */
module Buffers {
  import opened SedTypes

  /** A reallocated buffer (terminator included) and the offset of its
      terminating NUL, which is what `extend_string` returns a pointer to. */
  datatype Extended = Extended(buf: Bytes, end: nat) {
    /** The string the buffer holds, without its terminator. */
    function Text(): Bytes
      requires end <= |buf|
    {
      buf[..end]
    }
  }

  /** Magnitude of the signed length argument. */
  function Magnitude(n: int): nat {
    if n < 0 then -n else n
  }

  /** `extend_string(&old, new, oldlen, newlen)`: keep the first `oldlen`
      bytes of the old buffer `base`, add a newline when `newlen` is
      negative, then the first `|newlen|` bytes of `more`, then a NUL. */
  function ExtendString(base: Bytes, more: Bytes, oldlen: int, newlen: int): (r: Extended)
    requires 0 <= oldlen <= |base|
    requires Magnitude(newlen) <= |more|
    ensures var sep := if newlen < 0 then 1 else 0;
            && |r.buf| == oldlen + sep + Magnitude(newlen) + 1
            && r.end + 1 == |r.buf|
            && r.buf[r.end] == NUL
            && r.buf[..oldlen] == base[..oldlen]
            && (newlen < 0 ==> r.buf[oldlen] == NL)
            && r.buf[oldlen + sep..r.end] == more[..Magnitude(newlen)]
  {
    var sep: Bytes := if newlen < 0 then [NL] else [];
    var buf := base[..oldlen] + sep + more[..Magnitude(newlen)] + [NUL];
    Extended(buf, |buf| - 1)
  }

  /** The separator `extend_string` inserts for a text passed with a negated
      length: a newline, except for the empty text, whose negated length is
      not negative. */
  function Separator(t: Bytes): Bytes {
    if |t| > 0 then [NL] else []
  }

  /** Growing a string by a text with negated length, as the `a` command
      does, adds the separator and the text. */
  lemma ExtendWithNewline(s: Bytes, t: Bytes)
    ensures ExtendString(s, t, |s|, -|t|).Text() == s + Separator(t) + t
  {
    var e := ExtendString(s, t, |s|, -|t|);
    assert e.buf == s[..|s|] + Separator(t) + t[..|t|] + [NUL];
    assert s[..|s|] == s && t[..|t|] == t;
    assert e.Text() == e.buf[..|e.buf| - 1];
  }

  /** Two consecutive `a` texts are queued with a separator before each. */
  lemma ExtendTwice(s: Bytes, t1: Bytes, t2: Bytes)
    ensures var e1 := ExtendString(s, t1, |s|, -|t1|);
            var e2 := ExtendString(e1.Text(), t2, |e1.Text()|, -|t2|);
            e2.Text() == s + Separator(t1) + t1 + Separator(t2) + t2
  {
    ExtendWithNewline(s, t1);
    ExtendWithNewline(s + Separator(t1) + t1, t2);
  }

  /** Offset of the first newline in `s`, if any. */
  function FindNewline(s: Bytes): (r: Option<nat>)
    ensures r.Some? ==> r.value < |s| && s[r.value] == NL
    ensures r.Some? ==> NL !in s[..r.value]
    ensures r.None? ==> NL !in s
  {
    if s == [] then None
    else if s[0] == NL then Some(0)
    else match FindNewline(s[1..])
      case None => None
      case Some(k) =>
        assert s[..k + 1] == [s[0]] + s[1..][..k];
        Some(k + 1)
  }

  /** `chop_lines`: the lines the compiler is called with, split at each
      newline; a final segment is passed only when bytes remain after the
      last newline. */
  function ChopLines(data: Bytes): (r: seq<Bytes>)
    ensures forall i :: 0 <= i < |r| ==> NL !in r[i]
    decreases |data|
  {
    match FindNewline(data)
    case None => if |data| > 0 then [data] else []
    case Some(k) => [data[..k]] + ChopLines(data[k + 1..])
  }

  /** The inverse direction: lines glued back together with newlines. */
  function JoinLines(lines: seq<Bytes>): Bytes {
    if lines == [] then []
    else if |lines| == 1 then lines[0]
    else lines[0] + [NL] + JoinLines(lines[1..])
  }

  /** Whether a blob ends in a newline (which `chop_lines` drops). */
  predicate EndsWithNewline(s: Bytes) {
    |s| > 0 && s[|s| - 1] == NL
  }

  /** The bytes `chop_lines` temporarily overwrites are restored: joining
      the lines it produced with newlines, plus the final newline if the
      blob had one, gives back the blob. */
  lemma {:induction false} ChopJoin(data: Bytes)
    ensures JoinLines(ChopLines(data)) + (if EndsWithNewline(data) then [NL] else []) == data
    decreases |data|
  {
    match FindNewline(data)
    case None =>
      if |data| > 0 {
        assert data[|data| - 1] in data;
      }
    case Some(k) =>
      var rest := data[k + 1..];
      ChopAt(data, k);
      ChopJoin(rest);
      if rest == [] {
        assert EndsWithNewline(data);
        assert JoinLines([data[..k]]) == data[..k];
      } else {
        TailNotEmpty(rest);
        JoinCons(data[..k], ChopLines(rest));
        var e: Bytes := if EndsWithNewline(rest) then [NL] else [];
        assert data[..k] + [NL] + JoinLines(ChopLines(rest)) + e
            == data[..k] + [NL] + (JoinLines(ChopLines(rest)) + e);
      }
  }

  /** One split of `chop_lines` at the first newline. */
  lemma ChopAt(data: Bytes, k: nat)
    requires FindNewline(data) == Some(k)
    ensures data == data[..k] + [NL] + data[k + 1..]
    ensures ChopLines(data) == [data[..k]] + ChopLines(data[k + 1..])
    ensures data[k + 1..] != [] ==> EndsWithNewline(data) == EndsWithNewline(data[k + 1..])
  {
  }

  lemma JoinCons(head: Bytes, tail: seq<Bytes>)
    requires tail != []
    ensures JoinLines([head] + tail) == head + [NL] + JoinLines(tail)
  {
    assert ([head] + tail)[1..] == tail;
  }

  lemma TailNotEmpty(rest: Bytes)
    requires rest != []
    ensures ChopLines(rest) != []
  {
  }
}

=== FILE: checks.dfy ===
/** The compiler's refusals, stated over whole families of script lines:
    what a line with a misplaced address, a missing command, an unmatched
    brace, a `!` or a stray byte after a command without argument compiles
    to, and how a text continued with a backslash is joined with the next
    line. */
module ScriptChecks {
  import opened SedTypes
  import opened Numbers
  import opened Buffers
  import opened Steps
  import opened Compiler

  /** A positive line number in decimal is read as a numeric address. */
  lemma NumberAt(pre: Bytes, n: nat, tail: Bytes, lib: Lib)
    requires n > 0 && !IsDigit(At(tail, 0))
    ensures ParseAddress(pre + Decimal(n) + tail, |pre|, lib) == Found(Num(n), |pre| + |Decimal(n)|)
  {
    var line := pre + Decimal(n) + tail;
    NumberRoundTrip(pre, n, tail);
    assert At(line, |pre|) == Decimal(n)[0];
  }

  /** A line number at the start of a line, not followed by a comma, is
      read as the only address. */
  lemma LeadingNumber(n: nat, tail: Bytes, lib: Lib)
    requires n > 0 && |tail| > 0 && !IsDigit(tail[0]) && tail[0] != COMMA
    ensures ParseAddresses(Decimal(n) + tail, 0, lib) == Ok(Addresses(Num(n), Absent, |Decimal(n)|))
  {
    var line := Decimal(n) + tail;
    NumberAt([], n, tail, lib);
    assert [] + Decimal(n) + tail == line;
    assert At(line, 0) == Decimal(n)[0];
    assert At(line, |Decimal(n)|) == tail[0];
  }

  /** A line built from digits and NUL-free text is its own C string. */
  lemma NoNul(n: nat, tail: Bytes)
    requires NUL !in tail
    ensures NUL !in Decimal(n) + tail
  {
    var line := Decimal(n) + tail;
    forall k | 0 <= k < |line| ensures line[k] != NUL {
      if k < |Decimal(n)| {
        assert IsDigit(Decimal(n)[k]);
      } else {
        assert line[k] == tail[k - |Decimal(n)|];
      }
    }
  }

  /** `}` and `:` take no address: a line that gives one is refused just
      after the command byte, whatever the address is. */
  lemma AddressedCloseOrLabelRefused(c: Compiled, line: Bytes, first: Addr, second: Addr, p: nat, lib: Lib)
    requires Valid(c) && !Continuing(c) && NUL !in line
    requires |line| > 0 && !IsSpace(line[0]) && line[0] != SEMI
    requires ParseAddresses(line, 0, lib) == Ok(Addresses(first, second, p)) && first != Absent
    requires p < |line| && (line[p] == RBRACE || line[p] == COLON)
    ensures CompileLine(c, line, lib) == Err(BadPattern(p + 1))
  {
    assert CString(line) == line;
    assert SkipSeparators(line, 0) == 0;
    assert SkipSpaces(line, p) == p;
    assert IsOneOf(line[p], "}:");
    assert ParseCommand(c, line, 0, lib) == Err(BadPattern(p + 1));
  }

  /** `a i q r =` take at most one address: a line whose addresses are a
      range and whose command is one of them is refused just after the
      command byte, whatever the two addresses are. */
  lemma RangedOneAddressCommandRefused(c: Compiled, line: Bytes, first: Addr, second: Addr, p: nat, lib: Lib)
    requires Valid(c) && !Continuing(c) && NUL !in line
    requires |line| > 0 && !IsSpace(line[0]) && line[0] != SEMI
    requires ParseAddresses(line, 0, lib) == Ok(Addresses(first, second, p)) && second != Absent
    requires p < |line| && IsOneOf(line[p], "aiqr=")
    ensures CompileLine(c, line, lib) == Err(BadPattern(p + 1))
  {
    assert CString(line) == line;
    assert SkipSeparators(line, 0) == 0;
    assert SkipSpaces(line, p) == p;
    assert ParseCommand(c, line, 0, lib) == Err(BadPattern(p + 1));
  }

  /** The bytes the compiler dispatches before its last case: the braces,
      `s`, `y`, and the commands that read a text or label argument. Every
      other byte after the addresses (but `!`) is a command without
      argument. */
  const ArgumentCommands: set<Byte> :=
    {LBRACE, RBRACE, B('s'), B('y'), B('a'), B('b'), B('c'), B('i'), B('r'), B('t'), B('T'), B('w'), B(':')}

  /** The bytes that may follow a command without argument: the end of the
      line or one of `{dDgGhHlnNpPqx=`. */
  const Followers: set<Byte> :=
    {NUL, LBRACE, B('d'), B('D'), B('g'), B('G'), B('h'), B('H'), B('l'), B('n'), B('N'), B('p'), B('P'), B('q'), B('x'), B('=')}

  /** `ArgumentCommands` is exactly the compiler's byte tests before the last
      case. */
  lemma ArgumentCommandsTests(cmd: Byte)
    ensures cmd in ArgumentCommands <==> IsOneOf(cmd, "{}sy") || IsOneOf(cmd, "abcirtTw:")
  {
    if IsOneOf(cmd, "{}sy") {
      var k :| 0 <= k < 4 && "{}sy"[k] == cmd as int as char;
    } else if IsOneOf(cmd, "abcirtTw:") {
      var k :| 0 <= k < 9 && "abcirtTw:"[k] == cmd as int as char;
    }
  }

  /** `Followers` is exactly the compiler's test of the byte after a command
      without argument. */
  lemma FollowersTest(b: Byte)
    ensures b in Followers <==> InSet(b, "{dDgGhHlnNpPqx=")
  {
    if b != NUL && InSet(b, "{dDgGhHlnNpPqx=") {
      var k :| 0 <= k < 15 && "{dDgGhHlnNpPqx="[k] == b as int as char;
    }
  }

  /** A command without argument (any byte but `!` outside
      `ArgumentCommands`; `q` and `=` only with at most one address) must be
      followed directly by the end of the line or by one of
      `{dDgGhHlnNpPqx=`. Anything else there, `;`, a space or `#`
      included, is refused just after the command byte. */
  lemma BareCommandNeedsFollower(c: Compiled, line: Bytes, pos: nat, a: Addresses, lib: Lib)
    requires Valid(c) && NUL !in line && pos < |line|
    requires ParseAddresses(line, pos, lib) == Ok(a)
    requires SkipSpaces(line, a.next) < |line|
    requires var cmd := line[SkipSpaces(line, a.next)];
             && cmd != BANG && cmd !in ArgumentCommands
             && ((cmd == B('q') || cmd == B('=')) ==> a.second == Absent)
    requires At(line, SkipSpaces(line, a.next) + 1) !in Followers
    ensures ParseCommand(c, line, pos, lib) == Err(BadPattern(SkipSpaces(line, a.next) + 1))
  {
    var p := SkipSpaces(line, a.next);
    assert line[p] != NUL by {
      assert line[p] in line;
    }
    CheckedRefused(c, line, a, lib, p, line[p]);
    AddressesThenCommand(c, line, pos, a, lib, Err(BadPattern(p + 1)));
  }

  /** The other half: a command without argument followed by the end of the
      line or by one of `{dDgGhHlnNpPqx=` is added as a step, the brace
      depth kept, and parsing resumes at that next byte. */
  lemma BareCommandFollowed(c: Compiled, line: Bytes, pos: nat, a: Addresses, lib: Lib)
    requires Valid(c) && NUL !in line && pos < |line|
    requires ParseAddresses(line, pos, lib) == Ok(a)
    requires SkipSpaces(line, a.next) < |line|
    requires var cmd := line[SkipSpaces(line, a.next)];
             && cmd != BANG && cmd !in ArgumentCommands
             && ((cmd == B('q') || cmd == B('=')) ==> a.second == Absent)
    requires At(line, SkipSpaces(line, a.next) + 1) in Followers
    ensures var p := SkipSpaces(line, a.next);
            var s := Step(a.first, a.second, false, false, line[p], None, None, None, 0);
            ParseCommand(c, line, pos, lib) == Ok((Compiled(c.steps + [s], c.depth), p + 1))
  {
    var p := SkipSpaces(line, a.next);
    assert line[p] != NUL by {
      assert line[p] in line;
    }
    CheckedAccepted(c, line, a, lib, p, line[p]);
    var s := Step(a.first, a.second, false, false, line[p], None, None, None, 0);
    AddressesThenCommand(c, line, pos, a, lib, Ok((Compiled(c.steps + [s], c.depth), p + 1)));
  }

  /** Once the addresses are read, the rest of the command is parsed from
      where they end. */
  lemma AddressesThenCommand(c: Compiled, line: Bytes, pos: nat, a: Addresses, lib: Lib, r: Outcome<(Compiled, nat)>)
    requires Valid(c) && NUL !in line && pos < |line|
    requires ParseAddresses(line, pos, lib) == Ok(a)
    requires CommandAfter(c, line, a, lib) == r
    ensures ParseCommand(c, line, pos, lib) == r
  {
  }

  /** The command after the addresses, a command without argument followed
      by a byte it does not accept. */
  lemma CheckedRefused(c: Compiled, line: Bytes, a: Addresses, lib: Lib, p: nat, cmd: Byte)
    requires Valid(c) && NUL !in line && a.next <= |line|
    requires a.first == Absent ==> a.second == Absent
    requires p == SkipSpaces(line, a.next) && p < |line| && line[p] == cmd && cmd != NUL && cmd != BANG
    requires cmd !in ArgumentCommands && ((cmd == B('q') || cmd == B('=')) ==> a.second == Absent)
    requires At(line, p + 1) !in Followers
    ensures CommandAfter(c, line, a, lib) == Err(BadPattern(p + 1))
  {
    var s := Step(a.first, a.second, false, false, cmd, None, None, None, 0);
    NoArgumentRestricted(cmd, a.first, a.second);
    ArgumentsRefused(c, s, line, p + 1, lib);
  }

  /** The same, followed by a byte it accepts. */
  lemma CheckedAccepted(c: Compiled, line: Bytes, a: Addresses, lib: Lib, p: nat, cmd: Byte)
    requires Valid(c) && NUL !in line && a.next <= |line|
    requires a.first == Absent ==> a.second == Absent
    requires p == SkipSpaces(line, a.next) && p < |line| && line[p] == cmd && cmd != NUL && cmd != BANG
    requires cmd !in ArgumentCommands && ((cmd == B('q') || cmd == B('=')) ==> a.second == Absent)
    requires At(line, p + 1) in Followers
    ensures CommandAfter(c, line, a, lib) == Ok((Compiled(c.steps + [Step(a.first, a.second, false, false, cmd, None, None, None, 0)], c.depth), p + 1))
  {
    var s := Step(a.first, a.second, false, false, cmd, None, None, None, 0);
    NoArgumentRestricted(cmd, a.first, a.second);
    ArgumentsAccepted(c, s, line, p + 1, lib);
  }

  /** A command without argument passes the address checks: it is neither
      `}` nor `:`, and of `a i q r =` only `q` and `=` remain, which have
      at most one address here. */
  lemma NoArgumentRestricted(cmd: Byte, first: Addr, second: Addr)
    requires first == Absent ==> second == Absent
    requires cmd !in ArgumentCommands && ((cmd == B('q') || cmd == B('=')) ==> second == Absent)
    ensures !IsOneOf(cmd, "}:") && !(IsOneOf(cmd, "aiqr=") && second != Absent)
    ensures Restricted(Step(first, second, false, false, cmd, None, None, None, 0))
  {
    if IsOneOf(cmd, "aiqr=") {
      var k :| 0 <= k < 5 && "aiqr="[k] == cmd as int as char;
    }
  }

  /** The argument stage of a command without argument, followed by a byte
      it does not accept. */
  lemma ArgumentsRefused(c: Compiled, s: Step, line: Bytes, p1: nat, lib: Lib)
    requires Valid(c) && Restricted(s) && 0 < p1 <= |line| && NUL !in line
    requires s.cmd !in ArgumentCommands && At(line, p1) !in Followers
    ensures CommandArguments(c, s, line, p1, lib) == Err(BadPattern(p1))
  {
    ArgumentCommandsTests(s.cmd);
    FollowersTest(At(line, p1));
  }

  /** The same, followed by a byte it accepts: the step is added as it is. */
  lemma ArgumentsAccepted(c: Compiled, s: Step, line: Bytes, p1: nat, lib: Lib)
    requires Valid(c) && Restricted(s) && 0 < p1 <= |line| && NUL !in line
    requires s.cmd !in ArgumentCommands && At(line, p1) in Followers
    ensures CommandArguments(c, s, line, p1, lib) == Ok((Compiled(c.steps + [s], c.depth), p1))
  {
    ArgumentCommandsTests(s.cmd);
    FollowersTest(At(line, p1));
  }

  /** A byte of `dDgGhHlnNpPqx=` starts no address, is no separator, takes
      no argument and may follow a command without argument. */
  lemma BareByte(x: Byte)
    requires IsOneOf(x, "dDgGhHlnNpPqx=")
    ensures x != NUL && x != COMMA && x != DOLLAR && x != SLASH && x != BACKSLASH && !IsDigit(x)
    ensures !IsSpace(x) && x != SEMI && x != HASH && x != BANG
    ensures x !in ArgumentCommands && x in Followers
  {
  }

  /** Two commands from `dDgGhHlnNpPqx=` with a `;` between them: refused
      at the `;`, so `p;N` and `n;d` are not scripts this compiler takes. */
  lemma SeparatedCommandsRefused(c: Compiled, x: Byte, y: Byte, lib: Lib)
    requires Valid(c) && !Continuing(c)
    requires IsOneOf(x, "dDgGhHlnNpPqx=") && IsOneOf(y, "dDgGhHlnNpPqx=")
    ensures CompileLine(c, [x, SEMI, y], lib) == Err(BadPattern(1))
  {
    BareByte(x);
    var bad: Bytes := [x, SEMI, y];
    assert CString(bad) == bad;
    FirstCommandRefused(c, bad, lib);
    assert SkipSeparators(bad, 0) == 0;
  }

  /** A command without argument at the start of a line, followed by a
      byte that may not follow it, is refused at that byte. */
  lemma FirstCommandRefused(c: Compiled, bad: Bytes, lib: Lib)
    requires Valid(c) && 2 <= |bad| && NUL !in bad
    requires IsOneOf(bad[0], "dDgGhHlnNpPqx=") && bad[1] !in Followers
    ensures ParseCommand(c, bad, 0, lib) == Err(BadPattern(1))
  {
    BareByte(bad[0]);
    assert ParseAddresses(bad, 0, lib) == Ok(Addresses(Absent, Absent, 0));
    BareCommandNeedsFollower(c, bad, 0, Addresses(Absent, Absent, 0), lib);
  }

  /** A line that is separators only, or separators and then a `#`
      comment, adds no step. */
  lemma BlankOrCommentLine(c: Compiled, sep: Bytes, rest: Bytes, lib: Lib)
    requires Valid(c) && !Continuing(c) && NUL !in sep && NUL !in rest
    requires forall k :: 0 <= k < |sep| ==> IsSeparator(sep[k])
    requires rest == [] || rest[0] == HASH
    ensures CompileLine(c, sep + rest, lib) == Ok(c)
  {
    var line := sep + rest;
    assert NUL !in line;
    assert forall k :: 0 <= k < |sep| ==> IsSeparator(line[k]);
    SeparatorsSkipped(c, line, 0, |sep|, lib);
    assert SkipSeparators(line, |sep|) == |sep|;
  }

  /** A line of a `-f` file keeps its newline, so a command without
      argument at its end is refused: the newline is no byte that may
      follow it. */
  lemma FileLineBareCommandRefused(c: Compiled, x: Byte, lib: Lib)
    requires Valid(c) && !Continuing(c)
    requires IsOneOf(x, "dDgGhHlnNpPqx=")
    ensures CompileLine(c, [x, NL], lib) == Err(BadPattern(1))
  {
    BareByte(x);
    var bad: Bytes := [x, NL];
    assert CString(bad) == bad;
    FirstCommandRefused(c, bad, lib);
    assert SkipSeparators(bad, 0) == 0;
  }

  /** For the same reason a text read from a `-f` file never waits for a
      continuation: its last byte is the newline, not a backslash, and the
      newline stays in the text. */
  lemma FileTextNeverWaits(s: Step, line: Bytes, pos: nat)
    requires pos < |line| && NUL !in line && TakesText(s.cmd)
    requires line[|line| - 1] == NL
    ensures var r := ParseArgument(s, line, pos);
            && r.Ok? && !r.value.pending && r.value.arg1.Some?
            && r.value.arg1.value == s.arg1.GetOr([]) + line[pos..]
  {
    TextArgument(s, line, pos);
  }

  /** Two commands from `dDgGhHlnNpPqx=` written next to each other
      compile to two steps: `pN` and `nd` are the spellings this compiler
      takes. */
  lemma AdjacentCommands(c: Compiled, x: Byte, y: Byte, lib: Lib)
    requires Valid(c) && !Continuing(c)
    requires IsOneOf(x, "dDgGhHlnNpPqx=") && IsOneOf(y, "dDgGhHlnNpPqx=")
    ensures CompileLine(c, [x, y], lib) == Ok(Compiled(c.steps + [Plain(x), Plain(y)], c.depth))
  {
    BareByte(x);
    BareByte(y);
    var good: Bytes := [x, y];
    assert CString(good) == good;
    var c1 := Compiled(c.steps + [Plain(x)], c.depth);
    AdjacentStep(c, good, 0, lib);
    var c2 := Compiled(c.steps + [Plain(x), Plain(y)], c.depth);
    AdjacentStep(c1, good, 1, lib);
    assert c1.steps + [Plain(y)] == c2.steps;
    assert SkipSeparators(good, 2) == 2;
    assert ParseLine(c2, good, 2, lib) == Ok(c2);
    assert SkipSeparators(good, 1) == 1;
    assert ParseLine(c1, good, 1, lib) == Ok(c2);
    assert SkipSeparators(good, 0) == 0;
  }

  /** One command of a pair written next to each other is added as a
      plain step, and parsing goes on right behind it. */
  lemma AdjacentStep(c: Compiled, good: Bytes, i: nat, lib: Lib)
    requires Valid(c) && |good| == 2 && i < 2
    requires IsOneOf(good[0], "dDgGhHlnNpPqx=") && IsOneOf(good[1], "dDgGhHlnNpPqx=")
    ensures ParseCommand(c, good, i, lib) == Ok((Compiled(c.steps + [Plain(good[i])], c.depth), i + 1))
  {
    BareByte(good[0]);
    BareByte(good[1]);
    assert ParseAddresses(good, i, lib) == Ok(Addresses(Absent, Absent, i));
    BareCommandFollowed(c, good, i, Addresses(Absent, Absent, i), lib);
  }


  /** A script given as one `-e` argument without newline or NUL is
      compiled as that single line. */
  lemma OneLineScript(line: Bytes, lib: Lib)
    requires NUL !in line && NL !in line && line != []
    ensures CompileScript([line], [], lib) ==
              match CompileLine(Start, line, lib)
              case Err(e) => Err(e)
              case Ok(c) => if c.depth != 0 then Err(NoCloseBrace) else Ok(c.steps)
  {
    SingleScriptLine(line);
    CompileOneLine(Start, line, lib);
  }

  /** A single `-e` script without newline or NUL is one script line. */
  lemma SingleScriptLine(line: Bytes)
    requires NUL !in line && NL !in line && line != []
    ensures ScriptLines([line], []) == [line]
  {
    assert CString(line) == line;
    assert FindNewline(line) == None;
    assert ChopLines(line) == [line];
    assert [line][1..] == [];
  }

  /** A single script line compiles as that line. */
  lemma CompileOneLine(c: Compiled, raw: Bytes, lib: Lib)
    requires Valid(c)
    ensures CompileLines(c, [raw], lib) == CompileLine(c, raw, lib)
  {
    assert [raw][1..] == [];
    match CompileLine(c, raw, lib)
    case Err(e) =>
    case Ok(c1) =>
      assert CompileLines(c1, [], lib) == Ok(c1);
  }

  /** A line whose addresses are followed by nothing but whitespace is
      refused at its end, whatever the addresses are. */
  lemma AddressWithoutCommandRefused(c: Compiled, line: Bytes, first: Addr, second: Addr, p: nat, lib: Lib)
    requires Valid(c) && !Continuing(c) && NUL !in line
    requires |line| > 0 && !IsSpace(line[0]) && line[0] != SEMI && line[0] != HASH
    requires ParseAddresses(line, 0, lib) == Ok(Addresses(first, second, p))
    requires SkipSpaces(line, p) == |line|
    ensures CompileLine(c, line, lib) == Err(BadPattern(|line|))
  {
    assert CString(line) == line;
    assert SkipSeparators(line, 0) == 0;
    assert ParseCommand(c, line, 0, lib) == Err(BadPattern(|line|));
  }

  /** `!` after the addresses never returns: the negation loop does not
      advance, whatever the addresses are. */
  lemma NegationHangs(c: Compiled, line: Bytes, first: Addr, second: Addr, p: nat, lib: Lib)
    requires Valid(c) && !Continuing(c) && NUL !in line
    requires |line| > 0 && !IsSpace(line[0]) && line[0] != SEMI && line[0] != HASH
    requires ParseAddresses(line, 0, lib) == Ok(Addresses(first, second, p))
    requires SkipSpaces(line, p) < |line| && line[SkipSpaces(line, p)] == BANG
    ensures CompileLine(c, line, lib) == Err(Hangs)
  {
    assert CString(line) == line;
    assert SkipSeparators(line, 0) == 0;
    assert ParseCommand(c, line, 0, lib) == Err(Hangs);
  }

  /** For example, a line number alone is refused at its end. */
  lemma NumberAloneRefused(c: Compiled, n: nat, lib: Lib)
    requires Valid(c) && !Continuing(c) && n > 0
    ensures CompileLine(c, Decimal(n), lib) == Err(BadPattern(|Decimal(n)|))
  {
    var line := Decimal(n);
    NoNul(n, []);
    assert line + [] == line;
    NumberRoundTrip([], n, []);
    assert [] + line + [] == line;
    assert At(line, 0) == line[0] && IsDigit(line[0]);
    assert ParseAddresses(line, 0, lib) == Ok(Addresses(Num(n), Absent, |line|));
    AddressWithoutCommandRefused(c, line, Num(n), Absent, |line|, lib);
  }

  /** For example, a line number followed by `!` hangs. */
  lemma NumberNegatedHangs(c: Compiled, n: nat, rest: Bytes, lib: Lib)
    requires Valid(c) && !Continuing(c) && n > 0 && NUL !in rest
    ensures CompileLine(c, Decimal(n) + [BANG] + rest, lib) == Err(Hangs)
  {
    var line := Decimal(n) + [BANG] + rest;
    assert line == Decimal(n) + ([BANG] + rest);
    NoNul(n, [BANG] + rest);
    LeadingNumber(n, [BANG] + rest, lib);
    var p := |Decimal(n)|;
    assert line[p] == BANG && line[0] == Decimal(n)[0] && IsDigit(line[0]);
    assert SkipSpaces(line, p) == p;
    NegationHangs(c, line, Num(n), Absent, p, lib);
  }

  /** A `}` with no block open is refused just after it. */
  lemma UnopenedCloseRefused(c: Compiled, rest: Bytes, lib: Lib)
    requires Valid(c) && !Continuing(c) && c.depth == 0 && NUL !in rest
    ensures CompileLine(c, [RBRACE] + rest, lib) == Err(BadPattern(1))
  {
    var line := [RBRACE] + rest;
    assert line[0] == RBRACE;
    assert At(line, 0) == RBRACE;
    assert ParseAddresses(line, 0, lib) == Ok(Addresses(Absent, Absent, 0));
    assert SkipSeparators(line, 0) == 0;
    assert ParseCommand(c, line, 0, lib) == Err(BadPattern(1));
  }

  /** A block opened and never closed: the script `{` is refused with
      "no }". */
  lemma UnclosedBlockRefused(lib: Lib)
    ensures CompileScript([[LBRACE]], [], lib) == Err(NoCloseBrace)
  {
    var line: Bytes := [LBRACE];
    assert CString(line) == line;
    assert FindNewline(line) == None;
    assert ChopLines(line) == [line];
    assert ScriptLines([line], []) == [line];
    assert ParseAddresses(line, 0, lib) == Ok(Addresses(Absent, Absent, 0));
    var s := Step(Absent, Absent, false, false, LBRACE, None, None, None, 0);
    var one := Add(Start, s);
    assert ParseCommand(Start, line, 0, lib) == Ok((one, 1));
    assert ParseLine(Start, line, 0, lib) == Ok(one);
    assert CompileLines(Start, [line], lib) == Ok(one);
    assert one.depth == 1;
  }

  /** A line arriving while the last step waits for a continuation: the
      line, less a final backslash, is added to the waiting text with no
      newline in between; the step waits again exactly when the line ends in
      a backslash; and the whole line is then read as commands from its
      start. An empty continuation line is refused. */
  lemma {:induction false} ContinuationIsReparsed(c: Compiled, line: Bytes, lib: Lib)
    requires Valid(c) && Continuing(c) && NUL !in line
    requires TakesText(c.steps[|c.steps| - 1].cmd)
    ensures line == [] ==> CompileLine(c, line, lib) == Err(BadPattern(0))
    ensures line != [] ==>
              var w := c.steps[|c.steps| - 1];
              var cont := line[|line| - 1] == BACKSLASH;
              var more := if cont then line[..|line| - 1] else line;
              var joined := w.(arg1 := Some(w.arg1.GetOr([]) + more), pending := cont);
              Continue(c, line) == Ok(Compiled(c.steps[|c.steps| - 1 := joined], c.depth))
    ensures line != [] ==> Continue(c, line).Ok? && CompileLine(c, line, lib) == ParseLine(Continue(c, line).value, line, 0, lib)
  {
    assert CString(line) == line;
    if line != [] {
      ContinuedArgument(c.steps[|c.steps| - 1], line);
    }
  }

  /** The waiting text taking a whole line. */
  lemma ContinuedArgument(w: Step, line: Bytes)
    requires TakesText(w.cmd) && NUL !in line && line != []
    ensures var cont := line[|line| - 1] == BACKSLASH;
            var more := if cont then line[..|line| - 1] else line;
            ParseArgument(w.(pending := false), line, 0) ==
              Ok(w.(arg1 := Some(w.arg1.GetOr([]) + more), pending := cont))
  {
    var cont := line[|line| - 1] == BACKSLASH;
    var more := if cont then line[..|line| - 1] else line;
    var arg := w.arg1.GetOr([]) + line[0..0 + |line|];
    assert line[0..0 + |line|] == line;
    assert arg[|arg| - 1] == line[|line| - 1];
    if cont {
      assert arg[..|arg| - 1] == w.arg1.GetOr([]) + more;
    }
  }

  /** The first line `a #\`: the text ends in a backslash, so the step
      keeps `#`, waits for a continuation, and the rest of the line (`#\`)
      is then read as a comment. */
  lemma TextWaitsForContinuation(lib: Lib)
    ensures var first: Bytes := [B('a'), SPACE, HASH, BACKSLASH];
            var waiting := Step(Absent, Absent, false, false, B('a'), Some([HASH]), None, None, 0).(pending := true);
            CompileLine(Start, first, lib) == Ok(Compiled([waiting], 0))
  {
    var first: Bytes := [B('a'), SPACE, HASH, BACKSLASH];
    assert CString(first) == first;
    var bare := Step(Absent, Absent, false, false, B('a'), None, None, None, 0);
    var waiting := bare.(arg1 := Some([HASH]), pending := true);
    assert ParseAddresses(first, 0, lib) == Ok(Addresses(Absent, Absent, 0));
    assert SkipSpaces(first, 1) == 2;
    assert TakesText(B('a'));
    var arg := bare.arg1.GetOr([]) + first[2..2 + 2];
    assert arg == [HASH, BACKSLASH];
    assert arg[|arg| - 1] == BACKSLASH;
    assert arg[..|arg| - 1] == [HASH];
    assert ParseArgument(bare, first, 2) == Ok(waiting);
    var c1 := Add(Start, waiting);
    assert CommandArguments(Start, bare, first, 1, lib) == Ok((c1, 2));
    assert ParseCommand(Start, first, 0, lib) == Ok((c1, 2));
    assert ParseLine(c1, first, 2, lib) == Ok(c1);
  }

  /** The continuation line `x`: its bytes are added to the waiting text
      without a newline, and the line is then read as commands itself. */
  lemma ContinuationExample(lib: Lib)
    ensures var waiting := Step(Absent, Absent, false, false, B('a'), Some([HASH]), None, None, 0).(pending := true);
            var joined := waiting.(pending := false, arg1 := Some([HASH, B('x')]));
            && Valid(Compiled([waiting], 0))
            && CompileLine(Compiled([waiting], 0), [B('x')], lib) == Ok(Compiled([joined, Plain(B('x'))], 0))
  {
    var second: Bytes := [B('x')];
    assert CString(second) == second;
    var waiting := Step(Absent, Absent, false, false, B('a'), Some([HASH]), None, None, 0).(pending := true);
    var c1 := Compiled([waiting], 0);
    assert Restricted(waiting) && Valid(c1);
    var joined := waiting.(pending := false, arg1 := Some([HASH, B('x')]));
    assert second[0..0 + 1] == [B('x')];
    assert waiting.arg1.GetOr([]) + second[0..1] == [HASH, B('x')];
    assert ParseArgument(waiting.(pending := false), second, 0) == Ok(joined);
    var c2 := Compiled([joined], 0);
    assert c1.steps[0 := joined] == c2.steps;
    assert Restricted(joined) && Valid(c2);
    assert ParseAddresses(second, 0, lib) == Ok(Addresses(Absent, Absent, 0));
    var c3 := Add(c2, Plain(B('x')));
    assert ParseCommand(c2, second, 0, lib) == Ok((c3, 1));
    assert ParseLine(c2, second, 0, lib) == Ok(c3);
    assert Continuing(c1) && c1.steps[0].(pending := false) == waiting.(pending := false);
    assert CompileLine(c1, second, lib) == Ok(c3);
    assert c3 == Compiled([joined, Plain(B('x'))], 0);
  }

  /** The script `a #\` followed by the line `x` compiles to an `a` step with
      text `#x` and an `x` step: a continued text is joined without its
      backslash and without a newline, and both lines are also read as
      commands. */
  lemma ContinuedText(lib: Lib)
    ensures var first: Bytes := [B('a'), SPACE, HASH, BACKSLASH];
            var a := Step(Absent, Absent, false, false, B('a'), Some([HASH, B('x')]), None, None, 0);
            CompileLines(Start, [first, [B('x')]], lib) == Ok(Compiled([a, Plain(B('x'))], 0))
  {
    var first: Bytes := [B('a'), SPACE, HASH, BACKSLASH];
    var second: Bytes := [B('x')];
    TextWaitsForContinuation(lib);
    ContinuationExample(lib);
    var waiting := Step(Absent, Absent, false, false, B('a'), Some([HASH]), None, None, 0).(pending := true);
    var c1 := Compiled([waiting], 0);
    var c3 := Compiled([waiting.(pending := false, arg1 := Some([HASH, B('x')])), Plain(B('x'))], 0);
    assert CompileLines(c3, [], lib) == Ok(c3);
    assert [second][1..] == [];
    assert CompileLines(c1, [second], lib) == Ok(c3);
    assert [first, second][1..] == [second];
  }
}

=== FILE: compiler.dfy ===
/** The script compiler (`jewel_of_judgement`, called once per script line,
    and the driver in `sed_main`). The model follows the code as written:
    the argument of `a b c i r t T w :` is stored but not consumed, so the
    same bytes are then parsed again as commands; the check for commands
    without arguments looks at the byte after the command; `!` never
    returns; the first `s` flag byte is skipped. */
module Compiler {
  import opened SedTypes
  import opened Numbers
  import opened Buffers
  import opened DelimitedRegex
  import opened Steps

  /** The compiler's state between script lines: the steps so far and the
      open brace depth (kept in `TT.nextlen` while compiling). */
  datatype Compiled = Compiled(steps: seq<Step>, depth: int)

  const Start: Compiled := Compiled([], 0)

  /** Membership of a (non-NUL) command byte in a command list. */
  predicate IsOneOf(c: Byte, chars: string) {
    (c as int as char) in chars
  }

  /** The address restrictions the compiler enforces: `}` and `:` take no
      address, `a i q r =` at most one. */
  predicate Restricted(s: Step) {
    && (IsOneOf(s.cmd, "}:") ==> s.first == Absent)
    && (IsOneOf(s.cmd, "aiqr=") ==> s.second == Absent)
  }

  /** What holds of the compiler state between script lines. */
  predicate Valid(c: Compiled) {
    && c.depth == Depth(c.steps, |c.steps|)
    && (forall k :: 0 <= k <= |c.steps| ==> Depth(c.steps, k) >= 0)
    && (forall i :: 0 <= i < |c.steps| ==> Restricted(c.steps[i]))
  }

  /** Append a step, tracking the brace depth. */
  function Add(c: Compiled, s: Step): (r: Compiled)
    requires Valid(c) && Restricted(s) && c.depth + Delta(s) >= 0
    ensures Valid(r) && r.steps == c.steps + [s]
  {
    var r := Compiled(c.steps + [s], c.depth + Delta(s));
    forall k | 0 <= k <= |c.steps| ensures Depth(r.steps, k) == Depth(c.steps, k) {
      DepthAppend(c.steps, s, k);
    }
    r
  }

  // ---------------------------------------------------------------------
  // Lexical helpers

  /** Skip bytes for which `isspace` holds. */
  function SkipSpaces(line: Bytes, pos: nat): (r: nat)
    requires pos <= |line|
    ensures pos <= r <= |line| && !IsSpace(At(line, r))
    ensures forall k :: pos <= k < r ==> IsSpace(line[k])
    decreases |line| - pos
  {
    if pos < |line| && IsSpace(line[pos]) then SkipSpaces(line, pos + 1) else pos
  }

  /** Whether `b` is skipped between commands: whitespace or `;`. */
  predicate IsSeparator(b: Byte) {
    IsSpace(b) || b == SEMI
  }

  /** Skip whitespace and `;` between commands: the first offset from `pos`
      that holds no separator. */
  function SkipSeparators(line: Bytes, pos: nat): (r: nat)
    requires pos <= |line|
    ensures pos <= r <= |line|
    ensures !IsSeparator(At(line, r))
    ensures forall k :: pos <= k < r ==> IsSeparator(line[k])
    decreases |line| - pos
  {
    if pos < |line| && IsSeparator(line[pos]) then SkipSeparators(line, pos + 1)
    else pos
  }

  /** `strcspn(line + pos, "; \t\r\n\v\f")`: the length of a label. */
  function LabelSpan(line: Bytes, pos: nat): (n: nat)
    requires pos <= |line|
    ensures pos + n <= |line|
    ensures forall k :: pos <= k < pos + n ==> !IsSpace(line[k]) && line[k] != SEMI && line[k] != NUL
    ensures pos + n < |line| ==> IsSpace(line[pos + n]) || line[pos + n] == SEMI || line[pos + n] == NUL
    decreases |line| - pos
  {
    if pos < |line| && !IsSpace(line[pos]) && line[pos] != SEMI && line[pos] != NUL
    then 1 + LabelSpan(line, pos + 1)
    else 0
  }

  // ---------------------------------------------------------------------
  // Addresses

  datatype AddrParse = Found(a: Addr, next: nat) | NotAddress | Broken(e: Error)

  /** One address at `pos`: a number (`strtol` base 0), `$`, `/re/` or
      `\Xre X`. */
  function ParseAddress(line: Bytes, pos: nat, lib: Lib): (r: AddrParse)
    requires pos <= |line|
    ensures r.Found? ==> pos < r.next <= |line| && r.a != Absent
  {
    var b := At(line, pos);
    if IsDigit(b) then
      var (n, e) := ParseNumber(line, pos);
      Found(Num(n), e)
    else if b == DOLLAR then Found(Last, pos + 1)
    else if b == SLASH || b == BACKSLASH then
      if b == BACKSLASH && At(line, pos + 1) == NUL then Broken(BadPattern(pos + 1))
      else
        var d := if b == BACKSLASH then line[pos + 1] else SLASH;
        var q := if b == BACKSLASH then pos + 2 else pos + 1;
        match ParseRegex(line, q, d, lib)
        case Unterminated(stop) => Broken(BadPattern(stop))
        case Scanned(src, next) =>
          if lib.compiles(src) then Found(Re(src), next) else Broken(BadRegex(src))
    else NotAddress
  }

  datatype Addresses = Addresses(first: Addr, second: Addr, next: nat)

  /** Up to two addresses: the first may be preceded by a comma, the second
      is introduced by one; a comma not followed by an address is eaten. */
  function ParseAddresses(line: Bytes, pos: nat, lib: Lib): (r: Outcome<Addresses>)
    requires pos <= |line|
    ensures r.Ok? ==> pos <= r.value.next <= |line|
    ensures r.Ok? && r.value.first == Absent ==> r.value.second == Absent
  {
    var p0 := if At(line, pos) == COMMA then pos + 1 else pos;
    match ParseAddress(line, p0, lib)
    case Broken(e) => Err(e)
    case NotAddress => Ok(Addresses(Absent, Absent, p0))
    case Found(a, p1) =>
      if At(line, p1) != COMMA then Ok(Addresses(a, Absent, p1))
      else match ParseAddress(line, p1 + 1, lib)
        case Broken(e) => Err(e)
        case NotAddress => Ok(Addresses(a, Absent, p1 + 1))
        case Found(a2, p2) => Ok(Addresses(a, a2, p2))
  }

  // ---------------------------------------------------------------------
  // Arguments

  /** Commands whose argument is the rest of the line and may continue on
      the next one (`class` in the source). */
  predicate TakesText(c: Byte) {
    !IsOneOf(c, "btT:")
  }

  /** The argument code at the `append:` label, for one of `a b c i r t T w :`
      at offset `pos`: a text command takes the rest of the line, a label
      command the bytes up to whitespace or `;`. The text is added to what the
      step already holds; a text ending in a backslash loses it and marks the
      step as waiting for a continuation line. The position is not advanced
      past the argument. */
  function ParseArgument(s: Step, line: Bytes, pos: nat): (r: Outcome<Step>)
    requires pos <= |line| && NUL !in line
    ensures r.Ok? ==> r.value.cmd == s.cmd && r.value.first == s.first && r.value.second == s.second
    ensures r.Err? ==> r.error == BadPattern(pos)
  {
    var text := TakesText(s.cmd);
    var end := if text then |line| - pos else LabelSpan(line, pos);
    if end == 0 then
      if IsOneOf(s.cmd, "btT") then Ok(s) else Err(BadPattern(pos))
    else
      var arg := s.arg1.GetOr([]) + line[pos..pos + end];
      var cont := text && arg[|arg| - 1] == BACKSLASH;
      Ok(s.(arg1 := Some(if cont then arg[..|arg| - 1] else arg), pending := cont))
  }
  /** A text command's argument is the rest of the line added to what the
      step holds; a final backslash is removed and marks the step as
      waiting for a continuation. An empty rest is refused. */
  lemma TextArgument(s: Step, line: Bytes, pos: nat)
    requires pos <= |line| && NUL !in line && TakesText(s.cmd)
    ensures ParseArgument(s, line, pos).Err? <==> pos == |line|
    ensures pos < |line| ==>
              var r := ParseArgument(s, line, pos);
              && r.Ok? && r.value.arg1.Some?
              && (r.value.pending <==> line[|line| - 1] == BACKSLASH)
              && r.value.arg1.value + (if r.value.pending then [BACKSLASH] else []) == s.arg1.GetOr([]) + line[pos..]
  {
    if pos < |line| {
      var arg := s.arg1.GetOr([]) + line[pos..pos + (|line| - pos)];
      assert line[pos..pos + (|line| - pos)] == line[pos..];
      assert arg[|arg| - 1] == line[|line| - 1];
      if arg[|arg| - 1] == BACKSLASH {
        assert arg[..|arg| - 1] + [BACKSLASH] == arg;
      }
    }
  }

  /** A label command's argument is the bytes up to whitespace or `;`. An
      empty one is refused for `:` and leaves `b t T` as they were. */
  lemma LabelArgument(s: Step, line: Bytes, pos: nat)
    requires pos <= |line| && NUL !in line && !TakesText(s.cmd)
    ensures pos == |line| || IsSpace(line[pos]) || line[pos] == SEMI ==>
              ParseArgument(s, line, pos) == (if s.cmd == COLON then Err(BadPattern(pos)) else Ok(s))
    ensures pos < |line| && !IsSpace(line[pos]) && line[pos] != SEMI ==>
              var r := ParseArgument(s, line, pos);
              && r.Ok? && !r.value.pending && r.value.arg1.Some?
              && var n := |r.value.arg1.value| - |s.arg1.GetOr([])|;
              && 0 < n <= |line| - pos
              && r.value.arg1.value == s.arg1.GetOr([]) + line[pos..pos + n]
              && (forall k :: pos <= k < pos + n ==> !IsSpace(line[k]) && line[k] != SEMI)
              && (pos + n == |line| || IsSpace(line[pos + n]) || line[pos + n] == SEMI)
  {
    if pos < |line| && !IsSpace(line[pos]) && line[pos] != SEMI {
      LabelTaken(s, line, pos);
    }
  }

  /** The non-empty case of a label argument. */
  lemma LabelTaken(s: Step, line: Bytes, pos: nat)
    requires pos < |line| && NUL !in line && !TakesText(s.cmd)
    requires !IsSpace(line[pos]) && line[pos] != SEMI
    ensures var r := ParseArgument(s, line, pos);
            && r.Ok? && !r.value.pending && r.value.arg1.Some?
            && var n := |r.value.arg1.value| - |s.arg1.GetOr([])|;
            && 0 < n <= |line| - pos
            && r.value.arg1.value == s.arg1.GetOr([]) + line[pos..pos + n]
            && (forall k :: pos <= k < pos + n ==> !IsSpace(line[k]) && line[k] != SEMI)
            && (pos + n == |line| || IsSpace(line[pos + n]) || line[pos + n] == SEMI)
  {
    assert LabelSpan(line, pos) == 1 + LabelSpan(line, pos + 1);
  }

  /** The `s` replacement: offset of the closing delimiter, skipping the
      byte after each backslash; None when the line ends first. */
  function ReplacementEnd(line: Bytes, j: nat, d: Byte): (r: Option<nat>)
    requires j <= |line| && d != NUL
    ensures r.Some? ==> j <= r.value < |line| && line[r.value] == d
    decreases |line| - j
  {
    if At(line, j) == d then Some(j)
    else
      var k := if At(line, j) == BACKSLASH then j + 1 else j;
      if At(line, k) == NUL then None else ReplacementEnd(line, k + 1, d)
  }

  /** Set bit `bit` (a power of two) of a flag word. */
  function SetBit(flags: nat, bit: nat): nat
    requires bit > 0
  {
    if (flags / bit) % 2 == 1 then flags else flags + bit
  }

  /** The `s` flag loop, entered with the line pointer at `at`. Each round
      first advances the pointer, so the byte right after the closing
      delimiter is never looked at; advancing from the terminator reads past
      the line. `g p i` set bits 1, 2, 4; `w` stores the rest of the line as
      file name and goes on parsing from its first byte; a NUL or `;` ends the
      loop; anything else is an error (the occurrence-number branch can never
      be taken, since `!sflags >> 4` is 0). */
  function SubstFlags(s: Step, line: Bytes, at: nat): (r: Outcome<(Step, nat)>)
    requires at <= |line|
    ensures r.Ok? ==> at < r.value.1 <= |line|
    ensures r.Ok? ==> r.value.0.cmd == s.cmd && r.value.0.first == s.first && r.value.0.second == s.second
    decreases |line| - at
  {
    if at == |line| then Err(UntrackedRead)
    else
      var p := at + 1;
      var b := At(line, p);
      if b == NUL || b == SEMI then Ok((s, p))
      else if IsSpace(b) then SubstFlags(s, line, p)
      else if b == B('g') then SubstFlags(s.(sflags := SetBit(s.sflags, 1)), line, p)
      else if b == B('p') then SubstFlags(s.(sflags := SetBit(s.sflags, 2)), line, p)
      else if b == B('i') then SubstFlags(s.(sflags := SetBit(s.sflags, 4)), line, p)
      else if b == B('w') then
        var q := SkipSpaces(line, p + 1);
        if At(line, q) == NUL then Err(BadPattern(q))
        else SubstFlags(s.(arg3 := Some(line[q..])), line, q)
      else Err(BadPattern(p))
  }

  /** `s/pattern/replacement/flags` with the line pointer just after `s`. */
  function ParseSubst(s: Step, line: Bytes, pos: nat, lib: Lib): (r: Outcome<(Step, nat)>)
    requires pos <= |line|
    ensures r.Ok? ==> pos < r.value.1 <= |line|
    ensures r.Ok? ==> r.value.0.cmd == s.cmd && r.value.0.first == s.first && r.value.0.second == s.second
  {
    var d := At(line, pos);
    if d == NUL then Err(BadPattern(pos))
    else match ParseRegex(line, pos + 1, d, lib)
      case Unterminated(stop) => Err(BadPattern(stop))
      case Scanned(src, q) =>
        if !lib.compiles(src) then Err(BadRegex(src))
        else match ReplacementEnd(line, q, d)
          case None => Err(BadPattern(q))
          case Some(e) => SubstFlags(s.(arg1 := Some(src), arg2 := Some(line[q..e])), line, e + 1)
  }

  // ---------------------------------------------------------------------
  // Commands

  /** One command at `pos` (a byte that is not NUL, `#`, space or `;`):
      addresses, the command byte and its address checks. Returns the state
      with the new step added and the offset where parsing resumes. */
  function ParseCommand(c: Compiled, line: Bytes, pos: nat, lib: Lib): (r: Outcome<(Compiled, nat)>)
    requires Valid(c) && pos < |line| && NUL !in line
    ensures r.Ok? ==> Valid(r.value.0) && pos < r.value.1 <= |line|
    ensures r.Ok? ==> |r.value.0.steps| == |c.steps| + 1 && r.value.0.steps[..|c.steps|] == c.steps
  {
    match ParseAddresses(line, pos, lib)
    case Err(e) => Err(e)
    case Ok(a) => CommandAfter(c, line, a, lib)
  }

  /** The command byte after the addresses `a` and the whitespace that
      follows them: none is an error, `!` hangs, then the address checks
      and the dispatch on the byte. */
  function CommandAfter(c: Compiled, line: Bytes, a: Addresses, lib: Lib): (r: Outcome<(Compiled, nat)>)
    requires Valid(c) && a.next <= |line| && NUL !in line
    requires a.first == Absent ==> a.second == Absent
    ensures r.Ok? ==> Valid(r.value.0) && a.next < r.value.1 <= |line|
    ensures r.Ok? ==> |r.value.0.steps| == |c.steps| + 1 && r.value.0.steps[..|c.steps|] == c.steps
  {
    var p := SkipSpaces(line, a.next);
    if At(line, p) == NUL then Err(BadPattern(p))
    else if line[p] == BANG then Err(Hangs)
    else
      var cmd := line[p];
      var s := Step(a.first, a.second, false, false, cmd, None, None, None, 0);
      if IsOneOf(cmd, "}:") && a.first != Absent then Err(BadPattern(p + 1))
      else if IsOneOf(cmd, "aiqr=") && a.second != Absent then Err(BadPattern(p + 1))
      else CommandArguments(c, s, line, p + 1, lib)
  }

  /** The dispatch on the command byte of `s`, with the line pointer just
      after it: brace depth, `s` and text/label arguments, and the byte
      check for the remaining commands. */
  function CommandArguments(c: Compiled, s: Step, line: Bytes, p1: nat, lib: Lib): (r: Outcome<(Compiled, nat)>)
    requires Valid(c) && Restricted(s) && 0 < p1 <= |line| && NUL !in line
    ensures r.Ok? ==> Valid(r.value.0) && p1 <= r.value.1 <= |line|
    ensures r.Ok? ==> |r.value.0.steps| == |c.steps| + 1 && r.value.0.steps[..|c.steps|] == c.steps
  {
    var cmd := s.cmd;
    if cmd == LBRACE then Ok((Add(c, s), p1))
    else if cmd == RBRACE then
      if c.depth == 0 then Err(BadPattern(p1)) else Ok((Add(c, s), p1))
    else if cmd == B('s') then
      match ParseSubst(s, line, p1, lib)
      case Err(e) => Err(e)
      case Ok((s1, q)) => Ok((Add(c, s1), q))
    else if cmd == B('y') then Ok((Add(c, s), p1))
    else if IsOneOf(cmd, "abcirtTw:") then
      var q := SkipSpaces(line, p1);
      match ParseArgument(s, line, q)
      case Err(e) => Err(e)
      case Ok(s1) => Ok((Add(c, s1), q))
    else if !InSet(At(line, p1), "{dDgGhHlnNpPqx=") then Err(BadPattern(p1))
    else Ok((Add(c, s), p1))
  }

  /** The command loop over one script line from offset `pos`: skip
      separators, stop at the end or at `#`, else parse a command. */
  function ParseLine(c: Compiled, line: Bytes, pos: nat, lib: Lib): (r: Outcome<Compiled>)
    requires Valid(c) && pos <= |line| && NUL !in line
    ensures r.Ok? ==> Valid(r.value)
    ensures r.Ok? ==> |c.steps| <= |r.value.steps| && r.value.steps[..|c.steps|] == c.steps
    ensures var p := SkipSeparators(line, pos); At(line, p) == NUL || At(line, p) == HASH ==> r == Ok(c)
    decreases |line| - pos
  {
    var p := SkipSeparators(line, pos);
    if At(line, p) == NUL || At(line, p) == HASH then Ok(c)
    else match ParseCommand(c, line, p, lib)
      case Err(e) => Err(e)
      case Ok((c1, q)) => ParseLine(c1, line, q, lib)
  }

  /** Whether the last step waits for a continuation line. */
  predicate Continuing(c: Compiled) {
    |c.steps| > 0 && c.steps[|c.steps| - 1].pending
  }

  /** Replacing a step by one with the same command, addresses kept, keeps
      the program valid. */
  lemma ReplaceKeepsValid(c: Compiled, i: nat, s: Step)
    requires Valid(c) && i < |c.steps|
    requires s.cmd == c.steps[i].cmd && s.first == c.steps[i].first && s.second == c.steps[i].second
    ensures Valid(Compiled(c.steps[i := s], c.depth))
  {
    var steps := c.steps[i := s];
    forall k | 0 <= k <= |c.steps| ensures Depth(steps, k) == Depth(c.steps, k) {
      DepthReplace(c.steps, i, s, k);
    }
    assert Depth(steps, |steps|) == c.depth;
    forall j | 0 <= j < |steps| ensures Restricted(steps[j]) {
      assert Restricted(c.steps[j]);
    }
  }

  /** The `append:` re-entry: the waiting step takes the script line's
      bytes as more argument text, and no longer waits unless they end in a
      backslash. */
  function Continue(c: Compiled, line: Bytes): (r: Outcome<Compiled>)
    requires Valid(c) && Continuing(c) && NUL !in line
    ensures r.Ok? ==> Valid(r.value) && |r.value.steps| == |c.steps| && r.value.depth == c.depth
    ensures r.Ok? ==> r.value.steps[..|c.steps| - 1] == c.steps[..|c.steps| - 1]
    ensures r.Err? ==> r.error == BadPattern(0)
  {
    var i := |c.steps| - 1;
    match ParseArgument(c.steps[i].(pending := false), line, 0)
    case Err(e) => Err(e)
    case Ok(s) =>
      ReplaceKeepsValid(c, i, s);
      Ok(Compiled(c.steps[i := s], c.depth))
  }

  /** `jewel_of_judgement` on one script line (seen as a C string): a step
      waiting for a continuation first takes the line's bytes as more
      argument text; then the line is parsed as commands from its start. */
  function CompileLine(c: Compiled, raw: Bytes, lib: Lib): (r: Outcome<Compiled>)
    requires Valid(c)
    ensures r.Ok? ==> Valid(r.value) && |c.steps| <= |r.value.steps|
    ensures r.Ok? && !Continuing(c) ==> r.value.steps[..|c.steps|] == c.steps
    ensures r.Ok? && Continuing(c) ==> r.value.steps[..|c.steps| - 1] == c.steps[..|c.steps| - 1]
  {
    var line := CString(raw);
    if Continuing(c) then
      match Continue(c, line)
      case Err(e) => Err(e)
      case Ok(c2) => ParseLine(c2, line, 0, lib)
    else ParseLine(c, line, 0, lib)
  }

  /** The script lines in order, each through `jewel_of_judgement`, the
      first refusal ending the compile. */
  function CompileLines(c: Compiled, lines: seq<Bytes>, lib: Lib): (r: Outcome<Compiled>)
    requires Valid(c)
    ensures r.Ok? ==> Valid(r.value)
    decreases |lines|
  {
    if lines == [] then Ok(c)
    else match CompileLine(c, lines[0], lib)
      case Err(e) => Err(e)
      case Ok(c1) => CompileLines(c1, lines[1..], lib)
  }

  /** Compiling `a + b` is compiling `a`, then `b` from where `a` left the
      program: a script file read in pieces compiles as read whole. */
  lemma {:induction false} CompileLinesAppend(c: Compiled, a: seq<Bytes>, b: seq<Bytes>, lib: Lib)
    requires Valid(c)
    ensures CompileLines(c, a + b, lib) ==
            match CompileLines(c, a, lib)
            case Err(e) => Err(e)
            case Ok(c1) => CompileLines(c1, b, lib)
    decreases |a|
  {
    if a == [] {
      assert a + b == b;
    } else {
      assert (a + b)[0] == a[0] && (a + b)[1..] == a[1..] + b;
      match CompileLine(c, a[0], lib)
      case Err(e) =>
      case Ok(c1) => CompileLinesAppend(c1, a[1..], b, lib);
    }
  }

  /** Separators in front of the rest of a line change nothing: the command
      loop reads the line from after them. */
  lemma SeparatorsSkipped(c: Compiled, line: Bytes, pos: nat, n: nat, lib: Lib)
    requires Valid(c) && pos + n <= |line| && NUL !in line
    requires forall k :: pos <= k < pos + n ==> IsSeparator(line[k])
    ensures ParseLine(c, line, pos, lib) == ParseLine(c, line, pos + n, lib)
  {
    SkipSeparatorsFrom(line, pos, n);
  }

  /** Skipping from inside a run of separators ends where skipping from its
      start does. */
  lemma {:induction false} SkipSeparatorsFrom(line: Bytes, pos: nat, n: nat)
    requires pos + n <= |line|
    requires forall k :: pos <= k < pos + n ==> IsSeparator(line[k])
    ensures SkipSeparators(line, pos) == SkipSeparators(line, pos + n)
    decreases n
  {
    if n > 0 {
      SkipSeparatorsFrom(line, pos + 1, n - 1);
    }
  }

  /** The script lines in the order `sed_main` feeds them: every `-e`
      script (a C string) cut by `chop_lines`, then the lines of the `-f`
      files as `getline` reads them, each with its newline still at the
      end. */
  function ScriptLines(scripts: seq<Bytes>, fileLines: seq<Bytes>): (r: seq<Bytes>)
    ensures |fileLines| <= |r| && r[|r| - |fileLines|..] == fileLines
  {
    if scripts == [] then fileLines
    else ChopLines(CString(scripts[0])) + ScriptLines(scripts[1..], fileLines)
  }

  /** Compile all script lines; a block still open at the end is "no }".
      Every program this accepts has balanced braces, and no `}`/`:` with an
      address and no `a i q r =` with two. */
  function CompileScript(scripts: seq<Bytes>, fileLines: seq<Bytes>, lib: Lib): (r: Outcome<seq<Step>>)
    ensures r.Ok? ==> WellBraced(r.value)
    ensures r.Ok? ==> forall i :: 0 <= i < |r.value| ==> Restricted(r.value[i])
  {
    match CompileLines(Start, ScriptLines(scripts, fileLines), lib)
    case Err(e) => Err(e)
    case Ok(c) => if c.depth != 0 then Err(NoCloseBrace) else Ok(c.steps)
  }
}

=== FILE: engine.dfy ===
/** The line engine: `walk_pattern` run once per input line, the state it
    keeps between lines (the deferred line, the hold space, the line counter,
    the restart point and each step's range flag), and the run over a whole
    input as `sed_main` drives it. Lines are handled one call late: a call
    stores the line it is given and works on the one stored by the previous
    call, so that the last line is known to be last when a final call with
    no line arrives. */
module Engine {
  import opened SedTypes
  import opened Numbers
  import opened Buffers
  import opened OutputSink
  import opened Steps
  import opened Addressing

  /** The bytes the model knows to follow a string's text in its buffer:
      at least the byte at the string's length (normally the terminator),
      then any further bytes of the allocation whose contents are known.
      Bytes past these are untracked, and reading them stops the model. */
  type Tail = t: Bytes | |t| > 0 witness [NUL]

  /** State kept between calls: per-step `hit` flags, the deferred line
      (`nextline` with its length) and the bytes after it in its buffer,
      the hold space (`remember`, `rememberlen`) and the bytes after it, the
      line counter, the step to restart at (`restart`, set by `n` and `N`),
      and the output. */
  datatype Sed = Sed(
    hit: seq<bool>,
    next: Option<Bytes>,
    nextTail: Tail,
    hold: Bytes,
    holdTail: Tail,
    count: nat,
    restart: Option<nat>,
    sink: Sink)

  /** The state after compilation and `sed_main`'s set-up: each step's flag
      is what the compiler left in it, nothing is deferred, and the hold
      space is the empty string `xstrdup("")`. */
  function Initial(prog: seq<Step>): (r: Sed)
    ensures |r.hit| == |prog|
    ensures forall i :: 0 <= i < |prog| ==> r.hit[i] == prog[i].pending
    ensures r.hold == [] && r.holdTail == [NUL]
    ensures r.next == None && r.count == 0 && r.restart == None
    ensures r.sink == Fresh
  {
    Sed(seq(|prog|, i requires 0 <= i < |prog| => prog[i].pending), None, [NUL], [], [NUL], 0, None, Fresh)
  }

  /** The state with the incoming line kept for the next call, as `getline`
      hands it over: its bytes, then a terminator. */
  function Store(sed: Sed, incoming: Option<Bytes>): (r: Sed)
    ensures incoming.None? ==> r == sed
    ensures incoming.Some? ==> r == sed.(next := incoming, nextTail := [NUL])
  {
    match incoming
    case None => sed
    case Some(l) => sed.(next := Some(l), nextTail := [NUL])
  }

  /** The locals of one call: the pattern space without its newline,
      whether it had one, the bytes after it in its buffer, the queued `a`
      text, and the current step. */
  datatype Pass = Pass(line: Bytes, eol: bool, tail: Tail, append: Option<Bytes>, pc: nat, sed: Sed)

  /** What one step does to the walk: go on with the next state, leave the
      loop (with or without the automatic print), or stop the editor. */
  datatype Flow = Go(pass: Pass) | Stop(autoprint: bool, pass: Pass) | Fail(error: Error)

  /** The pass still has a flag per step and the same line counter. */
  predicate Same(p: Pass, q: Pass) {
    |q.sed.hit| == |p.sed.hit| && q.sed.count == p.sed.count
  }

  predicate Kept(p: Pass, f: Flow) {
    f.Fail? || Same(p, f.pass)
  }

  /** The bytes the `D` scan passes over. */
  predicate IsBreak(b: Byte) {
    b == NUL || b == NL
  }

  // ---------------------------------------------------------------------
  // Hold space

  predicate IsHoldCommand(c: Byte) {
    c == B('g') || c == B('G') || c == B('h') || c == B('H') || c == B('x')
  }

  /** A string with its recorded length (that of `text`) and the bytes
      known to follow it. */
  datatype Space = Space(text: Bytes, tail: Tail)

  datatype Spaces = Spaces(line: Space, hold: Space)

  /** `xstrdup` of a buffer, kept with the buffer's recorded length: the
      copy is the bytes up to the first NUL, then a terminator. A NUL inside
      the text would leave a copy shorter than the recorded length, and a
      buffer without a known NUL would be read past its known bytes; both
      are refused. */
  function Dup(s: Space): (r: Outcome<Space>)
    ensures r.Ok? <==> NUL !in s.text && NUL in s.tail
    ensures r.Ok? ==> r.value.text == s.text
    ensures r.Ok? ==> r.value.text + r.value.tail == CString(s.text + s.tail) + [NUL]
  {
    if NUL in s.text || NUL !in s.tail then Err(UntrackedRead)
    else
      CStringPastText(s.text, s.tail);
      Ok(Space(s.text, CString(s.tail) + [NUL]))
  }

  /** A C string read from a buffer whose text holds no NUL runs on into the
      bytes after the text, up to their first NUL. */
  lemma CStringPastText(text: Bytes, tail: Bytes)
    requires NUL !in text && NUL in tail
    ensures CString(text + tail) == text + CString(tail)
  {
    var k := CLength(tail);
    var buf := text + tail;
    assert k < |tail|;
    assert buf[|text| + k] == NUL;
    assert forall i :: 0 <= i < |text| + k ==> buf[i] != NUL by {
      forall i | 0 <= i < |text| + k
        ensures buf[i] != NUL
      {
        if i < |text| {
          assert buf[i] == text[i];
        } else {
          assert buf[i] == tail[i - |text|];
        }
      }
    }
    assert CLength(buf) == |text| + k;
    assert buf[..|text| + k] == text + tail[..k];
  }

  /** `g G h H x`. `g` and `h` copy with `xstrdup`; `G` and `H` append to a
      reallocated buffer, a newline first, and terminate it; `x` swaps the
      two buffers. */
  function HoldCommand(c: Byte, line: Space, hold: Space): (r: Outcome<Spaces>)
    requires IsHoldCommand(c)
    ensures c == B('g') ==> (r.Ok? <==> NUL !in hold.text && NUL in hold.tail)
    ensures c == B('g') && r.Ok? ==>
              && r.value.hold == hold && r.value.line.text == hold.text
              && r.value.line.text + r.value.line.tail == CString(hold.text + hold.tail) + [NUL]
    ensures c == B('h') ==> (r.Ok? <==> NUL !in line.text && NUL in line.tail)
    ensures c == B('h') && r.Ok? ==>
              && r.value.line == line && r.value.hold.text == line.text
              && r.value.hold.text + r.value.hold.tail == CString(line.text + line.tail) + [NUL]
    ensures c == B('G') ==> (r.Ok? && r.value.hold == hold && r.value.line.tail == [NUL]
                             && |r.value.line.text| > |line.text|
                             && r.value.line.text[..|line.text|] == line.text
                             && r.value.line.text[|line.text|..] == [NL] + hold.text)
    ensures c == B('H') ==> (r.Ok? && r.value.line == line && r.value.hold.tail == [NUL]
                             && |r.value.hold.text| > |hold.text|
                             && r.value.hold.text[..|hold.text|] == hold.text
                             && r.value.hold.text[|hold.text|..] == [NL] + line.text)
    ensures c == B('x') ==> r == Ok(Spaces(hold, line))
  {
    if c == B('g') then
      match Dup(hold)
      case Err(e) => Err(e)
      case Ok(copy) => Ok(Spaces(copy, hold))
    else if c == B('G') then Ok(Spaces(Space(line.text + [NL] + hold.text, [NUL]), hold))
    else if c == B('h') then
      match Dup(line)
      case Err(e) => Err(e)
      case Ok(copy) => Ok(Spaces(line, copy))
    else if c == B('H') then Ok(Spaces(line, Space(hold.text + [NL] + line.text, [NUL])))
    else Ok(Spaces(hold, line))
  }

  // ---------------------------------------------------------------------
  // Commands

  /** The step `n` and `N` leave for the next call: the one after the
      current step, or none (start from the top) after the last step. */
  function Resume(prog: seq<Step>, pc: nat): (r: Option<nat>)
    ensures r.Some? ==> r.value == pc + 1 && r.value < |prog|
    ensures r.None? ==> pc + 1 >= |prog|
  {
    if pc + 1 < |prog| then Some(pc + 1) else None
  }

  /** A `:` step whose label is `name`. */
  predicate IsLabel(s: Step, name: Bytes) {
    s.cmd == COLON && s.arg1.Some? && CString(s.arg1.value) == name
  }

  /** The first label step named `name` at or after index `j`. */
  function FindLabel(prog: seq<Step>, name: Bytes, j: nat): (r: Option<nat>)
    requires j <= |prog|
    ensures r.Some? ==> j <= r.value < |prog| && IsLabel(prog[r.value], name)
    ensures r.Some? ==> forall k :: j <= k < r.value ==> !IsLabel(prog[k], name)
    ensures r.None? ==> forall k :: j <= k < |prog| ==> !IsLabel(prog[k], name)
    decreases |prog| - j
  {
    if j == |prog| then None
    else if IsLabel(prog[j], name) then Some(j)
    else FindLabel(prog, name, j + 1)
  }

  /** `b`: an empty label leaves the loop (to the automatic print); a label
      continues after the first `:` step carrying it, and a label that no
      `:` step carries stops the editor. A `b` stored without a label reads
      the first byte of its own step record, which is that of the `next`
      pointer: at the last step that pointer is null and the loop is left;
      elsewhere the outcome depends on the pointer's bytes, which the model
      does not track. */
  function Branch(prog: seq<Step>, p: Pass): (f: Flow)
    requires p.pc < |prog| && prog[p.pc].cmd == B('b')
    ensures prog[p.pc].arg1.None? ==>
              f == (if p.pc + 1 == |prog| then Stop(true, p) else Fail(UntrackedRead))
    ensures prog[p.pc].arg1.Some? && CString(prog[p.pc].arg1.value) == [] ==> f == Stop(true, p)
    ensures prog[p.pc].arg1.Some? && CString(prog[p.pc].arg1.value) != [] ==>
              var name := CString(prog[p.pc].arg1.value);
              && (f.Go? <==> exists k :: 0 <= k < |prog| && IsLabel(prog[k], name))
              && (f.Fail? <==> f == Fail(NoLabel(name)))
              && !f.Stop?
    ensures f.Go? ==> 0 < f.pass.pc <= |prog| && f.pass == p.(pc := f.pass.pc)
    ensures f.Go? ==> prog[p.pc].arg1.Some?
                      && IsLabel(prog[f.pass.pc - 1], CString(prog[p.pc].arg1.value))
                      && forall k :: 0 <= k < f.pass.pc - 1 ==> !IsLabel(prog[k], CString(prog[p.pc].arg1.value))
  {
    match prog[p.pc].arg1
    case None => if p.pc + 1 == |prog| then Stop(true, p) else Fail(UntrackedRead)
    case Some(arg) =>
      var name := CString(arg);
      if name == [] then Stop(true, p)
      else match FindLabel(prog, name, 0)
        case None => Fail(NoLabel(name))
        case Some(j) => Go(p.(pc := j + 1))
  }

  /** `a`: add the text to the queue printed after the pattern space, a
      newline before it unless it is empty. */
  function Queue(arg1: Option<Bytes>, p: Pass): (f: Flow)
    ensures arg1.None? <==> f.Fail?
    ensures arg1.Some? ==> f == Go(p.(append := Some(
              CString(p.append.GetOr([])) + Separator(CString(arg1.value)) + CString(arg1.value))))
  {
    match arg1
    case None => Fail(UntrackedRead)
    case Some(t) =>
      var queued := CString(p.append.GetOr([]));
      var text := CString(t);
      ExtendWithNewline(queued, text);
      Go(p.(append := Some(ExtendString(queued, text, |queued|, -|text|).Text())))
  }

  /** The bytes after the text once `emit` has run: with `eol` it writes the
      newline over the byte at the string's end. */
  function AfterEmit(tail: Tail, eol: bool): (r: Tail)
    ensures |r| == |tail| && r[1..] == tail[1..]
    ensures r[0] == if eol then NL else tail[0]
  {
    if eol then [NL] + tail[1..] else tail
  }

  /** Number of leading bytes the `D` scan passes over: NULs and newlines. */
  function LeadingBreaks(s: Bytes): (k: nat)
    ensures k <= |s|
    ensures forall i :: 0 <= i < k ==> IsBreak(s[i])
    ensures k < |s| ==> !IsBreak(s[k])
  {
    if s == [] || !IsBreak(s[0]) then 0 else 1 + LeadingBreaks(s[1..])
  }

  /** `D`: the scan runs over the leading NULs and newlines of the buffer;
      the rest of the text is moved to the front and terminated, and the
      script runs again from its first step on it (the counter is not
      advanced). Only the newline and NUL bytes are dropped, not a whole
      first line. When the scan passes the text's end it reads on into the
      bytes after it, and the length left is negative: the model stops. The
      byte at the text's end is a NUL or a newline in every buffer the
      editor builds, so a text made only of such bytes always stops it. */
  function DeleteLeading(p: Pass): (f: Flow)
    ensures !f.Stop?
    ensures f.Fail? <==> (forall i :: 0 <= i < |p.line| ==> IsBreak(p.line[i])) && IsBreak(p.tail[0])
    ensures f.Go? ==> f.pass == p.(line := f.pass.line, tail := f.pass.tail, pc := 0)
    ensures f.Go? ==> |f.pass.line| <= |p.line| && f.pass.line == p.line[|p.line| - |f.pass.line|..]
    ensures f.Go? ==> forall i :: 0 <= i < |p.line| - |f.pass.line| ==> IsBreak(p.line[i])
    ensures f.Go? && f.pass.line != [] ==> !IsBreak(f.pass.line[0])
    ensures f.Go? && IsBreak(p.tail[0]) ==> f.pass.line != []
    ensures f.Go? ==> f.pass.tail == [NUL] + (p.line + p.tail)[|f.pass.line| + 1..]
  {
    var buf := p.line + p.tail;
    var k := LeadingBreaks(buf);
    LeadingBreaksOfBuffer(p.line, p.tail);
    if k > |p.line| then Fail(UntrackedRead)
    else
      var len := |p.line| - k;
      Go(p.(line := p.line[k..], tail := [NUL] + buf[len + 1..], pc := 0))
  }

  /** Where the `D` scan of a buffer stops relative to the end of its text. */
  lemma LeadingBreaksOfBuffer(line: Bytes, tail: Tail)
    ensures var k := LeadingBreaks(line + tail);
            && (k > |line| <==> (forall i :: 0 <= i < |line| ==> IsBreak(line[i])) && IsBreak(tail[0]))
            && (k <= |line| ==> forall i :: 0 <= i < k ==> IsBreak(line[i]))
            && (k < |line| ==> !IsBreak(line[k]))
            && (k == |line| ==> !IsBreak(tail[0]))
  {
    var buf := line + tail;
    assert forall i :: 0 <= i < |line| ==> buf[i] == line[i];
    assert buf[|line|] == tail[0];
  }

  /** `N`: with a following line, leave the loop without printing and make
      the following call restart after this step. `extend_string` builds
      the joined buffer from the first bytes of this one, as many as the
      following line has, then a newline (none for an empty line, whose
      negated length is not negative), the following line and a
      terminator, but the length recorded for it is the following line's,
      so what the next call sees is those first bytes, not the two lines
      joined. Taking more bytes than this buffer is known to hold is
      untracked. At the end of input the pattern space is dropped without
      printing. */
  function Join(prog: seq<Step>, p: Pass, incoming: Option<Bytes>): (f: Flow)
    requires p.pc < |prog|
    ensures incoming.None? ==> f == Stop(false, p)
    ensures incoming.Some? && |incoming.value| > |p.line| + |p.tail| ==> f == Fail(UntrackedRead)
    ensures incoming.Some? && |incoming.value| <= |p.line| + |p.tail| ==>
              && f.Stop? && !f.autoprint && f.pass.sed.next.Some?
              && f.pass == p.(sed := p.sed.(restart := Resume(prog, p.pc), next := f.pass.sed.next,
                                            nextTail := f.pass.sed.nextTail))
              && |f.pass.sed.next.value| == |incoming.value|
              && f.pass.sed.next.value + f.pass.sed.nextTail ==
                   (p.line + p.tail)[..|incoming.value|] + Separator(incoming.value) + incoming.value + [NUL]
  {
    match incoming
    case None => Stop(false, p)
    case Some(l) =>
      var plen := |l|;
      var buffer := p.line + p.tail;
      if plen > |buffer| then Fail(UntrackedRead)
      else
        var joined := ExtendString(buffer, l, plen, -plen);
        assert l[..plen] == l;
        assert joined.buf == buffer[..plen] + Separator(l) + l + [NUL];
        Stop(false, p.(sed := p.sed.(restart := Resume(prog, p.pc), next := Some(joined.buf[..plen]),
                                     nextTail := joined.buf[plen..])))
  }

  /** Run the command of step `pc` (its address already accepted). */
  function Execute(prog: seq<Step>, p: Pass, incoming: Option<Bytes>): (f: Flow)
    requires p.pc < |prog|
    ensures Kept(p, f)
    ensures f.Go? ==> f.pass.pc <= |prog|
    ensures f.Go? && prog[p.pc].cmd != B('b') && prog[p.pc].cmd != B('D') ==> f.pass.pc == p.pc + 1
  {
    var c := prog[p.pc].cmd;
    var on := p.(pc := p.pc + 1);
    if c == B('a') then Queue(prog[p.pc].arg1, on)
    else if c == B('b') then Branch(prog, p)
    else if c == B('d') then Stop(false, p)
    else if c == B('D') then DeleteLeading(p)
    else if IsHoldCommand(c) then
      match HoldCommand(c, Space(p.line, p.tail), Space(p.sed.hold, p.sed.holdTail))
      case Err(e) => Fail(e)
      case Ok(h) => Go(on.(line := h.line.text, tail := h.line.tail,
                           sed := on.sed.(hold := h.hold.text, holdTail := h.hold.tail)))
    else if c == B('n') then Stop(true, p.(sed := p.sed.(restart := Resume(prog, p.pc))))
    else if c == B('N') then Join(prog, p, incoming)
    else if c == B('p') then
      Go(on.(tail := AfterEmit(p.tail, p.eol), sed := on.sed.(sink := Emit(p.sed.sink, p.line, p.eol))))
    else if c == B('q') then Stop(true, p)
    else if c == EQUALS then Go(on.(sed := on.sed.(sink := Print(p.sed.sink, Decimal(p.sed.count) + [NL]))))
    else if c == COLON then Go(on)
    else Fail(Todo(c))
  }

  /** One turn of the step loop at step `pc`. A step with an address that
      does not select the current line is not left: the loop `continue`s on
      the same step, except that an unselected `{` first moves to its
      matching `}`. A regex address reads the pattern-space buffer as a C
      string, up to its first NUL, which may lie past the text; a buffer
      with no NUL among its known bytes stops the model. */
  function StepOnce(prog: seq<Step>, lib: Lib, p: Pass, incoming: Option<Bytes>): (f: Flow)
    requires WellBraced(prog) && p.pc < |prog| && |p.sed.hit| == |prog|
    ensures Kept(p, f)
    ensures f.Go? ==> f.pass.pc <= |prog|
  {
    var s := prog[p.pc];
    if !HasAddress(s) then Execute(prog, p, incoming)
    else if ReadsLine(s, p.sed.hit[p.pc]) && NUL !in p.line + p.tail then Fail(UntrackedRead)
    else
      var v := Evaluate(s, p.sed.hit[p.pc], p.sed.count, p.line + p.tail, incoming.None?, lib);
      if !v.selected then
        var q := p.(sed := p.sed.(hit := p.sed.hit[p.pc := v.hit]));
        if s.cmd == LBRACE then Go(q.(pc := MatchingClose(prog, p.pc))) else Go(q)
      else Execute(prog, p.(sed := p.sed.(hit := p.sed.hit[p.pc := AfterRun(v)])), incoming)
  }

  /** The step loop, with at most `fuel` turns: `Ok((autoprint, pass))`
      when the loop is left, `OutOfFuel` when it has not been left in time. */
  function Walk(prog: seq<Step>, lib: Lib, p: Pass, incoming: Option<Bytes>, fuel: nat): (r: Outcome<(bool, Pass)>)
    requires WellBraced(prog) && |p.sed.hit| == |prog|
    ensures r.Ok? ==> Same(p, r.value.1)
    ensures r.Ok? && r.value.1.pc < |prog| ==> fuel > 0
    decreases fuel
  {
    if p.pc >= |prog| then Ok((true, p))
    else if fuel == 0 then Err(OutOfFuel)
    else match StepOnce(prog, lib, p, incoming)
      case Fail(e) => Err(e)
      case Stop(autoprint, q) => Ok((autoprint, q))
      case Go(q) => Walk(prog, lib, q, incoming, fuel - 1)
  }

  /** The end of a call: the automatic print unless suppressed or `-n`,
      then the queued `a` text as a line of its own. */
  function Finish(quiet: bool, autoprint: bool, p: Pass): (r: Sed)
    ensures r == p.sed.(sink := r.sink)
    ensures var printed := if autoprint && !quiet then Emit(p.sed.sink, p.line, p.eol) else p.sed.sink;
            r.sink == if p.append.Some? then Emit(printed, p.append.value, true) else printed
  {
    var printed := if autoprint && !quiet then Emit(p.sed.sink, p.line, p.eol) else p.sed.sink;
    match p.append
    case None => p.sed.(sink := printed)
    case Some(t) => p.sed.(sink := Emit(printed, t, true))
  }

  /** Split a stored line into its text and whether it ended in a
      newline. */
  function Chomp(raw: Bytes): (r: (Bytes, bool))
    requires |raw| > 0
    ensures r.0 + Newline(r.1) == raw
    ensures r.1 <==> raw[|raw| - 1] == NL
  {
    if raw[|raw| - 1] == NL then (raw[..|raw| - 1], true) else (raw, false)
  }

  /** The locals a call starts with when a non-empty line is stored: the
      line without its newline (a NUL is written over the newline, so the
      buffer is unchanged otherwise), nothing queued, the restart step or
      the first, the incoming line stored, the counter advanced and the
      restart point used up. */
  function Begin(sed: Sed, incoming: Option<Bytes>): (p: Pass)
    requires sed.next.Some? && |sed.next.value| > 0
    ensures p.line == Chomp(sed.next.value).0 && p.eol == Chomp(sed.next.value).1
    ensures p.line + Newline(p.eol) == sed.next.value
    ensures p.eol ==> p.line + p.tail == (sed.next.value + sed.nextTail)[|p.line| := NUL]
    ensures !p.eol ==> p.line + p.tail == sed.next.value + sed.nextTail
    ensures p.append == None && p.sed.count == sed.count + 1 && p.sed.restart == None
    ensures p.sed == Store(sed, incoming).(count := sed.count + 1, restart := None)
    ensures sed.restart == None ==> p.pc == 0
  {
    var (text, eol) := Chomp(sed.next.value);
    var tail := if eol then [NUL] + sed.nextTail else sed.nextTail;
    Pass(text, eol, tail, None, sed.restart.GetOr(0), Store(sed, incoming).(count := sed.count + 1, restart := None))
  }

  /** `walk_pattern(pline, plen)`, with `incoming` the line handed over
      (`None` for the final call). The incoming line is stored for the next
      call; the previously stored line, if any and non-empty, is counted and
      run through the steps from the restart point. */
  function WalkPattern(prog: seq<Step>, quiet: bool, lib: Lib, sed: Sed, incoming: Option<Bytes>, fuel: nat): (r: Outcome<Sed>)
    requires WellBraced(prog) && |sed.hit| == |prog|
    ensures r.Ok? ==> |r.value.hit| == |prog|
    ensures sed.next.None? || sed.next == Some([]) ==> r == Ok(Store(sed, incoming))
    ensures r.Ok? && sed.next.Some? && sed.next != Some([]) ==> r.value.count == sed.count + 1
  {
    match sed.next
    case None => Ok(Store(sed, incoming))
    case Some(raw) =>
      if raw == [] then Ok(Store(sed, incoming))
      else
        match Walk(prog, lib, Begin(sed, incoming), incoming, fuel)
        case Err(e) => Err(e)
        case Ok((autoprint, q)) => Ok(Finish(quiet, autoprint, q))
  }

  /** One call per input line, in order, as `do_lines` hands each line
      `getline` returns to `walk_pattern`. */
  function Feed(prog: seq<Step>, quiet: bool, lib: Lib, sed: Sed, lines: seq<Bytes>, fuel: nat): (r: Outcome<Sed>)
    requires WellBraced(prog) && |sed.hit| == |prog|
    ensures r.Ok? ==> |r.value.hit| == |prog|
    decreases |lines|
  {
    if lines == [] then Ok(sed)
    else match WalkPattern(prog, quiet, lib, sed, Some(lines[0]), fuel)
      case Err(e) => Err(e)
      case Ok(s1) => Feed(prog, quiet, lib, s1, lines[1..], fuel)
  }

  /** The whole run: from the initial state, one call per input line, then
      the final call that flushes the deferred last line. */
  function Run(prog: seq<Step>, quiet: bool, lib: Lib, lines: seq<Bytes>, fuel: nat): (r: Outcome<Sed>)
    requires WellBraced(prog)
    ensures r.Ok? ==> |r.value.hit| == |prog|
    ensures lines == [] ==> r == Ok(Initial(prog))
  {
    match Feed(prog, quiet, lib, Initial(prog), lines, fuel)
    case Err(e) => Err(e)
    case Ok(s) => WalkPattern(prog, quiet, lib, s, None, fuel)
  }

  /** Each call counts at most one line, and the first counts none when no
      line was stored before it. */
  lemma {:induction false} FeedCounts(prog: seq<Step>, quiet: bool, lib: Lib, sed: Sed, lines: seq<Bytes>, fuel: nat)
    requires WellBraced(prog) && |sed.hit| == |prog|
    ensures var r := Feed(prog, quiet, lib, sed, lines, fuel);
            && (r.Ok? ==> sed.count <= r.value.count <= sed.count + |lines|)
            && (r.Ok? && lines != [] && (sed.next.None? || sed.next == Some([])) ==> r.value.count < sed.count + |lines|)
    decreases |lines|
  {
    if lines != [] {
      match WalkPattern(prog, quiet, lib, sed, Some(lines[0]), fuel)
      case Err(e) =>
      case Ok(s1) => FeedCounts(prog, quiet, lib, s1, lines[1..], fuel);
    }
  }

  /** A run counts at most as many lines as it reads: the first call only
      stores, and the final call counts the line it flushes. */
  lemma RunCounts(prog: seq<Step>, quiet: bool, lib: Lib, lines: seq<Bytes>, fuel: nat)
    requires WellBraced(prog)
    ensures var r := Run(prog, quiet, lib, lines, fuel);
            r.Ok? ==> r.value.count <= |lines|
  {
    FeedCounts(prog, quiet, lib, Initial(prog), lines, fuel);
  }

  /** Feeding `a + b` is feeding `a`, then `b` to the state `a` left: the
      input files of a run are one stream of lines. */
  lemma {:induction false} FeedAppend(prog: seq<Step>, quiet: bool, lib: Lib, sed: Sed, a: seq<Bytes>, b: seq<Bytes>, fuel: nat)
    requires WellBraced(prog) && |sed.hit| == |prog|
    ensures Feed(prog, quiet, lib, sed, a + b, fuel) ==
            match Feed(prog, quiet, lib, sed, a, fuel)
            case Err(e) => Err(e)
            case Ok(s) => Feed(prog, quiet, lib, s, b, fuel)
    decreases |a|
  {
    if a == [] {
      assert a + b == b;
    } else {
      assert (a + b)[0] == a[0] && (a + b)[1..] == a[1..] + b;
      match WalkPattern(prog, quiet, lib, sed, Some(a[0]), fuel)
      case Err(e) =>
      case Ok(s1) => FeedAppend(prog, quiet, lib, s1, a[1..], b, fuel);
    }
  }
}

=== FILE: numbers.dfy ===
/** Numbers in script text and in output: `strtol(line, &line, 0)` as the
    address parser calls it on a string that starts with a digit, and the
    `%ld` rendering the `=` command prints. */
module Numbers {
  import opened SedTypes

  /** Value of `b` as a digit in `base` (8, 10 or 16), or -1. */
  function DigitValue(b: Byte, base: nat): (v: int)
    ensures -1 <= v < base || base > 16
    ensures IsDigit(b) && base >= 10 ==> v == b as int - 48
  {
    var d := b as int;
    var v :=
      if 48 <= d <= 57 then d - 48
      else if 97 <= d <= 102 then d - 87
      else if 65 <= d <= 70 then d - 55
      else -1;
    if v < base then v else -1
  }

  /** The digits `strtol` accumulates from offset `i` on, starting from `acc`:
      the value reached and the offset of the first byte that is not a digit. */
  function Accumulate(s: Bytes, i: nat, base: nat, acc: nat): (r: (nat, nat))
    ensures i <= r.1
    ensures i <= |s| ==> r.1 <= |s|
    ensures i < |s| && DigitValue(s[i], base) >= 0 ==> i < r.1
    ensures forall k :: i <= k < r.1 ==> k < |s| && DigitValue(s[k], base) >= 0
    decreases |s| - i
  {
    if i < |s| && DigitValue(s[i], base) >= 0 then
      Accumulate(s, i + 1, base, acc * base + DigitValue(s[i], base))
    else (acc, i)
  }

  /** `strtol` with base 0 on a string whose byte at `pos` is a digit: "0x"
      followed by a hex digit reads hexadecimal, any other leading "0" reads
      octal, everything else decimal. Returns the value and the offset just
      past the number. */
  function ParseNumber(s: Bytes, pos: nat): (r: (nat, nat))
    requires pos < |s| && IsDigit(s[pos])
    ensures pos < r.1 <= |s|
  {
    if s[pos] == ZERO && (At(s, pos + 1) == B('x') || At(s, pos + 1) == B('X'))
       && DigitValue(At(s, pos + 2), 16) >= 0
    then Accumulate(s, pos + 2, 16, 0)
    else if s[pos] == ZERO then Accumulate(s, pos, 8, 0)
    else Accumulate(s, pos, 10, 0)
  }

  /** The ASCII digit for `d < 10`. */
  function Digit(d: nat): (b: Byte)
    requires d < 10
    ensures IsDigit(b) && DigitValue(b, 10) == d
  {
    (48 + d) as Byte
  }

  /** `printf("%ld")` of a non-negative number: its decimal digits, most
      significant first, with no leading zero. */
  function Decimal(n: nat): (r: Bytes)
    ensures |r| >= 1
    ensures forall k :: 0 <= k < |r| ==> IsDigit(r[k])
    ensures n > 0 ==> r[0] != ZERO
  {
    if n < 10 then [Digit(n)] else Decimal(n / 10) + [Digit(n % 10)]
  }

  /** Left-to-right value of a digit string with accumulator `acc`. */
  function Value(acc: nat, ds: Bytes): nat
    requires forall k :: 0 <= k < |ds| ==> IsDigit(ds[k])
    decreases |ds|
  {
    if ds == [] then acc else Value(acc * 10 + DigitValue(ds[0], 10), ds[1..])
  }

  lemma {:induction false} ValueSnoc(acc: nat, ds: Bytes, d: Byte)
    requires forall k :: 0 <= k < |ds| ==> IsDigit(ds[k])
    requires IsDigit(d)
    ensures Value(acc, ds + [d]) == Value(acc, ds) * 10 + DigitValue(d, 10)
    decreases |ds|
  {
    if ds != [] {
      assert (ds + [d])[1..] == ds[1..] + [d];
      ValueSnoc(acc * 10 + DigitValue(ds[0], 10), ds[1..], d);
    }
  }

  /** Reading the digits of `Decimal(n)` gives back `n`. */
  lemma {:induction false} ValueOfDecimal(n: nat)
    ensures Value(0, Decimal(n)) == n
  {
    if n >= 10 {
      ValueOfDecimal(n / 10);
      ValueSnoc(0, Decimal(n / 10), Digit(n % 10));
    }
  }

  /** Accumulating a run of decimal digits that a non-digit follows. */
  lemma {:induction false} AccumulateDigits(s: Bytes, i: nat, acc: nat, ds: Bytes)
    requires forall k :: 0 <= k < |ds| ==> IsDigit(ds[k])
    requires i + |ds| <= |s| && s[i..i + |ds|] == ds
    requires !IsDigit(At(s, i + |ds|))
    ensures Accumulate(s, i, 10, acc) == (Value(acc, ds), i + |ds|)
    decreases |ds|
  {
    if ds == [] {
      if i < |s| {
        assert !IsDigit(s[i]);
      }
    } else {
      assert s[i] == ds[0];
      assert s[i + 1..i + 1 + |ds[1..]|] == ds[1..];
      AccumulateDigits(s, i + 1, acc * 10 + DigitValue(ds[0], 10), ds[1..]);
    }
  }

  /** Round trip between the `=` command's rendering and the address parser:
      a positive line number printed in decimal and read back by `strtol`
      yields the same number and stops right after its digits. */
  lemma NumberRoundTrip(pre: Bytes, n: nat, rest: Bytes)
    requires n > 0
    requires !IsDigit(At(rest, 0))
    ensures ParseNumber(pre + Decimal(n) + rest, |pre|) == (n, |pre| + |Decimal(n)|)
  {
    var s := pre + Decimal(n) + rest;
    var ds := Decimal(n);
    assert s[|pre|..|pre| + |ds|] == ds;
    assert At(s, |pre| + |ds|) == At(rest, 0);
    AccumulateDigits(s, |pre|, 0, ds);
    ValueOfDecimal(n);
  }
}

=== FILE: regex.dfy ===
/** `parse_regex`: extract a regular expression up to an unescaped
    delimiter. The scan copies bytes in place; `\<delim>` becomes a literal
    delimiter; for `\<c>` where `unescape(c)` knows an escape the code
    stores the escape's value and then overwrites it with `c` itself, so only
    whether `unescape` recognises `c` matters; any other backslash is kept. */
module DelimitedRegex {
  import opened SedTypes

  /** Result of the scan: the regular expression text and the offset just
      past the closing delimiter, or the offset where the scan stopped. */
  datatype Scan = Scanned(source: Bytes, next: nat) | Unterminated(stop: nat)

  function ScanFrom(line: Bytes, i: nat, delim: Byte, unescape: Byte -> Byte, acc: Bytes): (r: Scan)
    requires i <= |line|
    ensures r.Scanned? ==> i < r.next && At(line, r.next - 1) == delim
    ensures r.Scanned? && delim != NUL ==> r.next <= |line|
    ensures r.Unterminated? ==> i <= r.stop <= |line|
    ensures r.Unterminated? ==>
      At(line, r.stop) == NUL || (line[r.stop] == BACKSLASH && At(line, r.stop + 1) == NUL)
    ensures r.Scanned? && NUL !in acc ==> NUL !in r.source
    decreases |line| - i
  {
    var b := At(line, i);
    if b == delim then Scanned(acc, i + 1)
    else if b == NUL then Unterminated(i)
    else if b == BACKSLASH then
      var c := At(line, i + 1);
      if c == NUL then Unterminated(i)
      else if c == delim then ScanFrom(line, i + 2, delim, unescape, acc + [delim])
      else if unescape(c) != NUL then ScanFrom(line, i + 2, delim, unescape, acc + [c])
      else ScanFrom(line, i + 1, delim, unescape, acc + [BACKSLASH])
    else ScanFrom(line, i + 1, delim, unescape, acc + [b])
  }

  /** `parse_regex(reg, &line, delim)` starting at offset `pos`: a backslash
      delimiter is refused outright; otherwise the scan above. */
  function ParseRegex(line: Bytes, pos: nat, delim: Byte, lib: Lib): (r: Scan)
    requires pos <= |line|
    ensures delim == BACKSLASH ==> r == Unterminated(pos)
    ensures r.Scanned? ==> pos < r.next && At(line, r.next - 1) == delim && NUL !in r.source
    ensures r.Scanned? && delim != NUL ==> r.next <= |line|
    ensures r.Unterminated? && delim != BACKSLASH ==>
      pos <= r.stop <= |line| &&
      (At(line, r.stop) == NUL || (line[r.stop] == BACKSLASH && At(line, r.stop + 1) == NUL))
  {
    if delim == BACKSLASH then Unterminated(pos)
    else ScanFrom(line, pos, delim, lib.unescape, [])
  }

  /** The way to write `r` between delimiters `d`: every `d` gets a
      backslash in front. */
  function EscapeDelimiter(r: Bytes, d: Byte): (e: Bytes)
    ensures |e| >= |r|
  {
    if r == [] then []
    else EscapedByte(r[0], d) + EscapeDelimiter(r[1..], d)
  }

  /** The way `EscapeDelimiter` writes one byte. */
  function EscapedByte(b: Byte, d: Byte): Bytes {
    if b == d then [BACKSLASH, d] else [b]
  }

  /** The line holds `r` escaped from offset `i` on, closing delimiter
      after it, byte by byte. */
  predicate EscapedAt(line: Bytes, i: nat, r: Bytes, d: Byte)
    decreases |r|
  {
    if r == [] then i < |line| && line[i] == d
    else if r[0] == d then
      i + 1 < |line| && line[i] == BACKSLASH && line[i + 1] == d && EscapedAt(line, i + 2, r[1..], d)
    else i < |line| && line[i] == r[0] && EscapedAt(line, i + 1, r[1..], d)
  }

  /** The scan over an escaped text gives the text back and stops one past
      the closing delimiter. */
  lemma {:induction false} ScanEscapedAt(line: Bytes, i: nat, r: Bytes, d: Byte, u: Byte -> Byte, acc: Bytes)
    requires d != BACKSLASH && d != NUL
    requires NUL !in r && BACKSLASH !in r
    requires EscapedAt(line, i, r, d)
    ensures ScanFrom(line, i, d, u, acc) == Scanned(acc + r, i + |EscapeDelimiter(r, d)| + 1)
    decreases |r|
  {
    if r == [] {
      ScanClosing(line, i, d, u, acc);
      assert acc + r == acc;
    } else {
      ScanEscapedStep(line, i, r, d, u, acc);
      ScanEscapedAt(line, i + |EscapedByte(r[0], d)|, r[1..], d, u, acc + [r[0]]);
    }
  }

  /** The closing delimiter ends the scan. */
  lemma ScanClosing(line: Bytes, i: nat, d: Byte, u: Byte -> Byte, acc: Bytes)
    requires i < |line| && line[i] == d
    ensures ScanFrom(line, i, d, u, acc) == Scanned(acc, i + 1)
  {
  }

  /** One escaped byte of the text read back. */
  lemma ScanEscapedStep(line: Bytes, i: nat, r: Bytes, d: Byte, u: Byte -> Byte, acc: Bytes)
    requires d != BACKSLASH && d != NUL
    requires NUL !in r && BACKSLASH !in r && r != []
    requires EscapedAt(line, i, r, d)
    ensures var j := i + |EscapedByte(r[0], d)|;
            && j <= |line| && EscapedAt(line, j, r[1..], d)
            && ScanFrom(line, i, d, u, acc) == ScanFrom(line, j, d, u, acc + [r[0]])
            && j + |EscapeDelimiter(r[1..], d)| == i + |EscapeDelimiter(r, d)|
            && acc + [r[0]] + r[1..] == acc + r
  {
    assert r[0] in r;
    if r[0] == d {
      ScanEscapedDelimiter(line, i, d, u, acc);
    } else {
      ScanPlain(line, i, d, u, acc);
    }
    assert acc + [r[0]] + r[1..] == acc + r;
  }

  /** A line built by `EscapeDelimiter` holds its text escaped. */
  lemma {:induction false} EscapedLine(pre: Bytes, r: Bytes, d: Byte, rest: Bytes)
    ensures EscapedAt(pre + EscapeDelimiter(r, d) + [d] + rest, |pre|, r, d)
    decreases |r|
  {
    var line := pre + EscapeDelimiter(r, d) + [d] + rest;
    if r == [] {
      assert line[|pre|] == d;
    } else {
      var head := EscapedByte(r[0], d);
      assert line == (pre + head) + EscapeDelimiter(r[1..], d) + [d] + rest;
      assert line[|pre|] == head[0];
      if r[0] == d {
        assert line[|pre| + 1] == head[1];
      }
      EscapedLine(pre + head, r[1..], d, rest);
    }
  }

  /** A plain byte is copied. */
  lemma ScanPlain(line: Bytes, i: nat, d: Byte, u: Byte -> Byte, acc: Bytes)
    requires i < |line| && line[i] != d && line[i] != NUL && line[i] != BACKSLASH
    ensures ScanFrom(line, i, d, u, acc) == ScanFrom(line, i + 1, d, u, acc + [line[i]])
  {
  }

  /** A backslash before the delimiter yields the delimiter itself. */
  lemma ScanEscapedDelimiter(line: Bytes, i: nat, d: Byte, u: Byte -> Byte, acc: Bytes)
    requires i + 1 < |line| && line[i] == BACKSLASH && line[i + 1] == d && d != BACKSLASH && d != NUL
    ensures ScanFrom(line, i, d, u, acc) == ScanFrom(line, i + 2, d, u, acc + [d])
  {
  }

  /** Round trip with the way a script writes a regular expression: the
      text `r` (free of NULs and backslashes) with its delimiters escaped and
      a closing delimiter after it parses back to `r`, and the scan ends one
      past the closing delimiter. */
  lemma RegexRoundTrip(pre: Bytes, r: Bytes, d: Byte, rest: Bytes, lib: Lib)
    requires d != BACKSLASH && d != NUL
    requires NUL !in r && BACKSLASH !in r
    ensures var line := pre + EscapeDelimiter(r, d) + [d] + rest;
            ParseRegex(line, |pre|, d, lib) == Scanned(r, |pre| + |EscapeDelimiter(r, d)| + 1)
  {
    EscapedLine(pre, r, d, rest);
    ScanEscapedAt(pre + EscapeDelimiter(r, d) + [d] + rest, |pre|, r, d, lib.unescape, []);
    assert [] + r == r;
  }

  /** The escape table's values never reach the result: two tables that
      recognise the same escapes give the same scan. */
  lemma {:induction false} OnlyRecognitionMatters(line: Bytes, i: nat, d: Byte, u1: Byte -> Byte, u2: Byte -> Byte, acc: Bytes)
    requires i <= |line|
    requires forall c :: (u1(c) == NUL) == (u2(c) == NUL)
    ensures ScanFrom(line, i, d, u1, acc) == ScanFrom(line, i, d, u2, acc)
    decreases |line| - i
  {
    var b := At(line, i);
    if b == d || b == NUL {
    } else if b == BACKSLASH {
      var c := At(line, i + 1);
      if c == NUL {
      } else if c == d {
        OnlyRecognitionMatters(line, i + 2, d, u1, u2, acc + [d]);
      } else if u1(c) != NUL {
        OnlyRecognitionMatters(line, i + 2, d, u1, u2, acc + [c]);
      } else {
        OnlyRecognitionMatters(line, i + 1, d, u1, u2, acc + [BACKSLASH]);
      }
    } else {
      OnlyRecognitionMatters(line, i + 1, d, u1, u2, acc + [b]);
    }
  }
}

=== FILE: runs.dfy ===
/** Properties of whole calls and whole runs of the line engine: which
    scripts copy their input, what `d`, `a` and `N` do to the output, the
    hold-space laws, and the two ways the walker as written never finishes a
    line or stops at a brace. */
module Runs {
  import opened SedTypes
  import opened Numbers
  import opened Buffers
  import opened OutputSink
  import opened Steps
  import opened Addressing
  import opened Compiler
  import opened Engine
  import opened ScriptChecks

  /** What `getline` hands over: non-empty lines, each but the last ending
      in a newline. */
  predicate InputLines(lines: seq<Bytes>) {
    && (forall i :: 0 <= i < |lines| ==> |lines[i]| > 0)
    && (forall i :: 0 <= i < |lines| - 1 ==> lines[i][|lines[i]| - 1] == NL)
  }

  /** The input read back as one byte string. */
  function Concat(lines: seq<Bytes>): Bytes {
    if lines == [] then [] else lines[0] + Concat(lines[1..])
  }

  /** The input is its lines but the last, then the last. */
  lemma {:induction false} ConcatLast(lines: seq<Bytes>)
    requires lines != []
    ensures Concat(lines) == Concat(lines[..|lines| - 1]) + lines[|lines| - 1]
    decreases |lines|
  {
    if |lines| > 1 {
      var rest := lines[1..];
      ConcatLast(rest);
      assert rest[..|rest| - 1] == lines[..|lines| - 1][1..];
      assert lines[..|lines| - 1][0] == lines[0];
    }
  }

  /** A script without braces is well braced. */
  lemma {:induction false} FlatDepth(prog: seq<Step>, k: nat)
    requires k <= |prog|
    requires forall i :: 0 <= i < |prog| ==> prog[i].cmd != LBRACE && prog[i].cmd != RBRACE
    ensures Depth(prog, k) == 0
  {
    if k > 0 {
      FlatDepth(prog, k - 1);
    }
  }

  lemma FlatIsWellBraced(prog: seq<Step>)
    requires forall i :: 0 <= i < |prog| ==> prog[i].cmd != LBRACE && prog[i].cmd != RBRACE
    ensures WellBraced(prog)
  {
    forall k | 0 <= k <= |prog| ensures Depth(prog, k) == 0 {
      FlatDepth(prog, k);
    }
  }

  // ---------------------------------------------------------------------
  // Scripts that copy their input

  /** The scripts that print each line exactly once: the empty script, `p`
      under `-n`, `q` (which leaves the step loop but not the run), and a
      `b` without label as the last step (which leaves the loop to the
      automatic print). */
  predicate Echoing(prog: seq<Step>, quiet: bool, fuel: nat) {
    || (prog == [] && !quiet)
    || (prog == [Plain(B('p'))] && quiet && fuel >= 1)
    || (prog == [Plain(B('q'))] && !quiet && fuel >= 1)
    || (prog == [Plain(B('b'))] && !quiet && fuel >= 1)
  }

  lemma EchoIsWellBraced(prog: seq<Step>, quiet: bool, fuel: nat)
    requires Echoing(prog, quiet, fuel)
    ensures WellBraced(prog)
  {
    FlatIsWellBraced(prog);
  }

  /** A one-step script without an address, entered at its step, whose
      command either leaves the loop or moves past the step: the walk ends
      after that one command. */
  lemma WalkOneStep(prog: seq<Step>, lib: Lib, p: Pass, incoming: Option<Bytes>, fuel: nat)
    requires WellBraced(prog) && |prog| == 1 && !HasAddress(prog[0])
    requires |p.sed.hit| == 1 && p.pc == 0 && fuel >= 1
    requires var f := Execute(prog, p, incoming); f.Stop? || (f.Go? && f.pass.pc == 1)
    ensures var f := Execute(prog, p, incoming);
            Walk(prog, lib, p, incoming, fuel) == Ok((if f.Stop? then f.autoprint else true, f.pass))
  {
    var f := Execute(prog, p, incoming);
    assert StepOnce(prog, lib, p, incoming) == f;
    if f.Go? {
      assert Walk(prog, lib, f.pass, incoming, fuel - 1) == Ok((true, f.pass));
    }
  }

  /** One call of such a script on a stored line, with no restart point. */
  lemma PassOneStep(prog: seq<Step>, quiet: bool, lib: Lib, sed: Sed, incoming: Option<Bytes>, fuel: nat)
    requires WellBraced(prog) && |prog| == 1 && !HasAddress(prog[0])
    requires |sed.hit| == 1 && fuel >= 1
    requires sed.next.Some? && |sed.next.value| > 0 && sed.restart == None
    requires var f := Execute(prog, Begin(sed, incoming), incoming); f.Stop? || (f.Go? && f.pass.pc == 1)
    ensures var f := Execute(prog, Begin(sed, incoming), incoming);
            WalkPattern(prog, quiet, lib, sed, incoming, fuel) ==
              Ok(Finish(quiet, if f.Stop? then f.autoprint else true, f.pass))
  {
    WalkOneStep(prog, lib, Begin(sed, incoming), incoming, fuel);
  }

  /** The state after one call of an echoing script: the incoming line
      stored, the line counted, and the stored line written as it was read. */
  function Echoed(sed: Sed, incoming: Option<Bytes>): Sed
    requires sed.next.Some? && |sed.next.value| > 0
  {
    Store(sed, incoming).(count := sed.count + 1, restart := None,
         sink := Emit(sed.sink, Chomp(sed.next.value).0, Chomp(sed.next.value).1))
  }

  lemma ExecuteQuit(prog: seq<Step>, p: Pass, incoming: Option<Bytes>)
    requires p.pc < |prog| && prog[p.pc].cmd == B('q')
    ensures Execute(prog, p, incoming) == Stop(true, p)
  {
  }

  lemma ExecutePrint(prog: seq<Step>, p: Pass, incoming: Option<Bytes>)
    requires p.pc < |prog| && prog[p.pc].cmd == B('p')
    ensures Execute(prog, p, incoming) ==
            Go(p.(pc := p.pc + 1, tail := AfterEmit(p.tail, p.eol),
                  sed := p.sed.(sink := Emit(p.sed.sink, p.line, p.eol))))
  {
  }

  lemma ExecuteJoin(prog: seq<Step>, p: Pass, incoming: Option<Bytes>)
    requires p.pc < |prog| && prog[p.pc].cmd == B('N')
    ensures Execute(prog, p, incoming) == Join(prog, p, incoming)
  {
  }

  /** Ending a pass on the unchanged stored line, either by the automatic
      print or after `p` under `-n`, leaves the echoed state. */
  lemma FinishEchoes(sed: Sed, incoming: Option<Bytes>)
    requires sed.next.Some? && |sed.next.value| > 0 && sed.restart == None
    ensures Finish(false, true, Begin(sed, incoming)) == Echoed(sed, incoming)
    ensures var b := Begin(sed, incoming);
            Finish(true, true, b.(pc := 1, tail := AfterEmit(b.tail, b.eol),
                                  sed := b.sed.(sink := Emit(b.sed.sink, b.line, b.eol))))
              == Echoed(sed, incoming)
  {
  }

  lemma WalkEmpty(lib: Lib, p: Pass, incoming: Option<Bytes>, fuel: nat)
    requires WellBraced([]) && |p.sed.hit| == 0
    ensures Walk([], lib, p, incoming, fuel) == Ok((true, p))
  {
  }

  lemma EchoPassEmpty(lib: Lib, sed: Sed, incoming: Option<Bytes>, fuel: nat)
    requires WellBraced([])
    requires |sed.hit| == 0 && sed.next.Some? && |sed.next.value| > 0 && sed.restart == None
    ensures WalkPattern([], false, lib, sed, incoming, fuel) == Ok(Echoed(sed, incoming))
  {
    WalkEmpty(lib, Begin(sed, incoming), incoming, fuel);
    FinishEchoes(sed, incoming);
  }

  lemma EchoPassPrint(lib: Lib, sed: Sed, incoming: Option<Bytes>, fuel: nat)
    requires WellBraced([Plain(B('p'))])
    requires fuel >= 1 && |sed.hit| == 1 && sed.next.Some? && |sed.next.value| > 0 && sed.restart == None
    ensures WalkPattern([Plain(B('p'))], true, lib, sed, incoming, fuel) == Ok(Echoed(sed, incoming))
  {
    ExecutePrint([Plain(B('p'))], Begin(sed, incoming), incoming);
    PassOneStep([Plain(B('p'))], true, lib, sed, incoming, fuel);
    FinishEchoes(sed, incoming);
  }

  lemma EchoPassQuit(lib: Lib, sed: Sed, incoming: Option<Bytes>, fuel: nat)
    requires WellBraced([Plain(B('q'))])
    requires fuel >= 1 && |sed.hit| == 1 && sed.next.Some? && |sed.next.value| > 0 && sed.restart == None
    ensures WalkPattern([Plain(B('q'))], false, lib, sed, incoming, fuel) == Ok(Echoed(sed, incoming))
  {
    ExecuteQuit([Plain(B('q'))], Begin(sed, incoming), incoming);
    PassOneStep([Plain(B('q'))], false, lib, sed, incoming, fuel);
    FinishEchoes(sed, incoming);
  }

  lemma EchoPassBranch(lib: Lib, sed: Sed, incoming: Option<Bytes>, fuel: nat)
    requires WellBraced([Plain(B('b'))])
    requires fuel >= 1 && |sed.hit| == 1 && sed.next.Some? && |sed.next.value| > 0 && sed.restart == None
    ensures WalkPattern([Plain(B('b'))], false, lib, sed, incoming, fuel) == Ok(Echoed(sed, incoming))
  {
    var b := Begin(sed, incoming);
    assert Execute([Plain(B('b'))], b, incoming) == Stop(true, b);
    PassOneStep([Plain(B('b'))], false, lib, sed, incoming, fuel);
    FinishEchoes(sed, incoming);
  }

  /** One call of an echoing script emits the stored line as it was read. */
  lemma EchoPass(prog: seq<Step>, quiet: bool, lib: Lib, sed: Sed, incoming: Option<Bytes>, fuel: nat)
    requires Echoing(prog, quiet, fuel) && WellBraced(prog) && |sed.hit| == |prog|
    requires sed.next.Some? && |sed.next.value| > 0 && sed.restart == None
    ensures WalkPattern(prog, quiet, lib, sed, incoming, fuel) == Ok(Echoed(sed, incoming))
  {
    if prog == [] {
      EchoPassEmpty(lib, sed, incoming, fuel);
    } else if prog == [Plain(B('p'))] {
      EchoPassPrint(lib, sed, incoming, fuel);
    } else if prog == [Plain(B('q'))] {
      EchoPassQuit(lib, sed, incoming, fuel);
    } else {
      EchoPassBranch(lib, sed, incoming, fuel);
    }
  }

  lemma InputTail(l: Bytes, lines: seq<Bytes>)
    requires InputLines([l] + lines)
    ensures InputLines(lines)
    ensures |l| > 0 && (lines != [] ==> l[|l| - 1] == NL)
  {
    assert ([l] + lines)[0] == l;
    forall i | 0 <= i < |lines| ensures lines[i] == ([l] + lines)[i + 1] {
    }
  }

  /** Feeding lines is one call on the first line, then feeding the rest. */
  lemma FeedStep(prog: seq<Step>, quiet: bool, lib: Lib, sed: Sed, lines: seq<Bytes>, fuel: nat, s1: Sed)
    requires WellBraced(prog) && |sed.hit| == |prog| && lines != []
    requires WalkPattern(prog, quiet, lib, sed, Some(lines[0]), fuel) == Ok(s1)
    ensures |s1.hit| == |prog|
    ensures Feed(prog, quiet, lib, sed, lines, fuel) == Feed(prog, quiet, lib, s1, lines[1..], fuel)
  {
  }

  lemma ConcatInit(l: Bytes, lines: seq<Bytes>)
    requires lines != []
    ensures Concat(([l] + lines)[..|lines|]) == l + Concat(lines[..|lines| - 1])
  {
    assert ([l] + lines)[..|lines|] == [l] + lines[..|lines| - 1];
  }

  /** Feeding the first line to an echoing script emits the stored one. */
  lemma EchoFeedStep(prog: seq<Step>, quiet: bool, lib: Lib, sed: Sed, lines: seq<Bytes>, fuel: nat)
    requires Echoing(prog, quiet, fuel) && WellBraced(prog) && |sed.hit| == |prog| && lines != []
    requires sed.next.Some? && |sed.next.value| > 0 && sed.restart == None
    ensures Feed(prog, quiet, lib, sed, lines, fuel) == Feed(prog, quiet, lib, Echoed(sed, Some(lines[0])), lines[1..], fuel)
  {
    EchoPass(prog, quiet, lib, sed, Some(lines[0]), fuel);
    var s1 := Echoed(sed, Some(lines[0]));
    FeedStep(prog, quiet, lib, sed, lines, fuel, s1);
  }

  /** The bookkeeping of one feeding step, on sequences alone. */
  lemma EchoFeedCombine(before: Bytes, l: Bytes, lines: seq<Bytes>, mid: Bytes, r: Sed)
    requires lines != [] && mid == before + l
    requires r.next == Some(([lines[0]] + lines[1..])[|lines| - 1])
    requires r.sink.out == mid + Concat(([lines[0]] + lines[1..])[..|lines| - 1])
    ensures r.next == Some(([l] + lines)[|lines|])
    ensures r.sink.out == before + Concat(([l] + lines)[..|lines|])
  {
    assert [lines[0]] + lines[1..] == lines;
    ConcatInit(l, lines);
  }

  /** One echoing call: the stored line is written whole and the incoming
      one stored in its place. */
  lemma EchoFeedOne(prog: seq<Step>, quiet: bool, lib: Lib, sed: Sed, lines: seq<Bytes>, fuel: nat)
    requires Echoing(prog, quiet, fuel) && WellBraced(prog) && |sed.hit| == |prog| && lines != []
    requires sed.next.Some? && |sed.next.value| > 0 && InputLines([sed.next.value] + lines)
    requires !sed.sink.noeol && sed.restart == None
    ensures var s1 := Echoed(sed, Some(lines[0]));
            && Feed(prog, quiet, lib, sed, lines, fuel) == Feed(prog, quiet, lib, s1, lines[1..], fuel)
            && |s1.hit| == |prog| && s1.next == Some(lines[0]) && InputLines([lines[0]] + lines[1..])
            && !s1.sink.noeol && s1.restart == None && s1.sink.out == sed.sink.out + sed.next.value
  {
    var l := sed.next.value;
    InputTail(l, lines);
    EchoFeedStep(prog, quiet, lib, sed, lines, fuel);
    EmitAfter(sed.sink, Chomp(l).0, Chomp(l).1, sed.sink.out, l);
    assert [lines[0]] + lines[1..] == lines;
  }

  lemma {:induction false} FeedEchoes(prog: seq<Step>, quiet: bool, lib: Lib, sed: Sed, lines: seq<Bytes>, fuel: nat)
    requires Echoing(prog, quiet, fuel) && WellBraced(prog) && |sed.hit| == |prog|
    requires sed.next.Some? && InputLines([sed.next.value] + lines)
    requires !sed.sink.noeol && sed.restart == None
    ensures var r := Feed(prog, quiet, lib, sed, lines, fuel);
            && r.Ok? && !r.value.sink.noeol && r.value.restart == None
            && r.value.next == Some(([sed.next.value] + lines)[|lines|])
            && r.value.sink.out == sed.sink.out + Concat(([sed.next.value] + lines)[..|lines|])
    decreases |lines|
  {
    var l := sed.next.value;
    InputTail(l, lines);
    if lines != [] {
      EchoFeedOne(prog, quiet, lib, sed, lines, fuel);
      var s1 := Echoed(sed, Some(lines[0]));
      FeedEchoes(prog, quiet, lib, s1, lines[1..], fuel);
      var r := Feed(prog, quiet, lib, s1, lines[1..], fuel).value;
      EchoFeedCombine(sed.sink.out, l, lines, s1.sink.out, r);
    } else {
      assert ([l] + lines)[..0] == [];
    }
  }

  /** A run is the feeding of its lines followed by the final call. */
  lemma RunIsFeedThenFlush(prog: seq<Step>, quiet: bool, lib: Lib, lines: seq<Bytes>, fuel: nat, r: Sed)
    requires WellBraced(prog) && Feed(prog, quiet, lib, Initial(prog), lines, fuel) == Ok(r)
    ensures |r.hit| == |prog|
    ensures Run(prog, quiet, lib, lines, fuel) == WalkPattern(prog, quiet, lib, r, None, fuel)
  {
  }

  /** The first call of a run only stores the first line. */
  lemma FeedFromInitial(prog: seq<Step>, quiet: bool, lib: Lib, lines: seq<Bytes>, fuel: nat)
    requires WellBraced(prog) && lines != []
    ensures Feed(prog, quiet, lib, Initial(prog), lines, fuel) ==
            Feed(prog, quiet, lib, Initial(prog).(next := Some(lines[0])), lines[1..], fuel)
  {
    FeedStep(prog, quiet, lib, Initial(prog), lines, fuel, Initial(prog).(next := Some(lines[0])));
  }

  lemma EmitAfter(sink: Sink, text: Bytes, eol: bool, before: Bytes, line: Bytes)
    requires !sink.noeol && sink.out == before && text + Newline(eol) == line
    ensures Emit(sink, text, eol).out == before + line
  {
    assert Emit(sink, text, eol).out == before + [] + text + Newline(eol);
    assert before + [] + text + Newline(eol) == before + (text + Newline(eol));
  }

  lemma EmitLastLine(sink: Sink, lines: seq<Bytes>)
    requires lines != [] && |lines[|lines| - 1]| > 0 && !sink.noeol
    requires sink.out == Concat(lines[..|lines| - 1])
    ensures Emit(sink, Chomp(lines[|lines| - 1]).0, Chomp(lines[|lines| - 1]).1).out == Concat(lines)
  {
    var n := |lines|;
    var c := Chomp(lines[n - 1]);
    EmitAfter(sink, c.0, c.1, Concat(lines[..n - 1]), lines[n - 1]);
    ConcatLast(lines);
  }

  /** The final call of an echoing script writes the last line. */
  lemma EchoFlush(prog: seq<Step>, quiet: bool, lib: Lib, r: Sed, lines: seq<Bytes>, fuel: nat)
    requires Echoing(prog, quiet, fuel) && WellBraced(prog) && |r.hit| == |prog|
    requires lines != [] && InputLines(lines)
    requires r.next == Some(lines[|lines| - 1]) && r.restart == None && !r.sink.noeol
    requires r.sink.out == Concat(lines[..|lines| - 1])
    ensures var f := WalkPattern(prog, quiet, lib, r, None, fuel);
            f.Ok? && f.value.sink.out == Concat(lines)
  {
    assert |lines[|lines| - 1]| > 0;
    EchoPass(prog, quiet, lib, r, None, fuel);
    EmitLastLine(r.sink, lines);
  }

  /** A run of an echoing script writes its input back byte for byte. */
  lemma EchoRun(prog: seq<Step>, quiet: bool, lib: Lib, lines: seq<Bytes>, fuel: nat)
    requires Echoing(prog, quiet, fuel) && InputLines(lines)
    ensures WellBraced(prog)
    ensures Run(prog, quiet, lib, lines, fuel).Ok?
    ensures Run(prog, quiet, lib, lines, fuel).value.sink.out == Concat(lines)
  {
    EchoIsWellBraced(prog, quiet, fuel);
    var s0 := Initial(prog);
    if lines == [] {
      RunIsFeedThenFlush(prog, quiet, lib, lines, fuel, s0);
    } else {
      var s1 := s0.(next := Some(lines[0]));
      FeedFromInitial(prog, quiet, lib, lines, fuel);
      assert [lines[0]] + lines[1..] == lines;
      FeedEchoes(prog, quiet, lib, s1, lines[1..], fuel);
      var r := Feed(prog, quiet, lib, s1, lines[1..], fuel).value;
      RunIsFeedThenFlush(prog, quiet, lib, lines, fuel, r);
      EchoFlush(prog, quiet, lib, r, lines, fuel);
    }
  }

  /** With no script the input is copied to the output unchanged. */
  lemma EmptyScriptCopiesInput(lib: Lib, lines: seq<Bytes>, fuel: nat)
    requires InputLines(lines)
    ensures WellBraced([])
    ensures var r := Run([], false, lib, lines, fuel);
            r.Ok? && r.value.sink.out == Concat(lines)
  {
    EchoRun([], false, lib, lines, fuel);
  }

  /** `sed -n p` copies its input. */
  lemma QuietPrintCopiesInput(lib: Lib, lines: seq<Bytes>, fuel: nat)
    requires InputLines(lines) && fuel >= 1
    ensures WellBraced([Plain(B('p'))])
    ensures var r := Run([Plain(B('p'))], true, lib, lines, fuel);
            r.Ok? && r.value.sink.out == Concat(lines)
  {
    EchoRun([Plain(B('p'))], true, lib, lines, fuel);
  }

  /** `q` only leaves the step loop: the run goes on reading, and every line
      is printed. */
  lemma QuitKeepsReading(lib: Lib, lines: seq<Bytes>, fuel: nat)
    requires InputLines(lines) && fuel >= 1
    ensures WellBraced([Plain(B('q'))])
    ensures var r := Run([Plain(B('q'))], false, lib, lines, fuel);
            r.Ok? && r.value.sink.out == Concat(lines)
  {
    EchoRun([Plain(B('q'))], false, lib, lines, fuel);
  }

  // ---------------------------------------------------------------------
  // d

  lemma DeletePass(quiet: bool, lib: Lib, sed: Sed, incoming: Option<Bytes>, fuel: nat)
    requires fuel >= 1 && |sed.hit| == 1 && sed.restart == None
    ensures WellBraced([Plain(B('d'))])
    ensures var r := WalkPattern([Plain(B('d'))], quiet, lib, sed, incoming, fuel);
            r.Ok? && r.value.sink == sed.sink && r.value.restart == None
  {
    var prog := [Plain(B('d'))];
    FlatIsWellBraced(prog);
    if sed.next.Some? && sed.next.value != [] {
      var b := Begin(sed, incoming);
      assert Execute(prog, b, incoming) == Stop(false, b);
      PassOneStep(prog, quiet, lib, sed, incoming, fuel);
    }
  }

  lemma {:induction false} DeleteFeed(quiet: bool, lib: Lib, sed: Sed, lines: seq<Bytes>, fuel: nat)
    requires fuel >= 1 && |sed.hit| == 1 && sed.restart == None
    ensures WellBraced([Plain(B('d'))])
    ensures var r := Feed([Plain(B('d'))], quiet, lib, sed, lines, fuel);
            r.Ok? && r.value.sink == sed.sink && r.value.restart == None
    decreases |lines|
  {
    DeletePass(quiet, lib, sed, if lines == [] then None else Some(lines[0]), fuel);
    if lines != [] {
      var s1 := WalkPattern([Plain(B('d'))], quiet, lib, sed, Some(lines[0]), fuel).value;
      DeleteFeed(quiet, lib, s1, lines[1..], fuel);
    }
  }

  /** `sed d` writes nothing, with or without `-n`. */
  lemma DeleteWritesNothing(quiet: bool, lib: Lib, lines: seq<Bytes>, fuel: nat)
    requires fuel >= 1
    ensures WellBraced([Plain(B('d'))])
    ensures var r := Run([Plain(B('d'))], quiet, lib, lines, fuel);
            r.Ok? && r.value.sink.out == []
  {
    var prog := [Plain(B('d'))];
    DeleteFeed(quiet, lib, Initial(prog), lines, fuel);
    var s := Feed(prog, quiet, lib, Initial(prog), lines, fuel).value;
    DeletePass(quiet, lib, s, None, fuel);
  }

  // ---------------------------------------------------------------------
  // a

  /** The script `a t`. */
  function AppendScript(t: Bytes): seq<Step> {
    [Plain(B('a')).(arg1 := Some(t))]
  }

  lemma AppendQueues(t: Bytes, p: Pass, incoming: Option<Bytes>)
    requires NUL !in t && p.pc == 0 && p.append == None
    ensures Execute(AppendScript(t), p, incoming) == Go(p.(pc := 1, append := Some(Separator(t) + t)))
  {
    var on := p.(pc := 1);
    assert CString(t) == t && CString([]) == [];
    assert CString([]) + Separator(t) + t == Separator(t) + t;
    assert Queue(Some(t), on) == Go(on.(append := Some(Separator(t) + t)));
  }

  lemma FinishWithQueue(p: Pass)
    requires p.append.Some?
    ensures Finish(false, true, p).sink == Emit(Emit(p.sed.sink, p.line, p.eol), p.append.value, true)
  {
  }

  lemma EmitTwice(s: Sink, line: Bytes, eol: bool, a: Bytes)
    ensures Emit(Emit(s, line, eol), a, true).out ==
            s.out + Newline(s.noeol) + line + Newline(eol) + Newline(!eol) + a + [NL]
  {
  }

  lemma OneNewline(x: Bytes, line: Bytes, eol: bool, a: Bytes)
    ensures x + line + Newline(eol) + Newline(!eol) + a + [NL] == x + line + [NL] + a + [NL]
  {
    assert Newline(eol) + Newline(!eol) == [NL];
  }

  /** The end of a call with a queued text and the automatic print: the
      queued text starts on a line of its own whether or not the pattern
      space had a newline. */
  lemma FlushAfterLine(p: Pass)
    requires p.append.Some?
    ensures Finish(false, true, p).sink.out ==
            p.sed.sink.out + Newline(p.sed.sink.noeol) + p.line + [NL] + p.append.value + [NL]
  {
    FinishWithQueue(p);
    EmitTwice(p.sed.sink, p.line, p.eol, p.append.value);
    OneNewline(p.sed.sink.out + Newline(p.sed.sink.noeol), p.line, p.eol, p.append.value);
  }

  lemma Regroup(x: Bytes, y: Bytes, z: Bytes, w: Bytes)
    ensures x + (y + z) + w == x + y + z + w
  {
  }

  lemma AppendOutput(t: Bytes, sed: Sed, incoming: Option<Bytes>)
    requires sed.next.Some? && |sed.next.value| > 0
    ensures var q := Begin(sed, incoming).(pc := 1, append := Some(Separator(t) + t));
            Finish(false, true, q).sink.out ==
              sed.sink.out + Newline(sed.sink.noeol) + Chomp(sed.next.value).0 + [NL]
              + Separator(t) + t + [NL]
  {
    var q := Begin(sed, incoming).(pc := 1, append := Some(Separator(t) + t));
    FlushAfterLine(q);
    Regroup(sed.sink.out + Newline(sed.sink.noeol) + q.line + [NL], Separator(t), t, [NL]);
  }

  /** The queued `a` text is written after the pattern space, as a line of
      its own and, being queued behind a newline, after an empty line. */
  lemma AppendFollowsLine(t: Bytes, lib: Lib, sed: Sed, incoming: Option<Bytes>, fuel: nat)
    requires NUL !in t && fuel >= 1 && |sed.hit| == 1
    requires sed.next.Some? && |sed.next.value| > 0 && sed.restart == None
    ensures WellBraced(AppendScript(t))
    ensures var r := WalkPattern(AppendScript(t), false, lib, sed, incoming, fuel);
            && r.Ok?
            && r.value.sink.out ==
                 sed.sink.out + Newline(sed.sink.noeol) + Chomp(sed.next.value).0 + [NL]
                 + Separator(t) + t + [NL]
  {
    var prog := AppendScript(t);
    FlatIsWellBraced(prog);
    var b := Begin(sed, incoming);
    var q := b.(pc := 1, append := Some(Separator(t) + t));
    assert WalkPattern(prog, false, lib, sed, incoming, fuel) == Ok(Finish(false, true, q)) by {
      AppendQueues(t, b, incoming);
      PassOneStep(prog, false, lib, sed, incoming, fuel);
    }
    AppendOutput(t, sed, incoming);
  }

  // ---------------------------------------------------------------------
  // N

  /** `N` prints nothing. Given a following line it stores, in place of
      that line, a string as long as the following line made of the first
      bytes of the current buffer: the current line's own first bytes when
      the following line is shorter than it. At the end of input it drops
      the pattern space. */
  lemma JoinSwallowsNextLine(quiet: bool, lib: Lib, sed: Sed, incoming: Option<Bytes>, fuel: nat)
    requires fuel >= 1 && |sed.hit| == 1
    requires sed.next.Some? && |sed.next.value| > 0 && sed.restart == None
    requires incoming.Some? ==> |incoming.value| <= |sed.next.value| + |sed.nextTail|
    ensures WellBraced([Plain(B('N'))])
    ensures var r := WalkPattern([Plain(B('N'))], quiet, lib, sed, incoming, fuel);
            && r.Ok? && r.value.sink == sed.sink && r.value.restart == None
            && (incoming.Some? ==> r.value.next.Some? && |r.value.next.value| == |incoming.value|)
            && (incoming.Some? && |incoming.value| < |sed.next.value| ==>
                  r.value.next == Some(sed.next.value[..|incoming.value|]))
  {
    var prog := [Plain(B('N'))];
    FlatIsWellBraced(prog);
    var b := Begin(sed, incoming);
    assert Execute(prog, b, incoming) == Join(prog, b, incoming);
    PassOneStep(prog, quiet, lib, sed, incoming, fuel);
    if incoming.Some? && |incoming.value| < |sed.next.value| {
      var n := |incoming.value|;
      var q := Join(prog, b, incoming).pass;
      assert (b.line + b.tail)[..n] == sed.next.value[..n] by {
        forall i | 0 <= i < n ensures (b.line + b.tail)[i] == sed.next.value[i] {
          if b.eol {
            assert (b.line + b.tail)[i] == (sed.next.value + sed.nextTail)[|b.line| := NUL][i];
          } else {
            assert (b.line + b.tail)[i] == (sed.next.value + sed.nextTail)[i];
          }
        }
      }
      assert q.sed.next.value == (q.sed.next.value + q.sed.nextTail)[..n];
    }
  }

  /** One call of `N` on a stored line, entered at its first step, writes
      nothing and leaves no restart point: `N` is the last step. */
  lemma JoinPassSilent(quiet: bool, lib: Lib, sed: Sed, incoming: Option<Bytes>, fuel: nat)
    requires |sed.hit| == 1 && sed.restart == None
    ensures WellBraced([Plain(B('N'))])
    ensures var r := WalkPattern([Plain(B('N'))], quiet, lib, sed, incoming, fuel);
            r.Ok? ==> r.value.sink == sed.sink && r.value.restart == None
  {
    var prog := [Plain(B('N'))];
    FlatIsWellBraced(prog);
    if sed.next.Some? && sed.next.value != [] && fuel >= 1 {
      var b := Begin(sed, incoming);
      assert StepOnce(prog, lib, b, incoming) == Join(prog, b, incoming);
    }
  }

  lemma {:induction false} JoinFeedSilent(quiet: bool, lib: Lib, sed: Sed, lines: seq<Bytes>, fuel: nat)
    requires |sed.hit| == 1 && sed.restart == None
    ensures WellBraced([Plain(B('N'))])
    ensures var r := Feed([Plain(B('N'))], quiet, lib, sed, lines, fuel);
            r.Ok? ==> r.value.sink == sed.sink && r.value.restart == None
    decreases |lines|
  {
    var prog := [Plain(B('N'))];
    JoinPassSilent(quiet, lib, sed, if lines == [] then None else Some(lines[0]), fuel);
    if lines != [] {
      var w := WalkPattern(prog, quiet, lib, sed, Some(lines[0]), fuel);
      if w.Ok? {
        JoinFeedSilent(quiet, lib, w.value, lines[1..], fuel);
      }
    }
  }

  /** `sed N` writes nothing, with or without `-n`, whenever it finishes:
      each line is joined or, at the end, dropped, never printed. */
  lemma JoinWritesNothing(quiet: bool, lib: Lib, lines: seq<Bytes>, fuel: nat)
    ensures WellBraced([Plain(B('N'))])
    ensures var r := Run([Plain(B('N'))], quiet, lib, lines, fuel);
            r.Ok? ==> r.value.sink.out == []
  {
    var prog := [Plain(B('N'))];
    JoinFeedSilent(quiet, lib, Initial(prog), lines, fuel);
    var f := Feed(prog, quiet, lib, Initial(prog), lines, fuel);
    if f.Ok? {
      JoinPassSilent(quiet, lib, f.value, None, fuel);
    }
  }

  /** `p` then `N`, the program of the script `pN` (with a `;` between
      them the compiler refuses the script). */
  const PrintJoin: seq<Step> := [Plain(B('p')), Plain(B('N'))]

  /** The script `pN` compiles to `PrintJoin`. */
  lemma PrintJoinCompiles(lib: Lib)
    ensures CompileScript([[B('p'), B('N')]], [], lib) == Ok(PrintJoin)
  {
    AdjacentCommands(Start, B('p'), B('N'), lib);
    OneLineScript([B('p'), B('N')], lib);
  }

  /** A step without an address runs its command. */
  lemma StepUnaddressed(prog: seq<Step>, lib: Lib, p: Pass, incoming: Option<Bytes>)
    requires WellBraced(prog) && p.pc < |prog| && |p.sed.hit| == |prog| && !HasAddress(prog[p.pc])
    ensures StepOnce(prog, lib, p, incoming) == Execute(prog, p, incoming)
  {
  }

  /** A call whose walk goes on past one step and leaves the loop at the
      next. */
  lemma PassGoStop(prog: seq<Step>, quiet: bool, lib: Lib, sed: Sed, incoming: Option<Bytes>, fuel: nat,
                   p1: Pass, autoprint: bool, q: Pass)
    requires WellBraced(prog) && |sed.hit| == |prog| && fuel >= 2
    requires sed.next.Some? && |sed.next.value| > 0
    requires var b := Begin(sed, incoming); b.pc < |prog| && StepOnce(prog, lib, b, incoming) == Go(p1)
    requires p1.pc < |prog| && |p1.sed.hit| == |prog| && StepOnce(prog, lib, p1, incoming) == Stop(autoprint, q)
    ensures WalkPattern(prog, quiet, lib, sed, incoming, fuel) == Ok(Finish(quiet, autoprint, q))
  {
    assert Walk(prog, lib, p1, incoming, fuel - 1) == Ok((autoprint, q));
  }

  /** The line a call of `pN` starts from: `ab` NL as read becomes `ab`
      followed by two NULs, the one written over the newline and the
      terminator. */
  lemma PrintJoinBegin(s1: Sed, t: Bytes, incoming: Option<Bytes>)
    requires s1.next == Some(t + [NL]) && s1.nextTail == [NUL]
    ensures var b := Begin(s1, incoming); b.line == t && b.eol && b.tail == [NUL, NUL]
  {
    var b := Begin(s1, incoming);
    assert b.line + b.tail == (t + [NL] + [NUL])[|t| := NUL];
  }

  /** What `N` stores when the following line fits the known buffer. */
  lemma JoinStores(prog: seq<Step>, p: Pass, l: Bytes)
    requires p.pc < |prog| && |l| <= |p.line| + |p.tail|
    ensures Join(prog, p, Some(l)) ==
              Stop(false, p.(sed := p.sed.(restart := Resume(prog, p.pc), next := Some((p.line + p.tail)[..|l|]),
                                           nextTail := Separator(l) + l + [NUL])))
  {
    var f := Join(prog, p, Some(l));
    var n := f.pass.sed.next.value;
    assert n + f.pass.sed.nextTail == (p.line + p.tail)[..|l|] + Separator(l) + l + [NUL];
    assert n == (n + f.pass.sed.nextTail)[..|l|];
  }

  /** The pass of the second call of `pN` on two lines of the same
      length, before and after `p`, and after `N`. */
  function PrintJoinPass(t: Bytes, l2: Bytes, stage: nat): Pass {
    if stage == 0 then
      Pass(t, true, [NUL, NUL], None, 0, Sed([false, false], Some(l2), [NUL], [], [NUL], 1, None, Fresh))
    else if stage == 1 then
      Pass(t, true, [NL, NUL], None, 1, Sed([false, false], Some(l2), [NUL], [], [NUL], 1, None, Emit(Fresh, t, true)))
    else
      Pass(t, true, [NL, NUL], None, 1,
           Sed([false, false], Some(t + [NL]), [NL] + l2 + [NUL], [], [NUL], 1, None, Emit(Fresh, t, true)))
  }

  /** `p` prints the line and writes its newline over the NUL after it. */
  lemma PrintJoinFirstStep(lib: Lib, t: Bytes, l2: Bytes)
    ensures WellBraced(PrintJoin)
    ensures StepOnce(PrintJoin, lib, PrintJoinPass(t, l2, 0), Some(l2)) == Go(PrintJoinPass(t, l2, 1))
  {
    var b0 := PrintJoinPass(t, l2, 0);
    FlatIsWellBraced(PrintJoin);
    StepUnaddressed(PrintJoin, lib, b0, Some(l2));
    ExecutePrint(PrintJoin, b0, Some(l2));
    assert AfterEmit(b0.tail, b0.eol) == [NL, NUL];
  }

  /** `N` stores the first `|l2|` bytes of the buffer, which are the line
      and that newline. */
  lemma PrintJoinSecondStep(lib: Lib, t: Bytes, l2: Bytes)
    requires |l2| == |t| + 1
    ensures WellBraced(PrintJoin)
    ensures StepOnce(PrintJoin, lib, PrintJoinPass(t, l2, 1), Some(l2)) == Stop(false, PrintJoinPass(t, l2, 2))
  {
    var b1 := PrintJoinPass(t, l2, 1);
    FlatIsWellBraced(PrintJoin);
    StepUnaddressed(PrintJoin, lib, b1, Some(l2));
    ExecuteJoin(PrintJoin, b1, Some(l2));
    JoinStores(PrintJoin, b1, l2);
    assert (b1.line + b1.tail)[..|l2|] == t + [NL];
  }

  /** The second call of `pN` on two lines of the same length: `p` prints
      the first and writes its newline into the buffer after it, and `N`
      stores the buffer's first bytes, the first line again, as the next
      line. */
  lemma PrintJoinSecondCall(lib: Lib, s1: Sed, t: Bytes, l2: Bytes)
    requires |l2| == |t| + 1
    requires s1 == Sed([false, false], Some(t + [NL]), [NUL], [], [NUL], 0, None, Fresh)
    ensures WellBraced(PrintJoin)
    ensures var r := WalkPattern(PrintJoin, false, lib, s1, Some(l2), 2);
            && r.Ok? && r.value.hit == [false, false] && r.value.restart == None
            && r.value.next == Some(t + [NL]) && r.value.sink == Emit(Fresh, t, true)
  {
    FlatIsWellBraced(PrintJoin);
    assert Begin(s1, Some(l2)) == PrintJoinPass(t, l2, 0) by {
      PrintJoinBegin(s1, t, Some(l2));
    }
    PrintJoinFirstStep(lib, t, l2);
    PrintJoinSecondStep(lib, t, l2);
    PassGoStop(PrintJoin, false, lib, s1, Some(l2), 2, PrintJoinPass(t, l2, 1), false, PrintJoinPass(t, l2, 2));
  }

  /** The final call of `pN`: the stored line is printed again and `N`,
      with no line left, ends the call. */
  lemma PrintJoinFinalCall(lib: Lib, s2: Sed, t: Bytes)
    requires s2.hit == [false, false] && s2.next == Some(t + [NL]) && s2.restart == None
    ensures WellBraced(PrintJoin)
    ensures var r := WalkPattern(PrintJoin, false, lib, s2, None, 2);
            r.Ok? && r.value.sink == Emit(s2.sink, t, true)
  {
    var prog := PrintJoin;
    FlatIsWellBraced(prog);
    var c := Begin(s2, None);
    var c1 := c.(pc := 1, tail := AfterEmit(c.tail, c.eol), sed := c.sed.(sink := Emit(c.sed.sink, c.line, c.eol)));
    assert StepOnce(prog, lib, c, None) == Go(c1) by {
      StepUnaddressed(prog, lib, c, None);
      ExecutePrint(prog, c, None);
    }
    assert StepOnce(prog, lib, c1, None) == Stop(false, c1) by {
      StepUnaddressed(prog, lib, c1, None);
      ExecuteJoin(prog, c1, None);
    }
    PassGoStop(prog, false, lib, s2, None, 2, c1, false, c1);
    assert c.line == t && c.eol && c.sed.sink == s2.sink;
  }

  /** Feeding `pN` two lines of the same length, the first ending in a
      newline: the first line is printed once and stored again. */
  lemma PrintJoinFeed(lib: Lib, t: Bytes, l2: Bytes)
    requires |l2| == |t| + 1
    ensures WellBraced(PrintJoin)
    ensures var f := Feed(PrintJoin, false, lib, Initial(PrintJoin), [t + [NL], l2], 2);
            && f.Ok? && f.value.hit == [false, false] && f.value.restart == None
            && f.value.next == Some(t + [NL]) && f.value.sink == Emit(Fresh, t, true)
  {
    var prog := PrintJoin;
    FlatIsWellBraced(prog);
    var s1 := Sed([false, false], Some(t + [NL]), [NUL], [], [NUL], 0, None, Fresh);
    assert Feed(prog, false, lib, Initial(prog), [t + [NL], l2], 2) == Feed(prog, false, lib, s1, [l2], 2) by {
      FeedFromInitial(prog, false, lib, [t + [NL], l2], 2);
      assert [t + [NL], l2][1..] == [l2];
      assert Initial(prog).(next := Some(t + [NL])) == s1;
    }
    PrintJoinSecondCall(lib, s1, t, l2);
    var s2 := WalkPattern(prog, false, lib, s1, Some(l2), 2).value;
    FeedStep(prog, false, lib, s1, [l2], 2, s2);
    assert [l2][1..] == [];
  }

  /** The whole run of `pN` on a first line `t` NL and a second line as
      long: the sink ends with `t` printed twice. */
  lemma PrintJoinRun(lib: Lib, t: Bytes, l2: Bytes)
    requires |l2| == |t| + 1
    ensures WellBraced(PrintJoin)
    ensures var r := Run(PrintJoin, false, lib, [t + [NL], l2], 2);
            r.Ok? && r.value.sink == Emit(Emit(Fresh, t, true), t, true)
  {
    FlatIsWellBraced(PrintJoin);
    PrintJoinFeed(lib, t, l2);
    var s2 := Feed(PrintJoin, false, lib, Initial(PrintJoin), [t + [NL], l2], 2).value;
    RunIsFeedThenFlush(PrintJoin, false, lib, [t + [NL], l2], 2, s2);
    PrintJoinFinalCall(lib, s2, t);
  }

  /** `pN` on two lines of the same length: the buffer `N` stores for the
      final call is as long as the second line and holds the first line and
      the newline `p` wrote after it, so the first line is printed twice and
      the second never. */
  lemma PrintThenJoin(lib: Lib, l1: Bytes, l2: Bytes)
    requires InputLines([l1, l2]) && |l1| == |l2|
    ensures WellBraced(PrintJoin)
    ensures var r := Run(PrintJoin, false, lib, [l1, l2], 2);
            r.Ok? && r.value.sink.out == l1 + l1
  {
    FlatIsWellBraced(PrintJoin);
    assert |l1| > 0 && l1[|l1| - 1] == NL by {
      assert [l1, l2][0] == l1;
    }
    var t := l1[..|l1| - 1];
    assert l1 == t + [NL];
    PrintJoinRun(lib, t, l2);
    assert Emit(Emit(Fresh, t, true), t, true).out == l1 + l1 by {
      EmitAfter(Fresh, t, true, [], l1);
      EmitAfter(Emit(Fresh, t, true), t, true, l1, l1);
    }
  }

  // ---------------------------------------------------------------------
  // n

  /** `n` then `d`, the program of the script `nd`. */
  const NextDelete: seq<Step> := [Plain(B('n')), Plain(B('d'))]

  /** The script `nd` compiles to `NextDelete`. */
  lemma NextDeleteCompiles(lib: Lib)
    ensures CompileScript([[B('n'), B('d')]], [], lib) == Ok(NextDelete)
  {
    AdjacentCommands(Start, B('n'), B('d'), lib);
    OneLineScript([B('n'), B('d')], lib);
  }

  /** Every other line: the first, third, ... when `keep` is set, else the
      second, fourth, ... */
  function Alternate(lines: seq<Bytes>, keep: bool): (r: seq<Bytes>)
    ensures |r| == if keep then (|lines| + 1) / 2 else |lines| / 2
    ensures forall i :: 0 <= i < |r| ==> r[i] == lines[2 * i + (if keep then 0 else 1)]
    decreases |lines|
  {
    if lines == [] then []
    else
      var rest := Alternate(lines[1..], !keep);
      if keep then
        assert forall i :: 1 <= i < 1 + |rest| ==> ([lines[0]] + rest)[i] == lines[1..][2 * (i - 1) + 1];
        [lines[0]] + rest
      else rest
  }

  /** `b` after `n` negations. */
  function Flip(b: bool, n: nat): bool
    decreases n
  {
    if n == 0 then b else Flip(!b, n - 1)
  }

  /** A flag flipped `n - 1` times from `!b` is `b` flipped `n` times. */
  lemma FlipOnce(b: bool, n: nat, x: bool)
    requires n > 0 && (x <==> Flip(!b, n - 1))
    ensures x <==> Flip(b, n)
  {
  }

  lemma ExecuteNext(prog: seq<Step>, p: Pass, incoming: Option<Bytes>)
    requires p.pc < |prog| && prog[p.pc].cmd == B('n')
    ensures Execute(prog, p, incoming) == Stop(true, p.(sed := p.sed.(restart := Resume(prog, p.pc))))
  {
  }

  lemma ExecuteDelete(prog: seq<Step>, p: Pass, incoming: Option<Bytes>)
    requires p.pc < |prog| && prog[p.pc].cmd == B('d')
    ensures Execute(prog, p, incoming) == Stop(false, p)
  {
  }

  /** A call whose walk leaves the loop at its first step. */
  lemma PassStop(prog: seq<Step>, quiet: bool, lib: Lib, sed: Sed, incoming: Option<Bytes>, fuel: nat,
                 autoprint: bool, q: Pass)
    requires WellBraced(prog) && |sed.hit| == |prog| && fuel >= 1
    requires sed.next.Some? && |sed.next.value| > 0
    requires var b := Begin(sed, incoming); b.pc < |prog| && StepOnce(prog, lib, b, incoming) == Stop(autoprint, q)
    ensures WalkPattern(prog, quiet, lib, sed, incoming, fuel) == Ok(Finish(quiet, autoprint, q))
  {
  }

  /** A call of `nd` entered at the top: `n` prints the line and makes the
      next call start at `d`. */
  lemma NextCall(lib: Lib, sed: Sed, incoming: Option<Bytes>, fuel: nat)
    requires fuel >= 1 && |sed.hit| == 2 && sed.restart == None
    requires sed.next.Some? && |sed.next.value| > 0
    ensures WellBraced(NextDelete)
    ensures WalkPattern(NextDelete, false, lib, sed, incoming, fuel) == Ok(Echoed(sed, incoming).(restart := Some(1)))
  {
    FlatIsWellBraced(NextDelete);
    var b := Begin(sed, incoming);
    var q := b.(sed := b.sed.(restart := Some(1)));
    assert StepOnce(NextDelete, lib, b, incoming) == Stop(true, q) by {
      StepUnaddressed(NextDelete, lib, b, incoming);
      ExecuteNext(NextDelete, b, incoming);
    }
    PassStop(NextDelete, false, lib, sed, incoming, fuel, true, q);
    assert Finish(false, true, q) == Finish(false, true, b).(restart := Some(1));
    FinishEchoes(sed, incoming);
  }

  /** A call of `nd` resumed at `d`: the line is dropped unprinted and the
      next call starts at the top again. */
  lemma DeleteCall(lib: Lib, sed: Sed, incoming: Option<Bytes>, fuel: nat)
    requires fuel >= 1 && |sed.hit| == 2 && sed.restart == Some(1)
    requires sed.next.Some? && |sed.next.value| > 0
    ensures WellBraced(NextDelete)
    ensures WalkPattern(NextDelete, false, lib, sed, incoming, fuel) ==
              Ok(Store(sed, incoming).(count := sed.count + 1, restart := None))
  {
    FlatIsWellBraced(NextDelete);
    var b := Begin(sed, incoming);
    assert StepOnce(NextDelete, lib, b, incoming) == Stop(false, b) by {
      StepUnaddressed(NextDelete, lib, b, incoming);
      ExecuteDelete(NextDelete, b, incoming);
    }
    PassStop(NextDelete, false, lib, sed, incoming, fuel, false, b);
  }

  lemma ConcatCons(x: Bytes, ys: seq<Bytes>)
    ensures Concat([x] + ys) == x + Concat(ys)
  {
    assert ([x] + ys)[1..] == ys;
  }

  /** Every other line of `l` followed by more lines: `l` when kept, then
      every other remaining line with the choice flipped. */
  lemma AlternateStep(l: Bytes, lines: seq<Bytes>, keep: bool)
    requires lines != []
    ensures Concat(Alternate(([l] + lines)[..|lines|], keep)) ==
              (if keep then l else []) + Concat(Alternate(lines[..|lines| - 1], !keep))
  {
    var init := lines[..|lines| - 1];
    assert ([l] + lines)[..|lines|] == [l] + init;
    assert ([l] + init)[1..] == init;
    if keep {
      ConcatCons(l, Alternate(init, false));
    }
  }

  /** Every other line of a sequence is that of all but its last line, then
      the last line when its place comes up. */
  lemma {:induction false} AlternateLast(lines: seq<Bytes>, keep: bool)
    requires lines != []
    ensures Concat(Alternate(lines, keep)) ==
              Concat(Alternate(lines[..|lines| - 1], keep))
              + (if Flip(keep, |lines| - 1) then lines[|lines| - 1] else [])
    decreases |lines|
  {
    var rest := lines[1..];
    if rest == [] {
      assert lines[..0] == [];
    } else {
      AlternateLast(rest, !keep);
      assert lines[..|lines| - 1] == [lines[0]] + rest[..|rest| - 1];
      assert ([lines[0]] + rest[..|rest| - 1])[1..] == rest[..|rest| - 1];
      if keep {
        ConcatCons(lines[0], Alternate(rest, false));
        ConcatCons(lines[0], Alternate(rest[..|rest| - 1], false));
      }
    }
  }

  /** The state after one call of `nd`: printed and resuming at `d`, or
      dropped and starting from the top. */
  function AfterAlternate(sed: Sed, incoming: Option<Bytes>): Sed
    requires sed.next.Some? && |sed.next.value| > 0
  {
    if sed.restart == None then Echoed(sed, incoming).(restart := Some(1))
    else Store(sed, incoming).(count := sed.count + 1, restart := None)
  }

  /** Feeding `nd` is one alternating call, then feeding the rest. */
  lemma AlternateFeedStep(lib: Lib, sed: Sed, lines: seq<Bytes>, fuel: nat)
    requires fuel >= 1 && |sed.hit| == 2 && lines != []
    requires sed.next.Some? && |sed.next.value| > 0 && sed.next.value[|sed.next.value| - 1] == NL
    requires !sed.sink.noeol && (sed.restart == None || sed.restart == Some(1))
    ensures WellBraced(NextDelete)
    ensures var s1 := AfterAlternate(sed, Some(lines[0]));
            && Feed(NextDelete, false, lib, sed, lines, fuel) == Feed(NextDelete, false, lib, s1, lines[1..], fuel)
            && |s1.hit| == 2 && !s1.sink.noeol && s1.next == Some(lines[0])
            && (s1.restart == None <==> sed.restart != None)
            && (s1.restart == None || s1.restart == Some(1))
            && s1.sink.out == sed.sink.out + (if sed.restart == None then sed.next.value else [])
  {
    FlatIsWellBraced(NextDelete);
    var l := sed.next.value;
    var s1 := AfterAlternate(sed, Some(lines[0]));
    if sed.restart == None {
      NextCall(lib, sed, Some(lines[0]), fuel);
      EmitAfter(sed.sink, Chomp(l).0, Chomp(l).1, sed.sink.out, l);
    } else {
      DeleteCall(lib, sed, Some(lines[0]), fuel);
    }
    FeedStep(NextDelete, false, lib, sed, lines, fuel, s1);
  }

  /** One `nd` feeding step carried through the run of the remaining
      lines: the stored next line and the sink's output, stated for the
      rest, are restated for `l` followed by the rest. */
  lemma AlternateCombine(before: Bytes, l: Bytes, lines: seq<Bytes>, keep: bool, mid: Bytes, r: Sed)
    requires lines != [] && mid == before + (if keep then l else [])
    requires r.next == Some(([lines[0]] + lines[1..])[|lines| - 1])
    requires r.sink.out == mid + Concat(Alternate(([lines[0]] + lines[1..])[..|lines| - 1], !keep))
    ensures r.next == Some(([l] + lines)[|lines|])
    ensures r.sink.out == before + Concat(Alternate(([l] + lines)[..|lines|], keep))
  {
    assert [lines[0]] + lines[1..] == lines;
    AlternateStep(l, lines, keep);
  }

  /** Feeding `nd`: the calls alternate between printing and dropping the
      stored line, starting with printing when no restart point is set. */
  lemma {:induction false} FeedAlternates(lib: Lib, sed: Sed, lines: seq<Bytes>, fuel: nat)
    requires fuel >= 1 && |sed.hit| == 2
    requires sed.next.Some? && InputLines([sed.next.value] + lines)
    requires !sed.sink.noeol && (sed.restart == None || sed.restart == Some(1))
    ensures WellBraced(NextDelete)
    ensures var r := Feed(NextDelete, false, lib, sed, lines, fuel);
            && r.Ok? && |r.value.hit| == 2 && !r.value.sink.noeol
            && r.value.next == Some(([sed.next.value] + lines)[|lines|])
            && (r.value.restart == None || r.value.restart == Some(1))
            && (r.value.restart == None <==> Flip(sed.restart == None, |lines|))
            && r.value.sink.out ==
                 sed.sink.out + Concat(Alternate(([sed.next.value] + lines)[..|lines|], sed.restart == None))
    decreases |lines|
  {
    FlatIsWellBraced(NextDelete);
    var l := sed.next.value;
    InputTail(l, lines);
    if lines == [] {
      assert ([l] + lines)[..0] == [];
    } else {
      var s1 := AfterAlternate(sed, Some(lines[0]));
      AlternateFeedStep(lib, sed, lines, fuel);
      assert [lines[0]] + lines[1..] == lines;
      FeedAlternates(lib, s1, lines[1..], fuel);
      AlternateRest(sed, lines, s1, Feed(NextDelete, false, lib, s1, lines[1..], fuel).value);
      AlternateRestFlip(sed, lines, s1, Feed(NextDelete, false, lib, s1, lines[1..], fuel).value);
    }
  }

  /** The alternation over the rest of the lines, from the state one call
      left, is the alternation over all of them: the stored line and the
      output. */
  lemma AlternateRest(sed: Sed, lines: seq<Bytes>, s1: Sed, r: Sed)
    requires lines != [] && sed.next.Some?
    requires s1.next == Some(lines[0]) && (s1.restart == None <==> sed.restart != None)
    requires s1.sink.out == sed.sink.out + (if sed.restart == None then sed.next.value else [])
    requires r.next == Some(([s1.next.value] + lines[1..])[|lines[1..]|])
    requires r.sink.out == s1.sink.out + Concat(Alternate(([s1.next.value] + lines[1..])[..|lines[1..]|], s1.restart == None))
    ensures r.next == Some(([sed.next.value] + lines)[|lines|])
    ensures r.sink.out == sed.sink.out + Concat(Alternate(([sed.next.value] + lines)[..|lines|], sed.restart == None))
  {
    assert [s1.next.value] + lines[1..] == [lines[0]] + lines[1..];
    AlternateCombine(sed.sink.out, sed.next.value, lines, sed.restart == None, s1.sink.out, r);
  }

  /** The same for the restart point: one more flip. */
  lemma AlternateRestFlip(sed: Sed, lines: seq<Bytes>, s1: Sed, r: Sed)
    requires lines != []
    requires s1.restart == None <==> sed.restart != None
    requires r.restart == None <==> Flip(s1.restart == None, |lines[1..]|)
    ensures r.restart == None <==> Flip(sed.restart == None, |lines|)
  {
    FlipOnce(sed.restart == None, |lines|, r.restart == None);
  }

  /** The final call of `nd` prints the held line when it starts at `n`
      and prints nothing when it resumes at `d`. */
  lemma NextDeleteFlush(lib: Lib, r: Sed, fuel: nat)
    requires fuel >= 1 && |r.hit| == 2 && !r.sink.noeol
    requires r.next.Some? && |r.next.value| > 0
    requires r.restart == None || r.restart == Some(1)
    ensures WellBraced(NextDelete)
    ensures var f := WalkPattern(NextDelete, false, lib, r, None, fuel);
            f.Ok? && f.value.sink.out == r.sink.out + (if r.restart == None then r.next.value else [])
  {
    FlatIsWellBraced(NextDelete);
    var last := r.next.value;
    if r.restart == None {
      NextCall(lib, r, None, fuel);
      EmitAfter(r.sink, Chomp(last).0, Chomp(last).1, r.sink.out, last);
    } else {
      DeleteCall(lib, r, None, fuel);
    }
  }

  /** The final call of `nd` prints the last line exactly when its place
      among every other line comes up. */
  lemma AlternateFlush(lib: Lib, r: Sed, lines: seq<Bytes>, fuel: nat)
    requires fuel >= 1 && |r.hit| == 2 && lines != [] && InputLines(lines)
    requires r.next == Some(lines[|lines| - 1]) && !r.sink.noeol
    requires r.restart == None || r.restart == Some(1)
    requires r.restart == None <==> Flip(true, |lines| - 1)
    requires r.sink.out == Concat(Alternate(lines[..|lines| - 1], true))
    ensures WellBraced(NextDelete)
    ensures var f := WalkPattern(NextDelete, false, lib, r, None, fuel);
            f.Ok? && f.value.sink.out == Concat(Alternate(lines, true))
  {
    assert |lines[|lines| - 1]| > 0;
    NextDeleteFlush(lib, r, fuel);
    AlternateLast(lines, true);
  }

  /** Feeding every line to `nd` from the start prints every other line but
      the last and leaves the last one held. */
  lemma NextDeleteFeed(lib: Lib, lines: seq<Bytes>, fuel: nat)
    requires InputLines(lines) && fuel >= 1 && lines != []
    ensures WellBraced(NextDelete)
    ensures var r := Feed(NextDelete, false, lib, Initial(NextDelete), lines, fuel);
            && r.Ok? && |r.value.hit| == 2 && !r.value.sink.noeol
            && r.value.next == Some(lines[|lines| - 1])
            && (r.value.restart == None || r.value.restart == Some(1))
            && (r.value.restart == None <==> Flip(true, |lines| - 1))
            && r.value.sink.out == Concat(Alternate(lines[..|lines| - 1], true))
  {
    var prog := NextDelete;
    FlatIsWellBraced(prog);
    var s1 := Initial(prog).(next := Some(lines[0]));
    FeedFromInitial(prog, false, lib, lines, fuel);
    assert [lines[0]] + lines[1..] == lines;
    FeedAlternates(lib, s1, lines[1..], fuel);
    assert ([lines[0]] + lines[1..])[..|lines| - 1] == lines[..|lines| - 1];
  }

  /** `nd` prints the first, third, fifth ... line and drops the others:
      `n` prints the line and makes the next call resume at `d`, which drops
      that call's line. */
  lemma NextDeleteKeepsOddLines(lib: Lib, lines: seq<Bytes>, fuel: nat)
    requires InputLines(lines) && fuel >= 1
    ensures WellBraced(NextDelete)
    ensures var r := Run(NextDelete, false, lib, lines, fuel);
            r.Ok? && r.value.sink.out == Concat(Alternate(lines, true))
  {
    FlatIsWellBraced(NextDelete);
    if lines == [] {
      RunIsFeedThenFlush(NextDelete, false, lib, lines, fuel, Initial(NextDelete));
    } else {
      NextDeleteFeed(lib, lines, fuel);
      var r := Feed(NextDelete, false, lib, Initial(NextDelete), lines, fuel).value;
      RunIsFeedThenFlush(NextDelete, false, lib, lines, fuel, r);
      AlternateFlush(lib, r, lines, fuel);
    }
  }

  // ---------------------------------------------------------------------
  // =

  /** The line numbers 1 to `n`, each on a line of its own. */
  function Numbered(n: nat): Bytes {
    if n == 0 then [] else Numbered(n - 1) + Decimal(n) + [NL]
  }

  lemma ExecuteNumber(prog: seq<Step>, p: Pass, incoming: Option<Bytes>)
    requires p.pc < |prog| && prog[p.pc].cmd == EQUALS
    ensures Execute(prog, p, incoming) ==
              Go(p.(pc := p.pc + 1, sed := p.sed.(sink := Print(p.sed.sink, Decimal(p.sed.count) + [NL]))))
  {
  }

  /** One call of `sed -n =`: the line is counted and its number printed. */
  lemma NumberCall(lib: Lib, sed: Sed, incoming: Option<Bytes>, fuel: nat)
    requires fuel >= 1 && |sed.hit| == 1 && sed.restart == None
    requires sed.next.Some? && |sed.next.value| > 0
    ensures WellBraced([Plain(EQUALS)])
    ensures var r := WalkPattern([Plain(EQUALS)], true, lib, sed, incoming, fuel);
            && r.Ok? && r.value.count == sed.count + 1 && r.value.restart == None
            && r.value.next == Store(sed, incoming).next
            && r.value.sink.out == sed.sink.out + Decimal(sed.count + 1) + [NL]
  {
    var prog := [Plain(EQUALS)];
    FlatIsWellBraced(prog);
    var b := Begin(sed, incoming);
    ExecuteNumber(prog, b, incoming);
    PassOneStep(prog, true, lib, sed, incoming, fuel);
  }

  /** Feeding `sed -n =` is one numbering call, then feeding the rest. */
  lemma NumberFeedStep(lib: Lib, sed: Sed, lines: seq<Bytes>, fuel: nat)
    requires fuel >= 1 && |sed.hit| == 1 && sed.restart == None && lines != []
    requires sed.next.Some? && |sed.next.value| > 0
    requires sed.sink.out == Numbered(sed.count)
    ensures WellBraced([Plain(EQUALS)])
    ensures var w := WalkPattern([Plain(EQUALS)], true, lib, sed, Some(lines[0]), fuel);
            && w.Ok?
            && Feed([Plain(EQUALS)], true, lib, sed, lines, fuel) == Feed([Plain(EQUALS)], true, lib, w.value, lines[1..], fuel)
            && |w.value.hit| == 1 && w.value.restart == None && w.value.next == Some(lines[0])
            && w.value.count == sed.count + 1 && w.value.sink.out == Numbered(w.value.count)
  {
    var prog := [Plain(EQUALS)];
    FlatIsWellBraced(prog);
    NumberCall(lib, sed, Some(lines[0]), fuel);
    var s1 := WalkPattern(prog, true, lib, sed, Some(lines[0]), fuel).value;
    FeedStep(prog, true, lib, sed, lines, fuel, s1);
    assert Numbered(sed.count + 1) == Numbered(sed.count) + Decimal(sed.count + 1) + [NL];
  }

  lemma {:induction false} FeedNumbers(lib: Lib, sed: Sed, lines: seq<Bytes>, fuel: nat)
    requires fuel >= 1 && |sed.hit| == 1 && sed.restart == None
    requires sed.next.Some? && InputLines([sed.next.value] + lines)
    requires sed.sink.out == Numbered(sed.count)
    ensures WellBraced([Plain(EQUALS)])
    ensures var r := Feed([Plain(EQUALS)], true, lib, sed, lines, fuel);
            && r.Ok? && |r.value.hit| == 1 && r.value.restart == None
            && r.value.count == sed.count + |lines| && r.value.sink.out == Numbered(r.value.count)
            && r.value.next == Some(([sed.next.value] + lines)[|lines|])
    decreases |lines|
  {
    var prog := [Plain(EQUALS)];
    FlatIsWellBraced(prog);
    InputTail(sed.next.value, lines);
    if lines != [] {
      NumberFeedStep(lib, sed, lines, fuel);
      var s1 := WalkPattern(prog, true, lib, sed, Some(lines[0]), fuel).value;
      assert [lines[0]] + lines[1..] == lines;
      FeedNumbers(lib, s1, lines[1..], fuel);
      assert ([lines[0]] + lines[1..])[|lines| - 1] == ([sed.next.value] + lines)[|lines|];
    }
  }

  /** Feeding every line to `sed -n =` from the start numbers all but the
      last, which is left as the next line. */
  lemma NumberingFeed(lib: Lib, lines: seq<Bytes>, fuel: nat)
    requires InputLines(lines) && fuel >= 1 && lines != []
    ensures WellBraced([Plain(EQUALS)])
    ensures var r := Feed([Plain(EQUALS)], true, lib, Initial([Plain(EQUALS)]), lines, fuel);
            && r.Ok? && |r.value.hit| == 1 && r.value.restart == None
            && r.value.count == |lines| - 1 && r.value.sink.out == Numbered(|lines| - 1)
            && r.value.next == Some(lines[|lines| - 1])
  {
    var prog := [Plain(EQUALS)];
    FlatIsWellBraced(prog);
    var s1 := Initial(prog).(next := Some(lines[0]));
    FeedFromInitial(prog, true, lib, lines, fuel);
    assert [lines[0]] + lines[1..] == lines;
    FeedNumbers(lib, s1, lines[1..], fuel);
  }

  /** `sed -n =` prints the numbers of the lines, 1 to the number of lines,
      one per line. */
  lemma QuietNumbering(lib: Lib, lines: seq<Bytes>, fuel: nat)
    requires InputLines(lines) && fuel >= 1
    ensures WellBraced([Plain(EQUALS)])
    ensures var r := Run([Plain(EQUALS)], true, lib, lines, fuel);
            r.Ok? && r.value.sink.out == Numbered(|lines|)
  {
    var prog := [Plain(EQUALS)];
    FlatIsWellBraced(prog);
    if lines == [] {
      RunIsFeedThenFlush(prog, true, lib, lines, fuel, Initial(prog));
    } else {
      NumberingFeed(lib, lines, fuel);
      var r := Feed(prog, true, lib, Initial(prog), lines, fuel).value;
      RunIsFeedThenFlush(prog, true, lib, lines, fuel, r);
      assert |r.next.value| > 0;
      NumberCall(lib, r, None, fuel);
    }
  }

  // ---------------------------------------------------------------------
  // D

  /** One step of `sed D` is the scan past leading newlines, and a pass it
      goes on with is again at `D` with a NUL after its text. */
  lemma DeleteStep(lib: Lib, p: Pass, incoming: Option<Bytes>)
    requires p.pc == 0 && |p.sed.hit| == 1
    ensures WellBraced([Plain(B('D'))])
    ensures StepOnce([Plain(B('D'))], lib, p, incoming) == DeleteLeading(p)
    ensures DeleteLeading(p).Go? ==>
              DeleteLeading(p).pass.pc == 0 && |DeleteLeading(p).pass.sed.hit| == 1
              && DeleteLeading(p).pass.tail[0] == NUL
  {
    FlatIsWellBraced([Plain(B('D'))]);
    StepUnaddressed([Plain(B('D'))], lib, p, incoming);
  }

  /** `D` alone never finishes a line: a pattern space that does not start
      with a newline is not changed and the script restarts on it without
      end, and one that does is cut down to that case, or, made only of
      newlines, stops the editor. The byte after the text is a NUL or a
      newline, as in every buffer the editor builds. */
  lemma {:induction false} DeleteNeverFinishes(lib: Lib, p: Pass, incoming: Option<Bytes>, fuel: nat)
    requires p.pc == 0 && |p.sed.hit| == 1 && IsBreak(p.tail[0])
    ensures WellBraced([Plain(B('D'))])
    ensures Walk([Plain(B('D'))], lib, p, incoming, fuel).Err?
    decreases fuel
  {
    FlatIsWellBraced([Plain(B('D'))]);
    if fuel > 0 {
      DeleteStep(lib, p, incoming);
      var f := DeleteLeading(p);
      if f.Go? {
        DeleteNeverFinishes(lib, f.pass, incoming, fuel - 1);
      }
    }
  }

  /** So a run of `sed D` on any input with a line fails. */
  lemma DeleteRunFails(quiet: bool, lib: Lib, lines: seq<Bytes>, fuel: nat)
    requires InputLines(lines) && lines != []
    ensures WellBraced([Plain(B('D'))])
    ensures Run([Plain(B('D'))], quiet, lib, lines, fuel).Err?
  {
    var prog := [Plain(B('D'))];
    FlatIsWellBraced(prog);
    var s1 := Initial(prog).(next := Some(lines[0]));
    FeedFromInitial(prog, quiet, lib, lines, fuel);
    var incoming := if |lines| > 1 then Some(lines[1]) else None;
    var b := Begin(s1, incoming);
    assert b.tail[0] == NUL by {
      if b.eol {
        assert b.tail[0] == (b.line + b.tail)[|b.line|];
      } else {
        assert |lines| == 1;
        assert b.tail == s1.nextTail;
      }
    }
    DeleteNeverFinishes(lib, b, incoming, fuel);
    if |lines| > 1 {
      assert Feed(prog, quiet, lib, s1, lines[1..], fuel).Err?;
    } else {
      assert lines[1..] == [];
      RunIsFeedThenFlush(prog, quiet, lib, lines, fuel, s1);
    }
  }

  // ---------------------------------------------------------------------
  // Hold space

  /** `x` twice restores both spaces. */
  lemma ExchangeTwice(line: Space, hold: Space)
    ensures IsHoldCommand(B('x'))
    ensures var once := HoldCommand(B('x'), line, hold).value;
            HoldCommand(B('x'), once.line, once.hold) == Ok(Spaces(line, hold))
  {
  }

  /** `h` then `g` gives back the line's text, now also in the hold space,
      for a text without NUL in a terminated buffer. */
  lemma HoldThenGet(line: Space, hold: Space)
    requires NUL !in line.text && NUL in line.tail
    ensures IsHoldCommand(B('h')) && IsHoldCommand(B('g'))
    ensures var held := HoldCommand(B('h'), line, hold);
            && held.Ok?
            && var got := HoldCommand(B('g'), held.value.line, held.value.hold);
               got.Ok? && got.value.line.text == line.text && got.value.hold.text == line.text
  {
    var held := HoldCommand(B('h'), line, hold).value;
    assert held.hold.text + held.hold.tail == CString(line.text + line.tail) + [NUL];
    assert held.hold.tail == (held.hold.text + held.hold.tail)[|line.text|..];
    assert NUL in held.hold.tail;
  }

  /** Starting from the empty hold space, `H` then `G` yields the line, an
      empty line, and the line again: the hold space gains a leading
      newline. */
  lemma AppendFromEmptyHold(line: Space)
    ensures IsHoldCommand(B('H')) && IsHoldCommand(B('G'))
    ensures var held := HoldCommand(B('H'), line, Space([], [NUL]));
            && held.Ok? && held.value.hold.text == [NL] + line.text
            && var got := HoldCommand(B('G'), held.value.line, held.value.hold);
               got.Ok? && got.value.line.text == line.text + [NL, NL] + line.text
               && got.value.hold.text == [NL] + line.text
  {
    var held := HoldCommand(B('H'), line, Space([], [NUL])).value;
    assert held.hold.text == [NL] + line.text;
    var got := HoldCommand(B('G'), held.line, held.hold).value;
    assert got.line.text == line.text + [NL] + ([NL] + line.text);
    assert line.text + [NL] + ([NL] + line.text) == line.text + [NL, NL] + line.text;
  }

  // ---------------------------------------------------------------------
  // The walker as written

  /** A step whose address does not select the line and whose `hit` flag
      the evaluation leaves as it was is evaluated again and again: the walk
      never leaves it. */
  lemma {:induction false} UnselectedStepSpins(prog: seq<Step>, lib: Lib, p: Pass, incoming: Option<Bytes>, fuel: nat)
    requires WellBraced(prog) && p.pc < |prog| && |p.sed.hit| == |prog|
    requires HasAddress(prog[p.pc]) && prog[p.pc].cmd != LBRACE
    requires !ReadsLine(prog[p.pc], p.sed.hit[p.pc]) || NUL in p.line + p.tail
    requires var v := Evaluate(prog[p.pc], p.sed.hit[p.pc], p.sed.count, p.line + p.tail, incoming.None?, lib);
             !v.selected && v.hit == p.sed.hit[p.pc]
    ensures Walk(prog, lib, p, incoming, fuel) == Err(OutOfFuel)
    decreases fuel
  {
    if fuel > 0 {
      assert p.sed.hit[p.pc := p.sed.hit[p.pc]] == p.sed.hit;
      assert StepOnce(prog, lib, p, incoming) == Go(p);
      UnselectedStepSpins(prog, lib, p, incoming, fuel - 1);
    }
  }

  /** The script `1p`. */
  const FirstLinePrint: seq<Step> := [Step(Num(1), Absent, false, false, B('p'), None, None, None, 0)]

  /** Line 1 under `1p`: selected, printed, and the range flag left set. */
  lemma FirstLineSelected(quiet: bool, lib: Lib, sed: Sed, l2: Bytes, fuel: nat)
    requires fuel >= 1 && sed.hit == [false] && sed.count == 0 && sed.restart == None
    requires sed.next.Some? && |sed.next.value| > 0
    ensures WellBraced(FirstLinePrint)
    ensures var r := WalkPattern(FirstLinePrint, quiet, lib, sed, Some(l2), fuel);
            r.Ok? && r.value.hit == [true] && r.value.count == 1 && r.value.restart == None
            && r.value.next == Some(l2)
  {
    var prog := FirstLinePrint;
    FlatIsWellBraced(prog);
    var b := Begin(sed, Some(l2));
    FirstLineStep(lib, b, Some(l2));
    var q := b.(pc := 1, tail := AfterEmit(b.tail, b.eol),
                sed := b.sed.(hit := [true], sink := Emit(b.sed.sink, b.line, b.eol)));
    assert Walk(prog, lib, b, Some(l2), fuel) == Ok((true, q));
  }

  /** The step of `1p` on line 1 prints it and sets the range flag. */
  lemma FirstLineStep(lib: Lib, p: Pass, incoming: Option<Bytes>)
    requires p.pc == 0 && p.sed.hit == [false] && p.sed.count == 1
    ensures WellBraced(FirstLinePrint)
    ensures StepOnce(FirstLinePrint, lib, p, incoming) ==
              Go(p.(pc := 1, tail := AfterEmit(p.tail, p.eol),
                    sed := p.sed.(hit := [true], sink := Emit(p.sed.sink, p.line, p.eol))))
  {
    FlatIsWellBraced(FirstLinePrint);
    assert p.sed.hit[0 := true] == [true];
  }

  /** Line 2 under `1p`: the flag is cleared, and from then on the step is
      re-evaluated without end. */
  lemma SecondLineSpins(quiet: bool, lib: Lib, sed: Sed, fuel: nat)
    requires sed.hit == [true] && sed.count == 1 && sed.restart == None
    requires sed.next.Some? && |sed.next.value| > 0
    ensures WellBraced(FirstLinePrint)
    ensures WalkPattern(FirstLinePrint, quiet, lib, sed, None, fuel) == Err(OutOfFuel)
  {
    var prog := FirstLinePrint;
    FlatIsWellBraced(prog);
    var b := Begin(sed, None);
    if fuel > 0 {
      var spin := b.(sed := b.sed.(hit := [false]));
      assert b.sed.hit[0 := false] == [false];
      assert StepOnce(prog, lib, b, None) == Go(spin);
      UnselectedStepSpins(prog, lib, spin, None, fuel - 1);
    }
  }

  /** `1p` never finishes a second line: on line 2 its flag is cleared and
      the step is then evaluated again forever, since an unselected step is
      not moved past. No step budget is enough. */
  lemma SingleLineAddressHangs(quiet: bool, lib: Lib, l1: Bytes, l2: Bytes, fuel: nat)
    requires InputLines([l1, l2])
    ensures WellBraced(FirstLinePrint)
    ensures Run(FirstLinePrint, quiet, lib, [l1, l2], fuel) == Err(OutOfFuel)
  {
    var prog := FirstLinePrint;
    FlatIsWellBraced(prog);
    assert ([l1, l2])[0] == l1 && ([l1, l2])[1] == l2;
    var s1 := Initial(prog).(next := Some(l1));
    FeedFromInitial(prog, quiet, lib, [l1, l2], fuel);
    assert [l1, l2][1..] == [l2];
    if fuel == 0 {
      assert Walk(prog, lib, Begin(s1, Some(l2)), Some(l2), fuel) == Err(OutOfFuel);
      assert Feed(prog, quiet, lib, s1, [l2], fuel) == Err(OutOfFuel);
    } else {
      FirstLineSelected(quiet, lib, s1, l2, fuel);
      var s2 := WalkPattern(prog, quiet, lib, s1, Some(l2), fuel).value;
      FeedStep(prog, quiet, lib, s1, [l2], fuel, s2);
      assert [l2][1..] == [];
      RunIsFeedThenFlush(prog, quiet, lib, [l1, l2], fuel, s2);
      SecondLineSpins(quiet, lib, s2, fuel);
    }
  }

  /** An unselected `{` moves to its matching `}` without looking at any
      step inside the block; that `}` has no address (the compiler refuses
      one) and the walker has no code for it, so the editor stops with
      "todo: }". */
  lemma UnselectedBlockStopsAtClose(prog: seq<Step>, lib: Lib, p: Pass, incoming: Option<Bytes>, fuel: nat)
    requires WellBraced(prog) && forall i :: 0 <= i < |prog| ==> Restricted(prog[i])
    requires p.pc < |prog| && |p.sed.hit| == |prog| && fuel >= 2
    requires prog[p.pc].cmd == LBRACE && HasAddress(prog[p.pc])
    requires !ReadsLine(prog[p.pc], p.sed.hit[p.pc]) || NUL in p.line + p.tail
    requires !Evaluate(prog[p.pc], p.sed.hit[p.pc], p.sed.count, p.line + p.tail, incoming.None?, lib).selected
    ensures StepOnce(prog, lib, p, incoming).Go?
    ensures StepOnce(prog, lib, p, incoming).pass.pc == MatchingClose(prog, p.pc)
    ensures Walk(prog, lib, p, incoming, fuel) == Err(Todo(RBRACE))
  {
    var q := StepOnce(prog, lib, p, incoming).pass;
    var m := MatchingClose(prog, p.pc);
    assert q.pc == m;
    assert Restricted(prog[m]) && IsOneOf(prog[m].cmd, "}:");
    assert !HasAddress(prog[m]);
    assert StepOnce(prog, lib, q, incoming) == Fail(Todo(RBRACE));
  }
}

=== FILE: sink.dfy ===
/** The output sink: `emit` and the `noeol` flag it keeps so that a line
    written without its newline (only the last input line can lack one) is
    never glued to whatever is written after it. Output is the bytes handed
    to `writeall`/`xprintf`, in order. */
module OutputSink {
  import opened SedTypes

  datatype Sink = Sink(out: Bytes, noeol: bool)

  /** The empty sink the editor starts with. */
  const Fresh: Sink := Sink([], false)

  /** `"\n"` when `b`, else nothing. */
  function Newline(b: bool): Bytes {
    if b then [NL] else []
  }

  /** `emit(line, len, eol)`: a pending missing newline is written first,
      then the line with a newline exactly when `eol` is set; afterwards
      `noeol` records whether this line went out without one. */
  function Emit(s: Sink, line: Bytes, eol: bool): (r: Sink)
    ensures r.noeol == !eol
    ensures |r.out| == |s.out| + |Newline(s.noeol)| + |line| + |Newline(eol)|
    ensures r.out[..|s.out|] == s.out
    ensures r.out[|r.out| - |line| - |Newline(eol)|..] == line + Newline(eol)
    ensures s.noeol ==> r.out[|s.out|] == NL
  {
    Sink(s.out + Newline(s.noeol) + line + Newline(eol), !eol)
  }

  /** `xprintf`: the text goes out as it is and `noeol` is left alone. */
  function Print(s: Sink, text: Bytes): (r: Sink)
    ensures r.noeol == s.noeol
    ensures |r.out| == |s.out| + |text| && r.out[..|s.out|] == s.out && r.out[|s.out|..] == text
  {
    Sink(s.out + text, s.noeol)
  }

  /** What `noeol` promises: when it is clear, everything written so far is
      empty or ends in a newline. */
  predicate Settled(s: Sink) {
    !s.noeol ==> s.out == [] || s.out[|s.out| - 1] == NL
  }

  /** Emitting never glues two lines: the bytes before the new line are empty
      or end in a newline, and a line emitted with its newline leaves the sink
      settled. */
  lemma EmitNeverGlues(s: Sink, line: Bytes, eol: bool)
    requires Settled(s)
    ensures var before := s.out + Newline(s.noeol);
            && (before == [] || before[|before| - 1] == NL)
            && Emit(s, line, eol).out == before + line + Newline(eol)
            && Settled(Emit(s, line, eol))
  {
  }
}

=== FILE: steps.dfy ===
/** The compiled script: one `Step` per command, in script order (the
    source's doubly linked `struct step` list), and the brace structure the
    walker relies on when it skips an unselected `{` block. */
module Steps {
  import opened SedTypes

  /** One address slot of a step. The source stores a line number in
      `lmatch` (0 for none, -1 for `$`) and a regex in `rmatch`; a parsed
      address `0` is stored as 0 and therefore behaves as no address. */
  datatype Addr = Absent | Num(n: nat) | Last | Re(source: Bytes)

  /** The `lmatch` value of an address slot. */
  function LMatch(a: Addr): int {
    match a
    case Num(n) => n
    case Last => -1
    case _ => 0
  }

  /** A compiled command. `pending` is the `hit` field as the compiler leaves
      it (set while a text argument awaits its continuation line); the
      walker starts from that value. `arg1` is the label, text or `s`
      pattern; `arg2` the `s` replacement; `arg3` the `s///w` file name. */
  datatype Step = Step(
    first: Addr,
    second: Addr,
    negate: bool,
    pending: bool,
    cmd: Byte,
    arg1: Option<Bytes>,
    arg2: Option<Bytes>,
    arg3: Option<Bytes>,
    sflags: nat)

  /** Whether the walker evaluates the step's address at all
      (`*lmatch || *rmatch`). */
  predicate HasAddress(s: Step) {
    LMatch(s.first) != 0 || s.first.Re?
  }

  /** A step with no address and no arguments. */
  function Plain(c: Byte): Step {
    Step(Absent, Absent, false, false, c, None, None, None, 0)
  }

  /** +1 for `{`, -1 for `}`, 0 otherwise. */
  function Delta(s: Step): int {
    if s.cmd == LBRACE then 1 else if s.cmd == RBRACE then -1 else 0
  }

  /** Brace depth after the first `k` steps. */
  function Depth(prog: seq<Step>, k: nat): int
    requires k <= |prog|
  {
    if k == 0 then 0 else Depth(prog, k - 1) + Delta(prog[k - 1])
  }

  /** What a successful compilation guarantees about braces: no prefix
      closes more blocks than it opens, and the whole script closes all. */
  predicate WellBraced(prog: seq<Step>) {
    && (forall k :: 0 <= k <= |prog| ==> Depth(prog, k) >= 0)
    && Depth(prog, |prog|) == 0
  }

  /** Appending a step leaves the depths of existing prefixes alone. */
  lemma DepthAppend(prog: seq<Step>, s: Step, k: nat)
    requires k <= |prog|
    ensures Depth(prog + [s], k) == Depth(prog, k)
  {
    if k > 0 {
      DepthAppend(prog, s, k - 1);
    }
  }

  /** Replacing a step by one with the same command leaves every depth
      alone. */
  lemma DepthReplace(prog: seq<Step>, i: nat, s: Step, k: nat)
    requires i < |prog| && k <= |prog| && s.cmd == prog[i].cmd
    ensures Depth(prog[i := s], k) == Depth(prog, k)
  {
    if k > 0 {
      DepthReplace(prog, i, s, k - 1);
    }
  }

  /** The brace scan of the walker: from step `j` with `curly` blocks still
      open, step forward counting `{` and `}` until the count drops to 0.
      Returns the index of the `}` that closes the block opened at `i`. */
  function ScanClose(prog: seq<Step>, i: nat, j: nat, curly: nat): (r: nat)
    requires WellBraced(prog)
    requires i <= j < |prog| && prog[i].cmd == LBRACE
    requires curly > 0 && curly == Depth(prog, j + 1) - Depth(prog, i)
    requires forall k :: i < k <= j ==> Depth(prog, k) > Depth(prog, i)
    ensures j < r < |prog|
    ensures prog[r].cmd == RBRACE
    ensures Depth(prog, r + 1) == Depth(prog, i)
    ensures forall k :: i < k <= r ==> Depth(prog, k) > Depth(prog, i)
    decreases |prog| - j
  {
    if j + 1 == |prog| then
      assert false;
      j
    else
      var c := curly + Delta(prog[j + 1]);
      assert Depth(prog, j + 1) > Depth(prog, i);
      if c == 0 then j + 1
      else ScanClose(prog, i, j + 1, c)
  }

  /** The `}` matching the `{` at index `i`: every step strictly between
      them lies inside the block, so none of them is ever looked at when
      the block is skipped. */
  function MatchingClose(prog: seq<Step>, i: nat): (r: nat)
    requires WellBraced(prog)
    requires i < |prog| && prog[i].cmd == LBRACE
    ensures i < r < |prog|
    ensures prog[r].cmd == RBRACE
    ensures Depth(prog, r + 1) == Depth(prog, i)
    ensures forall k :: i < k <= r ==> Depth(prog, k) > Depth(prog, i)
  {
    ScanClose(prog, i, i, 1)
  }
}

=== FILE: types.dfy ===
/** Shared vocabulary of the sed model: bytes, C-string views, the optional and
    fallible wrappers, the fatal errors, and the opaque library services
    (regular expressions and the escape table) the editor calls but does not
    define. */
module SedTypes {

  /** One byte of a C `char` buffer. */
  newtype Byte = x: int | 0 <= x < 256

  type Bytes = seq<Byte>

  const NUL: Byte := 0
  const TAB: Byte := 9
  const NL: Byte := 10
  const CR: Byte := 13
  const SPACE: Byte := 32
  const BANG: Byte := 33      // '!'
  const HASH: Byte := 35      // '#'
  const DOLLAR: Byte := 36    // '$'
  const COMMA: Byte := 44     // ','
  const SLASH: Byte := 47     // '/'
  const ZERO: Byte := 48      // '0'
  const COLON: Byte := 58     // ':'
  const SEMI: Byte := 59      // ';'
  const EQUALS: Byte := 61    // '='
  const BACKSLASH: Byte := 92 // '\\'
  const LBRACE: Byte := 123   // '{'
  const RBRACE: Byte := 125   // '}'

  /** The byte that spells an ASCII character. */
  function B(c: char): Byte
    requires c as int < 256
  {
    c as int as Byte
  }

  /** The bytes that spell an ASCII string. */
  function Str(s: string): (r: Bytes)
    requires forall i :: 0 <= i < |s| ==> s[i] as int < 256
    ensures |r| == |s|
    ensures forall i :: 0 <= i < |s| ==> r[i] == B(s[i])
  {
    if s == [] then [] else [B(s[0])] + Str(s[1..])
  }

  /** C `isspace` in the "C" locale: space, \t, \n, \v, \f, \r. */
  predicate IsSpace(b: Byte) {
    b == SPACE || (TAB <= b <= CR)
  }

  /** C `isdigit`. */
  predicate IsDigit(b: Byte) {
    ZERO <= b <= ZERO + 9
  }

  /** The byte a C string pointer sees at offset `i`: past the end of the
      stored bytes it reads the terminating NUL. */
  function At(s: Bytes, i: nat): Byte {
    if i < |s| then s[i] else NUL
  }

  /** `strchr(set, b) != NULL`: true for a byte of `chars` and, as in C, for
      the terminator NUL. */
  predicate InSet(b: Byte, chars: string) {
    b == NUL || (b as int as char) in chars
  }

  /** Index of the first NUL in `s`, or `|s|`: `strlen` of a buffer. */
  function CLength(s: Bytes): (n: nat)
    ensures n <= |s|
    ensures forall i :: 0 <= i < n ==> s[i] != NUL
    ensures n < |s| ==> s[n] == NUL
  {
    if s == [] then 0
    else if s[0] == NUL then 0
    else 1 + CLength(s[1..])
  }

  /** What a C string function sees of a byte buffer: everything before the
      first NUL. */
  function CString(s: Bytes): (r: Bytes)
    ensures NUL !in r
    ensures r == s[..CLength(s)]
    ensures NUL !in s ==> r == s
  {
    s[..CLength(s)]
  }

  datatype Option<+T> = None | Some(value: T) {
    function GetOr(default: T): T {
      match this
      case Some(v) => v
      case None => default
    }
  }

  /** Every way the editor stops with a fatal error. `UntrackedRead` marks a
      point where the C code reads memory whose contents this model does not
      track (past a terminator, past a recorded length, the raw bytes of a
      step record); `OutOfFuel` marks a walk that has not finished within the
      step budget, which is how non-termination shows up in the model. */
  datatype Error =
    | BadPattern(pos: nat)     // "bad pattern '%s'@%ld": offset into the script line
    | BadRegex(source: Bytes)  // xregcomp rejected a regular expression
    | Hangs                    // the script compiler never returns
    | NoCloseBrace             // "no }"
    | NoLabel(name: Bytes)     // "no :%s"
    | Todo(cmd: Byte)          // "todo: %c"
    | UntrackedRead
    | OutOfFuel

  datatype Outcome<+T> = Ok(value: T) | Err(error: Error) {
    predicate IsFailure() {
      Err?
    }

    function PropagateFailure<U>(): Outcome<U>
      requires Err?
    {
      Err(error)
    }

    function Extract(): T
      requires Ok?
    {
      value
    }
  }

  /** The library services the editor uses as black boxes: the escape table
      of `unescape` (0 for "not an escape"), whether `xregcomp` accepts a
      regular expression, and whether `regexec` finds a match in a C string.
      The extended-syntax flag is folded into the last two. */
  datatype Lib = Lib(
    unescape: Byte -> Byte,
    compiles: Bytes -> bool,
    matches: (Bytes, Bytes) -> bool)
}
